=== FILE: README.md ===
# gogstools command-line core, in Dafny

gogstools builds command-line tools out of annotated Go structs. Each
exported field carries a `gs:"..."` tag. The tag says the field's kind
(`string`, `field`, `file`, `number`, `flag`, `multi`), its scope (`global`
or `local`) and its mode (`last` or `list`). It can also hold `key=value`
attributes: `help`, `default`, `required`, `complete`, `args`, `suffix` and
`enum`.

The library does three things with these descriptors:

- it parses a command line into clauses separated by `+` and `-` words;
- it answers bash completion requests by finding out what the word under
  the cursor is;
- it offers candidates read from tab- or comma-separated table files.

`completion/tsv.go` holds a smaller completer that only offers table header
names.

This project models that core as pure functions over immutable data, and
proves what the code promises about it. There is one module per concern:

| file | module | what it models |
|---|---|---|
| `results.dfy` | `Results` | Go's `(value, error)` pairs and optional values |
| `strings.dfy` | `Strings` | the `strings` functions the code uses, and Go's string order |
| `types.dfy` | `Types` | `gs/types.go`: kinds, scopes, modes, descriptors, values, error texts |
| `tag_parser.dfy` | `TagParser` | `gs/parser.go`: tag splitting, the descriptor grammar, switch names |
| `registry.dfy` | `Registry` | the tag loop of `reflectFields` |
| `clauses.dfy` | `Clauses` | `Parse` of `gs/command.go`: switches, values, clauses, defaults |
| `patterns.dfy` | `Patterns` | candidate filtering, switch and enum completion, suffix and brace patterns |
| `tables.dfy` | `Tables` | header parsing, column scanning, the header and content caches |
| `completion.dfy` | `Completion` | `analyzeCompletionContext`, `findLastFlag`, `findTSVFile`, `complete` |
| `tsv_completer.dfy` | `TsvCompleter` | `completion/tsv.go` |

Everything outside the model is passed in as a parameter:

- number parsing (`strconv.ParseFloat`) is a `FloatParser`;
- the file system is a `FileSystem` from names to line lists or open failures;
- glob matching (`filepath.Match`) is a `Glob`;
- directory listing is a `FileLister`.

The caches, which are mutable maps in Go, are threaded through as values.
The functions return the updated cache alongside their answer.

## Model

| member | source | states |
|---|---|---|
| Types.ParseErrorText | gs/types.go:101-106 | a parse error's text is its message, prefixed with `field <name>: ` exactly when it names a field |
| Types.ValidationErrorText | gs/types.go:114-116 | a validation error's text names the field and ends with the message |
| Strings.SplitJoin | gs/parser.go:195-196 | joining the pieces of a split with the separator gives back the text |
| Strings.JoinSplit | gs/parser.go:195-196 | splitting a join of separator-free pieces gives back the pieces |
| Strings.SplitCount | gs/parser.go:195-196 | a split yields one piece more than there are separators |
| Strings.TrimLeftByMeaning | gs/command.go:665-667 | left trimming drops exactly the longest prefix of characters satisfying the predicate |
| Strings.TrimRightByMeaning | gs/parser.go:27 | right trimming drops exactly the longest suffix of characters satisfying the predicate |
| Strings.TrimSpaceEnds | gs/parser.go:27 | a trimmed word has no space at either end, and trimming it again changes nothing |
| Strings.LessTransitive | gs/command.go:947-953 | the string order the sort compares with is transitive |
| Strings.LessTotal | gs/command.go:947-953 | any two distinct strings are ordered one way or the other |
| Strings.LessAsymmetric | gs/command.go:947-953 | the string order is asymmetric |
| TagParser.SplitTagParts | gs/parser.go:253-286 | the comma split that respects braces; `TagPartsRoundTrip`, `TagPartsCount`, `TagPartsEmpty` and `BracedTokenStaysWhole` state what it yields |
| TagParser.TagPartsRoundTrip | gs/parser.go:253-286 | joining the parts with commas restores the tag, except that a final separator comma is lost |
| TagParser.TagPartsCount | gs/parser.go:253-286 | one part per comma outside braces, plus one unless the tag is empty or ends in such a comma |
| TagParser.TagPartsEmpty | gs/parser.go:281-283 | only the empty tag has no parts |
| TagParser.BracedTokenCopied | gs/parser.go:258-276 | the characters of a token with one brace group are copied into the current part, commas inside the braces included |
| TagParser.CommaCloses | gs/parser.go:265-269 | a comma outside braces closes the current part, even an empty one, and starts a new one |
| TagParser.BracedTokenStaysWhole | gs/parser.go:258-278 | a token holding one brace group, with any commas inside the braces, ends only at the next comma outside them or at the end of the tag, and becomes one whole part |
| TagParser.TagPartsBraceExample | gs/parser.go:253-286 | `file,global,last,suffix=.{tsv,csv}` has four parts, the last keeping its braces |
| TagParser.ParseFieldType | gs/parser.go:67-85 | exactly the six kind names are accepted; any other name fails with `unknown field type: <name>` |
| TagParser.ParseFieldScope | gs/parser.go:87-97 | exactly `global` and `local` are accepted; any other name fails with `unknown field scope: <name>` |
| TagParser.ParseFieldMode | gs/parser.go:99-109 | exactly `last` and `list` are accepted; any other name fails with `unknown field mode: <name>` |
| TagParser.ParseArgumentType | gs/parser.go:233-249 | each of the four argument type names gives its type, and every other name means string |
| TagParser.ParseArgumentSpecs | gs/parser.go:193-230 | the `args=` list parser; `ArgumentSpecsCoverValue` and `SpecsOf` state its pieces, names and types |
| TagParser.ArgumentSpecsCoverValue | gs/parser.go:193-230 | the `args=` pieces are the text between `:` (or, with no `:`, between `,`), one spec per piece |
| TagParser.SpecsOf | gs/parser.go:196-210 | each piece gives one spec, named by the trimmed piece and typed by its type name |
| TagParser.ParseEnumValues | gs/parser.go:290-310 | the `enum=` list parser; `EnumValuesCoverValue` states its values |
| TagParser.EnumValuesCoverValue | gs/parser.go:290-310 | the enum values are the trimmed texts between `,` (else `:`), one more than the separators |
| TagParser.EnumColonExample | gs/parser.go:300-306 | `bar:line:area` lists the three values `bar`, `line`, `area` |
| TagParser.ParseKeyValue | gs/parser.go:111-148 | a token without `=` fails as an invalid pair; an accepted token keeps name, kind, scope and mode |
| TagParser.KeyValueAccepts | gs/parser.go:111-148 | a `key=value` token is accepted exactly when its key is known and, for `required`, its value is a boolean |
| TagParser.KeyValueErrors | gs/parser.go:111-148 | a rejected token fails only with one of the token error messages |
| TagParser.KeyValueSetsAttr | gs/parser.go:112-146 | an accepted token names a known key, gives that attribute the meaning of the trimmed text after the first `=`, and leaves every other attribute as it was |
| TagParser.ApplyPartAccepts | gs/parser.go:26-62 | one token is accepted exactly when it is valid at its position |
| TagParser.ApplyPartErrors | gs/parser.go:26-62 | a rejected token fails only with a token error message |
| TagParser.ApplyPartEffect | gs/parser.go:26-62 | a token changes kind, scope or mode only when it is bare and at position 0, 1 or 2, and an attribute only when it names that attribute |
| TagParser.ApplyPartsAccepts | gs/parser.go:26-62 | the tag loop succeeds exactly when every trimmed part is valid at its position |
| TagParser.ApplyPartsErrors | gs/parser.go:26-62 | the loop fails only with the error of one of its tokens |
| TagParser.ApplyPartsPositions | gs/parser.go:26-62 | the bare tokens at positions 0, 1 and 2 name the kind, scope and mode |
| TagParser.ApplyPartsKind | gs/parser.go:41-45 | only a bare token at position 0 sets the kind |
| TagParser.ApplyPartsScope | gs/parser.go:46-49 | only a bare token at position 1 sets the scope |
| TagParser.ApplyPartsMode | gs/parser.go:50-53 | only a bare token at position 2 sets the mode |
| TagParser.ApplyPartsSettings | gs/parser.go:26-62 | past position 0, each attribute gets the meaning of its last `key=` token, or keeps its value when there is none |
| TagParser.ApplyPartSetting | gs/parser.go:32-37 | a token past position 0 keeps the kind and sets only the attribute it names |
| TagParser.ParseFieldTag | gs/parser.go:12-65 | a parsed descriptor carries the field's own name |
| TagParser.FieldTagAccepts | gs/parser.go:20-62 | exactly the empty tag fails with `empty tag`; any other tag parses exactly when every trimmed part is valid at its position |
| TagParser.FieldTagErrors | gs/parser.go:26-62 | a non-empty tag fails only with the error of one of its tokens |
| TagParser.FieldTagPositions | gs/parser.go:13-18 | kind, scope and mode come from the bare tokens at positions 0, 1 and 2, and default to string, global and last |
| TagParser.FieldTagAttr | gs/parser.go:13-62 | each attribute has the meaning of its last `key=` token (a default converted with the final kind), and keeps its zero value otherwise |
| TagParser.ParseFlagName | gs/parser.go:169-189 | a switch name starts with `-` and holds no capital letter |
| TagParser.KebabCamel | gs/parser.go:174-188 | undoing the hyphenation restores a hyphen-free name |
| TagParser.FlagNameRoundTrip | gs/parser.go:169-189 | an exported field name is recovered from its switch name |
| TagParser.FlagNameInjective | gs/parser.go:169-189 | distinct exported field names get distinct switch names |
| TagParser.TwoWordFlag | gs/parser.go:174-188 | a two-word field name becomes two lower-case words joined by a hyphen |
| TagParser.FlagNameExamples | gs/parser.go:168 | `X` becomes `-x` and `InputFile` becomes `-input-file` |
| Registry.RegisterFields | gs/types.go:130-146 | a successful registration gives at most one descriptor per declaration; `RegisterAccepts` and `RegisterNames` state that they are exactly the tagged fields' descriptors, in order |
| Registry.Tagged | gs/types.go:132-146 | the declarations kept are exactly those with a tag, in declaration order |
| Registry.RegisterAccepts | gs/types.go:119-149 | registration succeeds exactly when every tagged field's tag parses, and then lists their descriptors in declaration order |
| Registry.RegisterNames | gs/types.go:145 | the descriptors are named after the tagged fields, in order |
| Registry.FirstBad | gs/types.go:134-146 | the first tagged field whose tag does not parse |
| Registry.RegisterFirstError | gs/types.go:140-143 | a failure names the first tagged field whose tag does not parse, and carries that tag's own error |
| Registry.RegisterSkipsUntagged | gs/types.go:136-138 | untagged fields never reach the tag parser, so a failure is never the empty-tag error |
| Clauses.FindField | gs/command.go:178-189 | the first field whose switch name is the given word, or none when no field has it |
| Clauses.SwitchValue | gs/command.go:201-288 | a decoded switch consumes at least its own word and no more words than there are |
| Clauses.SwitchErrors | gs/command.go:206-256 | a multi-argument field without `args=` fails with `multi-argument flag F has no argument specification`, one followed by too few words with `flag F requires N arguments`, and a value switch with no word after it with `flag F requires a value` |
| Clauses.ParseSwitch | gs/command.go:170-290 | a successful switch consumes between one word and all the remaining words |
| Clauses.EnumValidation | gs/command.go:307-331 | a string field with an enumeration accepts exactly its members and keeps the word; without one any word is accepted |
| Clauses.EnumOnlyForStrings | gs/command.go:315 | every other kind converts the word as the plain value parser does |
| Clauses.ParseValueWithValidation | gs/command.go:307-331 | validation never changes a value: a conversion error is passed on, and the only new error is the enumeration error of a string field whose enumeration lacks the word |
| Clauses.DefaultMatchesValue | gs/parser.go:150-165 | a tag default means what the same word means on the command line whenever the command line accepts it, and 0 or false when a number or boolean word is rejected; text kinds keep the word |
| Clauses.ArgValuesAccepts | gs/command.go:218-226 | a multi-argument switch builds its map exactly when every word converts to its argument's type |
| Clauses.ArgValuesContents | gs/command.go:218-226 | the argument map holds exactly the declared names, each mapped to the converted word of the last argument with that name |
| Clauses.StoreFrame | gs/command.go:273-286 | storing touches only its own key, which is present afterwards |
| Clauses.StoreListCollects | gs/command.go:273-283 | repeating a list-mode switch collects its values in order, behind a single earlier value |
| Clauses.StoreListAppends | gs/command.go:278-279 | values are appended, in order, to a list already stored |
| Clauses.StoreLastWins | gs/command.go:284-286 | repeating a last-mode switch keeps only the final value |
| Clauses.SwitchNegation | gs/command.go:228-270 | a `+` switch consumes the same words and fails the same way as its `-` form, and stores the negated value |
| Clauses.SwitchEffect | gs/command.go:192-288 | a switch consumes exactly the words its kind needs and writes only its own field, in the global map for a global field and in the clause otherwise |
| Clauses.SwitchUnknown | gs/command.go:178-189 | a switch is reported unknown exactly when no field has its name |
| Clauses.SwitchErrorFirstChar | gs/command.go:206-288 | the errors of a known switch never read as `unknown flag` |
| Clauses.DefaultsMeaning | gs/command.go:346-357 | defaults never override a value present, fill absent names from the first eligible field with a default, and add nothing else |
| Clauses.Defaults | gs/command.go:346-357 | values present are kept, every eligible field ends up with a value, and every added name belongs to an eligible field |
| Clauses.CompleteMeaning | gs/command.go:134-143 | a finished clause keeps its values, takes the global values it lacks, then the defaults it still lacks, and keeps its polarity |
| Clauses.ParseFills | gs/command.go:130-154 | the result holds one finished clause per clause read, with global values completed by the global defaults |
| Clauses.ConsumeShape | gs/command.go:52-127 | one pass of the loop moves exactly as the reference reading of the words does |
| Clauses.ScanWalk | gs/command.go:52-127 | the loop produces exactly the clauses, polarities and positional words of the reference reading |
| Clauses.ParseShape | gs/command.go:44-162 | the first clause is positive, each later one is negated exactly when `+` opened it, and each holds the positional words after its separator |
| Clauses.ParseClauses | gs/command.go:56-71 | without switch words there is one clause more than separators, the first positive and each later one negated exactly when its separator is `+` |
| Clauses.ParseFirstPositive | gs/command.go:44-71 | the first clause of every successful parse is positive |
| Clauses.Parse | gs/command.go:44-162 | a parse yields at least one clause, and every clause holds a value for every name of the global map |
| Clauses.PositionalEffect | gs/command.go:112-126 | a positional word is appended to the clause's words, and the first table file becomes `Argv` unless the clause or the global map has one |
| Clauses.TableExtensions | gs/command.go:118 | the table test ignores case and what precedes `.tsv` or `.csv` |
| Patterns.FilterMembers | gs/command.go:624-630 | a candidate is kept exactly when its lower-cased form starts with the lower-cased partial word |
| Patterns.FilterSubsequence | gs/command.go:624-630 | filtering keeps the candidates' order |
| Patterns.FilterEmptyPartial | gs/command.go:624-630 | an empty partial word keeps every candidate |
| Patterns.FilterPartial | gs/command.go:624-630 | the kept candidates match the partial word and come from the candidates, and there are no more of them |
| Patterns.FilterIgnoresCase | gs/command.go:624 | the filter ignores the case of the partial word |
| Patterns.FilterAppend | gs/command.go:962-991 | filtering a concatenation filters each part |
| Patterns.CompleteFlags | gs/command.go:962-991 | switch completion; `CompleteFlagsSpec` and `CompleteFlagsAll` state what it offers and in which order |
| Patterns.CompleteFlagsSpec | gs/command.go:962-991 | switch completion offers the matching spellings, `-` before `+` for each field in order, then the matching built-in switches |
| Patterns.CompleteFlagsAll | gs/command.go:962-991 | with nothing typed, every field's two spellings and the four built-ins are offered |
| Patterns.CompleteEnumSpec | gs/command.go:1077-1092 | an enum value is offered exactly when it is declared and matches, in declared order |
| Patterns.CompleteEnum | gs/command.go:1077-1092 | every enum offer is a declared value of the descriptor that matches the partial word |
| Patterns.MatchesBracePattern | gs/command.go:1123-1144 | the brace-pattern test; `BraceMeaning` states exactly which names it accepts |
| Patterns.BraceMeaning | gs/command.go:1123-1144 | a brace pattern matches exactly the names that end in one of its expansions |
| Patterns.AnyOptionMeaning | gs/command.go:1135-1141 | the option loop succeeds exactly when some remaining expansion is a suffix of the name |
| Patterns.BraceOfShape | gs/command.go:1124-1133 | the brace sections of `pre{inner}post` are `pre`, the comma-split `inner` and `post` |
| Patterns.BraceTwoOptions | gs/command.go:1123-1144 | the pattern `.{a,c}` accepts names ending in `.a` and in `.c` |
| Patterns.BraceOption | gs/command.go:1135-1141 | a name ending in any one expansion matches |
| Patterns.MatchesSuffixPattern | gs/command.go:1096-1120 | the suffix test; `PlainSuffix` and `SuffixPatternIgnoresCase` state it for literal patterns and for case, and braces go to `MatchesBracePattern` |
| Patterns.PlainSuffix | gs/command.go:1096-1120 | a pattern with neither braces nor glob characters is a case-insensitive suffix test |
| Patterns.SuffixPatternIgnoresCase | gs/command.go:1097-1098 | suffix matching ignores the case of name and pattern |
| Tables.CleanNamesMeaning | gs/command.go:678-684 | a name is kept exactly when some column trims to it and it is not empty |
| Tables.CleanNames | gs/command.go:678-684 | the cleaned names are non-empty and carry no surrounding space |
| Tables.ParseTSVHeader | gs/command.go:663-687 | every header name is non-empty and carries no surrounding space |
| Tables.HeaderNamesClean | gs/command.go:663-687 | header names are never empty and carry no surrounding space |
| Tables.HeaderRoundTripTabs | gs/command.go:663-687 | parsing a tab-joined list of well-formed names gives them back |
| Tables.HeaderRoundTripCommas | gs/command.go:663-687 | parsing a comma-joined list of well-formed names gives them back |
| Tables.HeaderIgnoresLeader | gs/command.go:665-667 | leading characters other than letters and digits change nothing |
| Tables.IndexOf | gs/command.go:905-915 | the position of the first header name equal to the column name, none exactly when it is absent |
| Tables.InsertSortedSpec | gs/command.go:940-953 | inserting into an ascending list keeps it ascending and adds exactly the new value |
| Tables.CollectSpec | gs/command.go:921-953 | the collected values are ascending and exactly the non-empty cells seen in the column |
| Tables.FieldValuesSpec | gs/command.go:921-953 | at most `scanDepth` values, ascending, exactly the non-empty cells of the first `scanDepth` data lines |
| Tables.SortedUnique | gs/command.go:940-953 | the sorted result does not depend on the order in which the set of values is visited |
| Tables.ReadHeader | gs/command.go:636-660 | reading a header fails exactly when the file cannot be opened or is empty |
| Tables.ReadValues | gs/command.go:889-915 | reading a column fails exactly when the file cannot be opened or is empty |
| Tables.GetFields | gs/command.go:636-660 | a cached file is answered from the cache; otherwise a successful read is cached and a failed one leaves the cache alone |
| Tables.GetFieldsSticky | gs/command.go:637-640 | once cached, a file's names come back unchanged whatever the file holds later |
| Tables.GetFieldsTransparent | gs/command.go:636-660 | while files do not change, the cache answers what reading answers and stays faithful |
| Tables.CompleteField | gs/command.go:617-633 | field completion fails exactly when the header lookup fails, offers only looked-up names that match the partial word, and adds at most the named file to the cache |
| Tables.CompleteFieldSpec | gs/command.go:617-633 | the offered names are exactly the header names matching the partial word, in header order, and a read failure is passed on |
| Tables.GetFieldValues | gs/command.go:875-959 | a cached column is answered from the cache; otherwise the file gets an entry even if opening fails, and other files are untouched |
| Tables.GetFieldValuesSpec | gs/command.go:905-953 | the values are ascending, at most `scanDepth`, exactly the non-empty cells of the named column, and none for a missing column |
| Tables.GetFieldValuesSticky | gs/command.go:877-886 | once a column is cached, or found in a file whose header has it, asking again gives the same values without reading |
| Tables.GetFieldValuesTransparent | gs/command.go:875-959 | while files do not change, the content cache answers what reading answers and stays faithful |
| Tables.CompleteContent | gs/command.go:856-872 | every content offer matches the partial word; the named file gets a cache entry, and no other file is added |
| Tables.CompleteContentSpec | gs/command.go:856-872 | a value is offered exactly when the lookup finds it and it matches, in value order |
| Completion.FindLastFlag | gs/command.go:785-825 | a switch found lies before the cursor and among the words |
| Completion.FindLastFlagMeaning | gs/command.go:785-825 | a switch is found exactly when the nearest prefixed word before the cursor names a field, with `+` read as `-`, and its position and field are reported |
| Completion.FindLastFlagNone | gs/command.go:794-823 | with no prefixed word before the cursor no switch is found |
| Completion.LookBackSkips | gs/command.go:794-823 | plain words between the nearest prefixed word and the cursor are skipped |
| Completion.LookBackPrefix | gs/command.go:794-823 | the look-back reads only the words before the cursor |
| Completion.ShouldUseBareFileCompletion | gs/command.go:1148-1163 | the bare-file test; `BareFileMeaning` characterises it as the start or a position after a word that is not a switch spelling |
| Completion.BareFileMeaning | gs/command.go:1148-1163 | a bare file position is the start, or a position after a word that is not a switch spelling |
| Completion.FindArgv | gs/command.go:716-722 | the first field named `Argv`: every earlier field has another name, and there is none exactly when no field has that name |
| Completion.FindTSVFileMeaning | gs/command.go:595-614 | the table file is the first candidate word, and is empty exactly when no word is a candidate |
| Completion.FindTSVFile | gs/command.go:595-614 | a table file found is one of the words and ends in `.tsv` or `.csv` |
| Completion.AnalyzeCompletionContext | gs/command.go:690-782 | content is never the kind; a multi-argument context carries the argument under the cursor; an enum context has a string field with values |
| Completion.Classify | gs/command.go:690-782 | the classification without the table file has the same guarantees |
| Completion.AnalyzeFlag | gs/command.go:696-704 | a word starting with `-` or `+` is completed as a switch, and nothing else is |
| Completion.AnalyzeField | gs/command.go:729-741 | field names are completed exactly right after a field-kind switch |
| Completion.AnalyzeEnum | gs/command.go:743-753 | enum values are completed exactly right after a string switch with values, whose descriptor is passed along |
| Completion.AnalyzeMulti | gs/command.go:729-770 | the k-th word after a multi-argument switch completes its k-th argument while there is one, and a word after a field argument carries that field |
| Completion.AnalyzeBareFile | gs/command.go:710-726 | without a switch the kind is file, borrowing `Argv`'s descriptor exactly at a bare file position |
| Completion.AnalyzeLooksBack | gs/command.go:690-782 | words after the cursor change nothing but the table file |
| Completion.CompleteFailsOnlyOnHeaders | gs/command.go:563-582 | completion fails only when an uncached table header cannot be read while completing field names, with that read's error |
| Completion.CompleteSwitches | gs/command.go:567-568 | a switch word is offered the switch names and touches no cache |
| Completion.CompleteKeepsCachesFaithful | gs/command.go:563-582 | completion keeps both caches faithful to unchanged files |
| Completion.CompleteAt | gs/command.go:563-582 | one completion touches at most one of the two caches, and a failed one touches neither |
| Completion.CompleteMultiArgument | gs/command.go:828-853 | at most one cache changes, and a failure comes only from a field argument whose table header cannot be read, leaving both caches alone |
| Completion.MultiArgumentOffers | gs/command.go:828-853 | a field argument offers exactly the matching names of the table header, a content argument the matching values of the named column, a file argument, or a context with no argument specification, the file listing, and a string or number argument nothing |
| TsvCompleter.NewTSVCompleter | completion/tsv.go:17-21 | a new completer's cache is faithful to every file system, so the invariant that completion keeps holds from the start |
| TsvCompleter.TsvCandidateMeaning | completion/tsv.go:70-89 | a word is taken exactly when it ends in `.tsv` and follows a file switch, or is unprefixed and first or after an unprefixed word |
| TsvCompleter.TsvCandidateIsTableCandidate | completion/tsv.go:70-89 | every word this completer takes is also taken by the command's own analyzer |
| TsvCompleter.FindTSVFileMeaning | completion/tsv.go:70-89 | the table file is the first candidate word, and is empty exactly when there is none |
| TsvCompleter.FindTSVFile | completion/tsv.go:70-89 | a table file found is one of the words and ends in `.tsv` |
| TsvCompleter.Complete | completion/tsv.go:24-66 | the stand-alone completer; `CompleteSkipsSwitches`, `CompleteOffersHeaderNames`, `CompleteTableMatches`, `CompleteFallsBack` and `CompleteCurrentFile` state what it offers |
| TsvCompleter.CompleteSkipsSwitches | completion/tsv.go:42-46 | a switch word not after a field switch gets nothing and leaves the cache alone |
| TsvCompleter.CompleteOffersHeaderNames | completion/tsv.go:24-66 | every offer is a header name, of the table file matching the word or of the `.tsv` word itself |
| TsvCompleter.CompleteTableMatches | completion/tsv.go:46-54 | when the table file on the line has names matching the word, exactly those are offered, in header order |
| TsvCompleter.CompleteFallsBack | completion/tsv.go:46-65 | when the table file gives no match, a readable `.tsv` word offers all of its names and any other word gets nothing |
| TsvCompleter.CompleteCurrentFile | completion/tsv.go:56-63 | with no table file on the line, a readable `.tsv` word offers all its header names |
| TsvCompleter.CompleteKeepsCacheFaithful | completion/tsv.go:24-66 | completion keeps the cache faithful to unchanged files |

## Left out

- Reflection: `reflectFields` walks a struct type. Here the fields are a list of (name, tag) pairs. `applyGlobalToConfig` and the other reflection-based setters (gs/command.go:360-389) are not modelled.
- Parse's last loop (gs/command.go:148-154) fills defaults for global fields that exist only to feed `applyGlobalToConfig`. `ParseFills` states the global defaults; writing into the config struct is not modelled.
- `strconv.ParseFloat` is the `FloatParser` parameter. `strconv.ParseBool` is modelled exactly.
- Clauses.FloatError, Clauses.BoolError, Clauses.ParseValue, Clauses.ParseArgValue: the `*strconv.NumError` texts are modelled with the word between plain double quotes. `strconv.Quote` escaping of quotes, backslashes and non-printable characters is not modelled. The `value out of range` error of `ParseFloat` is not distinguished from `invalid syntax`; which words overflow is up to the `FloatParser`. `ParseFloat` also accepts `NaN` and `Inf` spellings; `Num` holds a `real`, so those values are not modelled, and a `FloatParser` can only reject such a word or give it a real value.
- `filepath.Match` is the `Glob` parameter of `MatchesSuffixPattern`.
- Listing directories (`completeFilesWithSuffix`, `completeFiles`) is the `FileLister` parameter.
- Files are a `FileSystem` parameter mapping a name to its lines or to an open failure. `bufio.Scanner`'s line-length limit and read errors after opening are not modelled.
- `strings.ToLower` is modelled on ASCII letters only. Other Unicode case mappings are not modelled.
- `parseFlagName`'s one-byte test is modelled as a single character below 128.
- `Execute`, `handleCompletion`, the help and manual pages, the bash script generator (`completion/bash.go`) and `examples/chart` are not part of this model.
- The `context.Context` argument of the stand-alone completer's `Complete` is ignored, as the code ignores it.
- `Tables.FieldValuesSpec`: the exchange sort of `getFieldValues` is modelled by its result, the ascending list of the distinct values. `SortedUnique` shows that this result is unique.
- `Clauses.ParseClauses`: the count of clauses is stated only for command lines without switch words. A `+` or `-` consumed as a switch's value does not open a clause. `Clauses.ParseShape` states the general case through the reference reading of the words.
- `Clauses.SwitchValue`: its own contract states only the width bounds. `Clauses.SwitchErrors` states its three early errors with their texts, `Clauses.SwitchErrorFirstChar` and `Clauses.ArgValuesAccepts` the conversion errors, and `Clauses.SwitchEffect`, `Clauses.SwitchNegation`, `Clauses.EnumValidation` and `Clauses.ArgValuesContents` what it stores.
- A test in gs/command_test.go:296-308 expects an out-of-enum value to parse. The code rejects it (gs/command.go:315-327), and the model follows the code.
- Completion.CompleteAt, TsvCompleter.Complete: the cursor position is a `nat`. In Go it comes from `strconv.Atoi` unchecked (gs/command.go:434-445), and a negative position panics with an index out of range at gs/command.go:696-697 and completion/tsv.go:26-27. That panic is not modelled.
- A field-name completion with no table file on the line reads the file `""`. The read fails and the error is passed on, as in the code.

=== FILE: clauses.dfy ===
/** The clause parser of gs/command.go: a command line is cut into clauses at
    the `+` and `-` separators; `-name value` sets a field in the current
    clause (or in the global map, for global fields), `+name value` does the
    same but marks the value negated; every other word is a positional
    argument. Afterwards global values and defaults fill the gaps. */
module Clauses {
  import opened Results
  import opened Strings
  import opened Types
  import opened TagParser

  // =====================================================================
  // Finding the field a switch names
  // =====================================================================

  /** The first field whose switch name is `flag`. */
  function FindField(fields: seq<FieldMeta>, flag: string): (r: Option<nat>)
    ensures r.Some? ==> r.value < |fields| && ParseFlagName(fields[r.value].name) == flag
    ensures r.Some? ==> forall j :: 0 <= j < r.value ==> ParseFlagName(fields[j].name) != flag
    ensures r.None? ==> forall j :: 0 <= j < |fields| ==> ParseFlagName(fields[j].name) != flag
    decreases |fields|
  {
    if |fields| == 0 then None
    else if ParseFlagName(fields[0].name) == flag then Some(0)
    else match FindField(fields[1..], flag)
      case None => None
      case Some(k) => Some(k + 1)
  }

  // =====================================================================
  // Converting values
  // =====================================================================

  /** The error text of a failed `strconv.ParseFloat`. */
  function FloatError(value: string): string {
    "strconv.ParseFloat: parsing \"" + value + "\": invalid syntax"
  }

  /** The error text of a failed `strconv.ParseBool`. */
  function BoolError(value: string): string {
    "strconv.ParseBool: parsing \"" + value + "\": invalid syntax"
  }

  /** parseValue: numbers and booleans are parsed, every other kind keeps
      the text. */
  function ParseValue(value: string, kind: Kind, parseFloat: FloatParser): (r: Result<Value>)
  {
    match kind
    case NumberKind =>
      (match parseFloat(value)
       case None => Err(FloatError(value))
       case Some(x) => Ok(Num(x)))
    case FlagKind =>
      (match ParseBool(value)
       case None => Err(BoolError(value))
       case Some(b) => Ok(Bool(b)))
    case _ => Ok(Str(value))
  }

  /** The error for a value outside a string field's enumeration. */
  function EnumError(value: string, allowed: seq<string>): string {
    "invalid value '" + value + "', must be one of: " + Join(allowed, ", ")
  }

  /** parseValueWithValidation: parseValue, then the enumeration check for
      string fields that declare one. */
  function ParseValueWithValidation(value: string, meta: FieldMeta, parseFloat: FloatParser): (r: Result<Value>)
    ensures ParseValue(value, meta.kind, parseFloat).Err? ==> r == ParseValue(value, meta.kind, parseFloat)
    ensures r.Ok? ==> r == ParseValue(value, meta.kind, parseFloat)
    ensures r.Err? && ParseValue(value, meta.kind, parseFloat).Ok? ==>
              meta.kind == StringKind && |meta.enum| > 0 && value !in meta.enum && r.msg == EnumError(value, meta.enum)
  {
    var v :- ParseValue(value, meta.kind, parseFloat);
    if meta.kind == StringKind && |meta.enum| > 0 && value !in meta.enum then
      Err(EnumError(value, meta.enum))
    else
      Ok(v)
  }

  /** parseValueByArgumentType: only number arguments are converted. */
  function ParseArgValue(value: string, argType: ArgType, parseFloat: FloatParser): (r: Result<Value>)
  {
    if argType == NumberArg then
      match parseFloat(value)
      case None => Err(FloatError(value))
      case Some(x) => Ok(Num(x))
    else Ok(Str(value))
  }

  /** The argument map of a multi-argument switch: each specification, in
      order, names the value converted from the word in its position. */
  function ArgValues(specs: seq<ArgumentSpec>, words: seq<string>, flag: string,
                     acc: map<string, Value>, parseFloat: FloatParser): (r: Result<map<string, Value>>)
    requires |specs| <= |words|
    decreases |specs|
  {
    if |specs| == 0 then Ok(acc)
    else
      match ParseArgValue(words[0], specs[0].argType, parseFloat)
      case Err(e) => Err("parsing argument " + specs[0].name + " for " + flag + ": " + e)
      case Ok(v) => ArgValues(specs[1..], words[1..], flag, acc[specs[0].name := v], parseFloat)
  }

  // =====================================================================
  // One switch (parseFlagWithNegation)
  // =====================================================================

  /** The value a switch stores and the number of words it consumes. */
  datatype Decoded = Decoded(value: Value, width: nat)

  /** The number of words a switch of this field consumes. */
  function SwitchWidth(meta: FieldMeta): nat {
    match meta.kind
    case FlagKind => 1
    case MultiKind => |meta.args| + 1
    case _ => 2
  }

  /** The value a negated single-value switch stores. */
  function NegatedWrap(v: Value): Value {
    Obj(map["value" := v, "_negated" := Bool(true)])
  }

  /** Decodes the words of one switch; `args[0]` is the switch itself. */
  function SwitchValue(meta: FieldMeta, args: seq<string>, negated: bool, parseFloat: FloatParser): (r: Result<Decoded>)
    requires |args| > 0
    ensures r.Ok? ==> 1 <= r.value.width <= |args| && !r.value.value.Strs?
  {
    var flag := args[0];
    match meta.kind
    case FlagKind => Ok(Decoded(Bool(true), 1))
    case MultiKind =>
      if |meta.args| == 0 then
        Err("multi-argument flag " + flag + " has no argument specification")
      else if |args| < |meta.args| + 1 then
        Err("flag " + flag + " requires " + NatToString(|meta.args|) + " arguments")
      else
        var m :- ArgValues(meta.args, args[1..], flag, map[], parseFloat);
        Ok(Decoded(Obj(if negated then m["_negated" := Bool(true)] else m), |meta.args| + 1))
    case _ =>
      if |args| < 2 then
        Err("flag " + flag + " requires a value")
      else
        match ParseValueWithValidation(args[1], meta, parseFloat)
        case Err(e) => Err("parsing value for " + flag + ": " + e)
        case Ok(v) => Ok(Decoded(if negated then NegatedWrap(v) else v, 2))
  }

  /** Stores `v` under `name`: list mode appends to the list already there
      (starting one when the key is absent, and wrapping a lone earlier
      value), last mode overwrites. */
  function Store(target: map<string, Value>, name: string, v: Value, mode: Mode): (r: map<string, Value>)
  {
    if mode == LastMode then target[name := v]
    else if name !in target then target[name := List([v])]
    else if target[name].List? then target[name := List(target[name].elems + [v])]
    else target[name := List([target[name], v])]
  }

  /** The mode a switch is stored with: boolean flags always overwrite. */
  function StoreMode(meta: FieldMeta): Mode {
    if meta.kind == FlagKind then LastMode else meta.mode
  }

  /** The effect of one switch: the words consumed and the updated clause
      and global maps. */
  datatype Step = Step(consumed: nat, clause: map<string, Value>, global: map<string, Value>)

  function ParseSwitch(fields: seq<FieldMeta>, args: seq<string>, clause: map<string, Value>,
                       global: map<string, Value>, negated: bool, parseFloat: FloatParser): (r: Result<Step>)
    ensures r.Ok? ==> 1 <= r.value.consumed <= |args|
  {
    if |args| == 0 then Err("no arguments to parse")
    else
      match FindField(fields, args[0])
      case None => Err("unknown flag: " + args[0])
      case Some(k) =>
        var meta := fields[k];
        var d :- SwitchValue(meta, args, negated, parseFloat);
        if meta.scope == Global then
          Ok(Step(d.width, clause, Store(global, meta.name, d.value, StoreMode(meta))))
        else
          Ok(Step(d.width, Store(clause, meta.name, d.value, StoreMode(meta)), global))
  }

  // =====================================================================
  // The command line (Parse)
  // =====================================================================

  /** The loop state of Parse: the finished clauses, the open clause and the
      global values. */
  datatype ScanState = ScanState(done: seq<ClauseSet>, current: ClauseSet, global: map<string, Value>)

  function EmptyClause(negated: bool): ClauseSet {
    ClauseSet(map[], negated)
  }

  /** A separator closes the open clause and opens a fresh one. */
  function StartClause(st: ScanState, negated: bool): (r: ScanState)
  {
    ScanState(st.done + [st.current], EmptyClause(negated), st.global)
  }

  /** getStringSlice: the positional list so far (empty when absent). */
  function Positionals(fields: map<string, Value>): seq<string> {
    if "_args" in fields && fields["_args"].Strs? then fields["_args"].items else []
  }

  /** A word that names a TSV or CSV file, ignoring case. */
  predicate LooksLikeTable(arg: string) {
    HasSuffix(Lower(arg), ".tsv") || HasSuffix(Lower(arg), ".csv")
  }

  /** A positional word joins `_args`; the first table file of a clause
      also becomes its `Argv`, unless `Argv` is already set in the clause
      or globally. */
  function AddPositional(st: ScanState, arg: string): (r: ScanState)
  {
    var c := st.current.fields;
    var withArgs := c["_args" := Strs(Positionals(c) + [arg])];
    var adopt := LooksLikeTable(arg) && "Argv" !in c && "Argv" !in st.global;
    var fields := if adopt then withArgs["Argv" := Str(arg)] else withArgs;
    ScanState(st.done, ClauseSet(fields, st.current.negated), st.global)
  }

  /** Applies a successful switch step to the loop state. */
  function Advance(st: ScanState, step: Step): ScanState {
    ScanState(st.done, ClauseSet(step.clause, st.current.negated), step.global)
  }

  /** The loop position and state after one word (or one switch with its
      values) has been read. */
  datatype Cursor = Cursor(pos: nat, st: ScanState)

  /** One pass of the loop body of Parse, at word `i`. */
  function Consume(fields: seq<FieldMeta>, args: seq<string>, i: nat, st: ScanState, parseFloat: FloatParser): (r: Result<Cursor>)
    requires i < |args|
    ensures r.Ok? ==> i < r.value.pos <= |args|
  {
    var arg := args[i];
    if arg == "+" then Ok(Cursor(i + 1, StartClause(st, true)))
    else if arg == "-" then Ok(Cursor(i + 1, StartClause(st, false)))
    else if HasPrefix(arg, "+") then
      var step :- ParseSwitch(fields, ["-" + arg[1..]] + args[i + 1..], st.current.fields, st.global, true, parseFloat);
      Ok(Cursor(i + step.consumed, Advance(st, step)))
    else if HasPrefix(arg, "-") then
      var step :- ParseSwitch(fields, args[i..], st.current.fields, st.global, false, parseFloat);
      Ok(Cursor(i + step.consumed, Advance(st, step)))
    else
      Ok(Cursor(i + 1, AddPositional(st, arg)))
  }

  /** The main loop of Parse, from word `i` on. */
  function Scan(fields: seq<FieldMeta>, args: seq<string>, i: nat, st: ScanState, parseFloat: FloatParser): (r: Result<ScanState>)
    requires i <= |args|
    decreases |args| - i
  {
    if i == |args| then Ok(st)
    else
      var c :- Consume(fields, args, i, st, parseFloat);
      Scan(fields, args, c.pos, c.st, parseFloat)
  }

  /** Whether a field's default is applied: every field's in a clause, only
      global fields' in the global map. */
  predicate Eligible(meta: FieldMeta, globalOnly: bool) {
    meta.defaultValue.Some? && (!globalOnly || meta.scope == Global)
  }

  /** The defaults of the eligible `fields`, in order, for the names
      `present` lacks (applyDefaults, and the global-default loop of Parse). */
  function Defaults(fields: seq<FieldMeta>, present: map<string, Value>, globalOnly: bool): (r: map<string, Value>)
    ensures forall k :: k in present ==> k in r && r[k] == present[k]
    ensures forall i :: 0 <= i < |fields| && Eligible(fields[i], globalOnly) ==> fields[i].name in r
    ensures forall k :: k in r ==> k in present || exists i :: 0 <= i < |fields| && fields[i].name == k && Eligible(fields[i], globalOnly)
    decreases |fields|
  {
    if |fields| == 0 then present
    else if Eligible(fields[0], globalOnly) && fields[0].name !in present then
      Defaults(fields[1..], present[fields[0].name := fields[0].defaultValue.value], globalOnly)
    else Defaults(fields[1..], present, globalOnly)
  }

  /** A clause after the global fill and applyDefaults. */
  function Complete(fields: seq<FieldMeta>, global: map<string, Value>, c: ClauseSet): ClauseSet {
    ClauseSet(Defaults(fields, global + c.fields, false), c.negated)
  }

  /** The outcome of Parse: the clauses and the global values (which the
      command then copies into its configuration). */
  datatype Parsed = Parsed(clauses: seq<ClauseSet>, global: map<string, Value>)

  function InitialState(): ScanState {
    ScanState([], EmptyClause(false), map[])
  }

  /** The loop of Parse over the whole command line. */
  function ScanAll(fields: seq<FieldMeta>, args: seq<string>, parseFloat: FloatParser): Result<ScanState>
  {
    Scan(fields, args, 0, InitialState(), parseFloat)
  }

  /** The clauses as the loop leaves them, before any filling. */
  function Raw(st: ScanState): seq<ClauseSet> {
    st.done + [st.current]
  }

  function Parse(fields: seq<FieldMeta>, args: seq<string>, parseFloat: FloatParser): (r: Result<Parsed>)
    ensures r.Ok? ==> |r.value.clauses| >= 1
    ensures r.Ok? ==> forall j, k :: 0 <= j < |r.value.clauses| && k in r.value.global ==> k in r.value.clauses[j].fields
  {
    var st :- ScanAll(fields, args, parseFloat);
    var raw := Raw(st);
    Ok(Parsed(seq(|raw|, j requires 0 <= j < |raw| => Complete(fields, st.global, raw[j])),
              Defaults(fields, st.global, true)))
  }

  // =====================================================================
  // Values: enumerations, booleans, argument maps
  // =====================================================================

  /** A string field with an enumeration accepts exactly its members, and
      keeps the text; one without an enumeration accepts any text. */
  lemma EnumValidation(value: string, meta: FieldMeta, parseFloat: FloatParser)
    requires meta.kind == StringKind
    ensures ParseValueWithValidation(value, meta, parseFloat).Ok? <==> (|meta.enum| == 0 || value in meta.enum)
    ensures ParseValueWithValidation(value, meta, parseFloat).Ok? ==>
              ParseValueWithValidation(value, meta, parseFloat).value == Str(value)
    ensures ParseValueWithValidation(value, meta, parseFloat).Err? ==>
              ParseValueWithValidation(value, meta, parseFloat).msg == EnumError(value, meta.enum)
  {
  }

  /** Only string fields check an enumeration: every other kind converts
      the word as parseValue does, whatever enumeration the tag declared. */
  lemma EnumOnlyForStrings(value: string, meta: FieldMeta, parseFloat: FloatParser)
    requires meta.kind != StringKind
    ensures ParseValueWithValidation(value, meta, parseFloat) == ParseValue(value, meta.kind, parseFloat)
  {
  }

  /** A `default=` word in a tag means what the same word means on the
      command line whenever the command line accepts it; a number or
      boolean default the command line would reject falls back to 0 or
      false. Text kinds keep the word either way. */
  lemma DefaultMatchesValue(w: string, kind: Kind, parseFloat: FloatParser)
    ensures ParseValue(w, kind, parseFloat).Err? <==>
              (kind == NumberKind && parseFloat(w).None?) || (kind == FlagKind && ParseBool(w).None?)
    ensures ParseValue(w, kind, parseFloat).Ok? ==>
              ParseDefaultValue(w, kind, parseFloat) == ParseValue(w, kind, parseFloat).value
    ensures ParseValue(w, kind, parseFloat).Err? ==>
              ParseDefaultValue(w, kind, parseFloat) == (if kind == NumberKind then Num(0.0) else Bool(false))
    ensures kind == StringKind || kind == FieldKind || kind == FileKind || kind == MultiKind ==>
              ParseValue(w, kind, parseFloat) == Ok(Str(w)) && ParseDefaultValue(w, kind, parseFloat) == Str(w)
  {
  }

  /** Whether every argument word converts under its specification. */
  predicate ArgsConvert(specs: seq<ArgumentSpec>, words: seq<string>, parseFloat: FloatParser)
    requires |specs| <= |words|
  {
    forall j :: 0 <= j < |specs| ==> ParseArgValue(words[j], specs[j].argType, parseFloat).Ok?
  }

  /** No later specification reuses the name of specification `j`. */
  predicate LastOfName(specs: seq<ArgumentSpec>, j: nat)
    requires j < |specs|
  {
    forall j' :: j < j' < |specs| ==> specs[j'].name != specs[j].name
  }

  /** The argument map is built exactly when every word converts. */
  lemma {:induction false} ArgValuesAccepts(specs: seq<ArgumentSpec>, words: seq<string>, flag: string,
                                            acc: map<string, Value>, parseFloat: FloatParser)
    requires |specs| <= |words|
    ensures ArgValues(specs, words, flag, acc, parseFloat).Ok? <==> ArgsConvert(specs, words, parseFloat)
    decreases |specs|
  {
    if |specs| > 0 {
      var r0 := ParseArgValue(words[0], specs[0].argType, parseFloat);
      if r0.Ok? {
        ArgValuesAccepts(specs[1..], words[1..], flag, acc[specs[0].name := r0.value], parseFloat);
        assert forall j :: 1 <= j < |specs| ==> specs[1..][j - 1] == specs[j] && words[1..][j - 1] == words[j];
      }
    }
  }

  /** A built argument map holds the names of the specifications (on top
      of `acc`), and each name maps to the word of the last specification
      carrying it, converted. */
  lemma ArgValuesContents(specs: seq<ArgumentSpec>, words: seq<string>, flag: string,
                          acc: map<string, Value>, parseFloat: FloatParser)
    requires |specs| <= |words|
    requires ArgValues(specs, words, flag, acc, parseFloat).Ok?
    ensures var m := ArgValues(specs, words, flag, acc, parseFloat).value;
            && (forall name :: name in m <==> name in acc || exists j :: 0 <= j < |specs| && specs[j].name == name)
            && (forall name :: name in acc && (forall j :: 0 <= j < |specs| ==> specs[j].name != name) ==> m[name] == acc[name])
            && (forall j :: 0 <= j < |specs| && LastOfName(specs, j) ==>
                  ParseArgValue(words[j], specs[j].argType, parseFloat) == Ok(m[specs[j].name]))
  {
    ArgValuesKeys(specs, words, flag, acc, parseFloat);
    ArgValuesLast(specs, words, flag, acc, parseFloat);
  }

  /** The keys of a built argument map: those of `acc` and the
      specifications' names; names no specification carries keep their
      value from `acc`. */
  lemma {:induction false} ArgValuesKeys(specs: seq<ArgumentSpec>, words: seq<string>, flag: string,
                                         acc: map<string, Value>, parseFloat: FloatParser)
    requires |specs| <= |words|
    requires ArgValues(specs, words, flag, acc, parseFloat).Ok?
    ensures var m := ArgValues(specs, words, flag, acc, parseFloat).value;
            && (forall name :: name in m <==> name in acc || exists j :: 0 <= j < |specs| && specs[j].name == name)
            && (forall name :: name in acc && (forall j :: 0 <= j < |specs| ==> specs[j].name != name) ==> m[name] == acc[name])
    decreases |specs|
  {
    if |specs| > 0 {
      var r0 := ParseArgValue(words[0], specs[0].argType, parseFloat);
      var acc' := acc[specs[0].name := r0.value];
      ArgValuesKeys(specs[1..], words[1..], flag, acc', parseFloat);
      assert forall j :: 1 <= j < |specs| ==> specs[1..][j - 1] == specs[j];
    }
  }

  /** In a built argument map, the name of the last specification carrying
      it maps to that specification's word, converted. */
  lemma {:induction false} ArgValuesLast(specs: seq<ArgumentSpec>, words: seq<string>, flag: string,
                                         acc: map<string, Value>, parseFloat: FloatParser)
    requires |specs| <= |words|
    requires ArgValues(specs, words, flag, acc, parseFloat).Ok?
    ensures var m := ArgValues(specs, words, flag, acc, parseFloat).value;
            forall j :: 0 <= j < |specs| && LastOfName(specs, j) ==>
              specs[j].name in m && ParseArgValue(words[j], specs[j].argType, parseFloat) == Ok(m[specs[j].name])
    decreases |specs|
  {
    if |specs| > 0 {
      var r0 := ParseArgValue(words[0], specs[0].argType, parseFloat);
      var acc' := acc[specs[0].name := r0.value];
      ArgValuesLast(specs[1..], words[1..], flag, acc', parseFloat);
      ArgValuesKeys(specs[1..], words[1..], flag, acc', parseFloat);
      var m := ArgValues(specs, words, flag, acc, parseFloat).value;
      assert m == ArgValues(specs[1..], words[1..], flag, acc', parseFloat).value;
      forall j | 0 <= j < |specs| && LastOfName(specs, j)
        ensures specs[j].name in m && ParseArgValue(words[j], specs[j].argType, parseFloat) == Ok(m[specs[j].name])
      {
        if j > 0 {
          assert specs[1..][j - 1] == specs[j] && words[1..][j - 1] == words[j];
          assert LastOfName(specs[1..], j - 1);
        } else {
          assert forall j' :: 0 <= j' < |specs[1..]| ==> specs[1..][j'].name != specs[0].name by {
            assert forall j' :: 0 <= j' < |specs[1..]| ==> specs[1..][j'] == specs[j' + 1];
          }
        }
      }
    }
  }

  // =====================================================================
  // Storing values: list and last mode
  // =====================================================================

  /** Stores the values `vs` one after the other, as repeated switches do. */
  function StoreAll(target: map<string, Value>, name: string, vs: seq<Value>, mode: Mode): (r: map<string, Value>)
    ensures |vs| > 0 ==> name in r
    decreases |vs|
  {
    if |vs| == 0 then target else StoreAll(Store(target, name, vs[0], mode), name, vs[1..], mode)
  }

  /** Storing touches only its own key, which is present afterwards. */
  lemma StoreFrame(target: map<string, Value>, name: string, v: Value, mode: Mode)
    ensures var r := Store(target, name, v, mode);
            && r.Keys == target.Keys + {name}
            && forall n :: n in target && n != name ==> r[n] == target[n]
  {
  }

  /** In list mode the values collect in order after the list already
      stored. */
  lemma {:induction false} StoreListAppends(target: map<string, Value>, name: string, l: seq<Value>, vs: seq<Value>)
    requires name in target && target[name] == List(l)
    ensures var r := StoreAll(target, name, vs, ListMode);
            name in r && r[name] == List(l + vs)
    decreases |vs|
  {
    if |vs| > 0 {
      var t := Store(target, name, vs[0], ListMode);
      assert t[name] == List(l + [vs[0]]);
      StoreListAppends(t, name, l + [vs[0]], vs[1..]);
      assert l + [vs[0]] + vs[1..] == l + vs;
    }
  }

  /** Repeating a list-mode switch collects its values in order: starting
      from an absent key the result is exactly the list of values, and a
      single value stored earlier heads the list. */
  lemma StoreListCollects(target: map<string, Value>, name: string, vs: seq<Value>)
    requires |vs| > 0
    ensures name !in target ==> StoreAll(target, name, vs, ListMode)[name] == List(vs)
    ensures name in target && !target[name].List? ==>
              StoreAll(target, name, vs, ListMode)[name] == List([target[name]] + vs)
  {
    var t := Store(target, name, vs[0], ListMode);
    if name !in target {
      StoreListAppends(t, name, [vs[0]], vs[1..]);
      assert [vs[0]] + vs[1..] == vs;
    } else if !target[name].List? {
      StoreListAppends(t, name, [target[name], vs[0]], vs[1..]);
      assert [target[name], vs[0]] + vs[1..] == [target[name]] + vs;
    }
  }

  /** Repeating a last-mode switch keeps only the final value. */
  lemma {:induction false} StoreLastWins(target: map<string, Value>, name: string, vs: seq<Value>)
    requires |vs| > 0
    ensures StoreAll(target, name, vs, LastMode)[name] == vs[|vs| - 1]
    decreases |vs|
  {
    if |vs| > 1 {
      StoreLastWins(Store(target, name, vs[0], LastMode), name, vs[1..]);
    }
  }

  // =====================================================================
  // Switches: negation, scope, width, unknown names
  // =====================================================================

  /** What negation does to a stored value: boolean flags ignore it, a
      multi-argument map gains `_negated`, any other value is wrapped. */
  function Negate(kind: Kind, v: Value): Value {
    match kind
    case FlagKind => v
    case MultiKind => if v.Obj? then Obj(v.entries["_negated" := Bool(true)]) else v
    case _ => NegatedWrap(v)
  }

  function NegateDecoded(kind: Kind, r: Result<Decoded>): Result<Decoded> {
    match r
    case Err(e) => Err(e)
    case Ok(d) => Ok(Decoded(Negate(kind, d.value), d.width))
  }

  /** `+name` reads the same words as `-name`, fails the same way, and
      stores the negated form of the same value. */
  lemma SwitchNegation(meta: FieldMeta, args: seq<string>, parseFloat: FloatParser)
    requires |args| > 0
    ensures SwitchValue(meta, args, true, parseFloat) == NegateDecoded(meta.kind, SwitchValue(meta, args, false, parseFloat))
  {
  }

  /** The three ways a known switch fails before converting any word: a
      multi-argument field declared without `args=`, a multi-argument switch
      followed by too few words, and a value switch with no word after it. */
  lemma SwitchErrors(meta: FieldMeta, args: seq<string>, negated: bool, parseFloat: FloatParser)
    requires |args| > 0
    ensures meta.kind == MultiKind && |meta.args| == 0 ==>
              SwitchValue(meta, args, negated, parseFloat)
                == Err("multi-argument flag " + args[0] + " has no argument specification")
    ensures meta.kind == MultiKind && |meta.args| > 0 && |args| < |meta.args| + 1 ==>
              SwitchValue(meta, args, negated, parseFloat)
                == Err("flag " + args[0] + " requires " + NatToString(|meta.args|) + " arguments")
    ensures meta.kind !in {FlagKind, MultiKind} && |args| < 2 ==>
              SwitchValue(meta, args, negated, parseFloat) == Err("flag " + args[0] + " requires a value")
  {
  }

  /** A switch consumes exactly the words its kind needs, stores under its
      field's name only, and writes the global map for a global field and
      the clause otherwise. */
  lemma SwitchEffect(fields: seq<FieldMeta>, args: seq<string>, clause: map<string, Value>,
                     global: map<string, Value>, negated: bool, parseFloat: FloatParser)
    requires ParseSwitch(fields, args, clause, global, negated, parseFloat).Ok?
    ensures |args| > 0 && FindField(fields, args[0]).Some?
    ensures var meta := fields[FindField(fields, args[0]).value];
            var s := ParseSwitch(fields, args, clause, global, negated, parseFloat).value;
            && s.consumed == SwitchWidth(meta)
            && (meta.scope == Global ==>
                  (s.clause == clause && s.global.Keys == global.Keys + {meta.name}
                   && forall n :: n in global && n != meta.name ==> s.global[n] == global[n]))
            && (meta.scope == Local ==>
                  (s.global == global && s.clause.Keys == clause.Keys + {meta.name}
                   && forall n :: n in clause && n != meta.name ==> s.clause[n] == clause[n]))
  {
    var meta := fields[FindField(fields, args[0]).value];
    var d := SwitchValue(meta, args, negated, parseFloat).value;
    StoreFrame(global, meta.name, d.value, StoreMode(meta));
    StoreFrame(clause, meta.name, d.value, StoreMode(meta));
  }

  /** A switch is reported unknown exactly when no field has its name. */
  lemma SwitchUnknown(fields: seq<FieldMeta>, args: seq<string>, clause: map<string, Value>,
                      global: map<string, Value>, negated: bool, parseFloat: FloatParser)
    requires |args| > 0
    ensures FindField(fields, args[0]).None? <==>
              ParseSwitch(fields, args, clause, global, negated, parseFloat) == Err("unknown flag: " + args[0])
  {
    var r := ParseSwitch(fields, args, clause, global, negated, parseFloat);
    if FindField(fields, args[0]).Some? && r.Err? {
      var meta := fields[FindField(fields, args[0]).value];
      assert r.msg == SwitchValue(meta, args, negated, parseFloat).msg;
      SwitchErrorFirstChar(meta, args, negated, parseFloat);
      assert ("unknown flag: " + args[0])[0] == 'u';
    }
  }

  /** The errors of a known switch start with "m", "f" or "p", never with
      the "u" of "unknown flag". */
  lemma SwitchErrorFirstChar(meta: FieldMeta, args: seq<string>, negated: bool, parseFloat: FloatParser)
    requires |args| > 0 && SwitchValue(meta, args, negated, parseFloat).Err?
    ensures var msg := SwitchValue(meta, args, negated, parseFloat).msg;
            |msg| > 0 && msg[0] in {'m', 'f', 'p'}
  {
    var msg := SwitchValue(meta, args, negated, parseFloat).msg;
    var flag := args[0];
    if meta.kind == MultiKind && |meta.args| == 0 {
      assert msg == "multi-argument flag " + flag + " has no argument specification";
    } else if meta.kind == MultiKind && |args| < |meta.args| + 1 {
      assert msg == "flag " + flag + " requires " + NatToString(|meta.args|) + " arguments";
    } else if meta.kind == MultiKind {
      ArgValuesFirstChar(meta.args, args[1..], flag, map[], parseFloat);
    } else if |args| < 2 {
      assert msg == "flag " + flag + " requires a value";
    } else {
      var e := ParseValueWithValidation(args[1], meta, parseFloat).msg;
      assert msg == "parsing value for " + flag + ": " + e;
    }
  }

  /** Argument conversion errors start with "parsing". */
  lemma {:induction false} ArgValuesFirstChar(specs: seq<ArgumentSpec>, words: seq<string>, flag: string,
                                              acc: map<string, Value>, parseFloat: FloatParser)
    requires |specs| <= |words|
    requires ArgValues(specs, words, flag, acc, parseFloat).Err?
    ensures |ArgValues(specs, words, flag, acc, parseFloat).msg| > 0
    ensures ArgValues(specs, words, flag, acc, parseFloat).msg[0] == 'p'
    decreases |specs|
  {
    var r0 := ParseArgValue(words[0], specs[0].argType, parseFloat);
    if r0.Ok? {
      ArgValuesFirstChar(specs[1..], words[1..], flag, acc[specs[0].name := r0.value], parseFloat);
    }
  }

  // =====================================================================
  // Defaults and the global fill
  // =====================================================================

  /** The default of the first eligible field named `name`. */
  function FirstDefault(fields: seq<FieldMeta>, name: string, globalOnly: bool): Option<Value>
    decreases |fields|
  {
    if |fields| == 0 then None
    else if Eligible(fields[0], globalOnly) && fields[0].name == name then fields[0].defaultValue
    else FirstDefault(fields[1..], name, globalOnly)
  }

  /** Defaults never override: a name already present keeps its value, an
      absent one gets the default of the first eligible field with that
      name, and nothing else is added. */
  lemma {:induction false} DefaultsMeaning(fields: seq<FieldMeta>, present: map<string, Value>, globalOnly: bool, name: string)
    ensures var r := Defaults(fields, present, globalOnly);
            && (name in r <==> name in present || FirstDefault(fields, name, globalOnly).Some?)
            && (name in present ==> r[name] == present[name])
            && (name !in present && FirstDefault(fields, name, globalOnly).Some? ==>
                  r[name] == FirstDefault(fields, name, globalOnly).value)
    decreases |fields|
  {
    if |fields| > 0 {
      if Eligible(fields[0], globalOnly) && fields[0].name !in present {
        DefaultsMeaning(fields[1..], present[fields[0].name := fields[0].defaultValue.value], globalOnly, name);
      } else {
        DefaultsMeaning(fields[1..], present, globalOnly, name);
      }
    }
  }

  /** Each finished clause keeps its own values, takes every global value
      it lacks, and then the defaults it still lacks; its polarity is kept. */
  lemma CompleteMeaning(fields: seq<FieldMeta>, global: map<string, Value>, c: ClauseSet, name: string)
    ensures var r := Complete(fields, global, c);
            && r.negated == c.negated
            && (name in r.fields <==> name in c.fields || name in global || FirstDefault(fields, name, false).Some?)
            && (name in c.fields ==> r.fields[name] == c.fields[name])
            && (name !in c.fields && name in global ==> r.fields[name] == global[name])
            && (name !in c.fields && name !in global && FirstDefault(fields, name, false).Some? ==>
                  r.fields[name] == FirstDefault(fields, name, false).value)
  {
    DefaultsMeaning(fields, global + c.fields, false, name);
  }

  /** Parse returns one finished clause per clause of the loop, and the
      loop's global values completed with the global fields' defaults. */
  lemma ParseFills(fields: seq<FieldMeta>, args: seq<string>, parseFloat: FloatParser, name: string)
    requires Parse(fields, args, parseFloat).Ok?
    ensures ScanAll(fields, args, parseFloat).Ok?
    ensures var st := ScanAll(fields, args, parseFloat).value;
            var p := Parse(fields, args, parseFloat).value;
            && |p.clauses| == |Raw(st)|
            && (forall j :: 0 <= j < |p.clauses| ==>
                  && p.clauses[j].negated == Raw(st)[j].negated
                  && (name in p.clauses[j].fields <==>
                        name in Raw(st)[j].fields || name in st.global || FirstDefault(fields, name, false).Some?)
                  && (name in Raw(st)[j].fields ==> p.clauses[j].fields[name] == Raw(st)[j].fields[name])
                  && (name !in Raw(st)[j].fields && name in st.global ==> p.clauses[j].fields[name] == st.global[name]))
            && (name in p.global <==> name in st.global || FirstDefault(fields, name, true).Some?)
            && (name in st.global ==> p.global[name] == st.global[name])
  {
    var st := ScanAll(fields, args, parseFloat).value;
    var p := Parse(fields, args, parseFloat).value;
    forall j | 0 <= j < |p.clauses| {
      CompleteMeaning(fields, st.global, Raw(st)[j], name);
    }
    DefaultsMeaning(fields, st.global, true, name);
  }

  // =====================================================================
  // The shape of a command line
  // =====================================================================

  /** What a clause looks like from outside: its polarity and its
      positional words. */
  datatype Segment = Segment(negated: bool, words: seq<string>)

  function Shape(cs: seq<ClauseSet>): (r: seq<Segment>)
    ensures |r| == |cs|
  {
    seq(|cs|, j requires 0 <= j < |cs| => Segment(cs[j].negated, Positionals(cs[j].fields)))
  }

  /** The number of words the switch `flag` consumes when it succeeds. */
  function FlagWidth(fields: seq<FieldMeta>, flag: string): nat {
    match FindField(fields, flag)
    case None => 1
    case Some(k) => SwitchWidth(fields[k])
  }

  /** Whether the switch `flag` sets a local field named `_args`, replacing
      the positional list. */
  predicate Clobbers(fields: seq<FieldMeta>, flag: string) {
    match FindField(fields, flag)
    case None => false
    case Some(k) => fields[k].name == "_args" && fields[k].scope == Local
  }

  /** A reference reading of a command line that needs no values: `+` and
      `-` open a negated or a positive clause, a switch word skips the words
      its field consumes, and any other word is a positional word of the
      open clause. */
  datatype Mark = Mark(pos: nat, segs: seq<Segment>)

  /** The reference reading of word `i`. */
  function WalkStep(fields: seq<FieldMeta>, args: seq<string>, i: nat, segs: seq<Segment>): (r: Mark)
    requires i < |args| && |segs| > 0
    ensures i < r.pos <= |args| && |r.segs| > 0
  {
    var arg := args[i];
    var last := segs[|segs| - 1];
    if arg == "+" then Mark(i + 1, segs + [Segment(true, [])])
    else if arg == "-" then Mark(i + 1, segs + [Segment(false, [])])
    else if HasPrefix(arg, "+") || HasPrefix(arg, "-") then
      var flag := "-" + arg[1..];
      var next := if i + FlagWidth(fields, flag) <= |args| then i + FlagWidth(fields, flag) else |args|;
      Mark(next, if Clobbers(fields, flag) then segs[..|segs| - 1] + [Segment(last.negated, [])] else segs)
    else Mark(i + 1, segs[..|segs| - 1] + [Segment(last.negated, last.words + [arg])])
  }

  function Walk(fields: seq<FieldMeta>, args: seq<string>, i: nat, segs: seq<Segment>): (r: seq<Segment>)
    requires i <= |args| && |segs| > 0
    decreases |args| - i
  {
    if i == |args| then segs
    else
      var m := WalkStep(fields, args, i, segs);
      Walk(fields, args, m.pos, m.segs)
  }

  lemma ShapeLast(done: seq<ClauseSet>, c: ClauseSet)
    ensures Shape(done + [c]) == Shape(done) + [Segment(c.negated, Positionals(c.fields))]
  {
    assert forall j :: 0 <= j < |done| ==> (done + [c])[j] == done[j];
  }

  /** The shape of the loop state after the open clause is replaced. */
  lemma ShapeReplaceCurrent(st: ScanState, c: ClauseSet)
    ensures var n := |Shape(Raw(st))|;
            Shape(Raw(ScanState(st.done, c, st.global)))
              == Shape(Raw(st))[..n - 1] + [Segment(c.negated, Positionals(c.fields))]
  {
    ShapeLast(st.done, st.current);
    ShapeLast(st.done, c);
    assert (Shape(st.done) + [Segment(st.current.negated, Positionals(st.current.fields))])[..|st.done|] == Shape(st.done);
  }

  /** Storing a value that is not a positional list under `_args` empties
      the positional list; storing under any other name keeps it. */
  lemma StorePositionals(target: map<string, Value>, name: string, v: Value, mode: Mode)
    requires !v.Strs?
    ensures Positionals(Store(target, name, v, mode)) == if name == "_args" then [] else Positionals(target)
  {
  }

  lemma SwitchValueWidth(meta: FieldMeta, args: seq<string>, negated: bool, parseFloat: FloatParser)
    requires |args| > 0 && SwitchValue(meta, args, negated, parseFloat).Ok?
    ensures SwitchValue(meta, args, negated, parseFloat).value.width == SwitchWidth(meta)
  {
  }

  /** A successful switch consumes the words of its field, and leaves the
      positional list alone unless it sets a local field named `_args`,
      which empties it. */
  lemma SwitchPositionals(fields: seq<FieldMeta>, args: seq<string>, clause: map<string, Value>,
                          global: map<string, Value>, negated: bool, parseFloat: FloatParser)
    requires ParseSwitch(fields, args, clause, global, negated, parseFloat).Ok?
    ensures |args| > 0
    ensures var s := ParseSwitch(fields, args, clause, global, negated, parseFloat).value;
            && s.consumed == FlagWidth(fields, args[0])
            && Positionals(s.clause) == if Clobbers(fields, args[0]) then [] else Positionals(clause)
  {
    var k := FindField(fields, args[0]).value;
    var meta := fields[k];
    var d := SwitchValue(meta, args, negated, parseFloat).value;
    var s := ParseSwitch(fields, args, clause, global, negated, parseFloat).value;
    SwitchValueWidth(meta, args, negated, parseFloat);
    if meta.scope == Global {
      assert s.clause == clause;
    } else {
      assert s.clause == Store(clause, meta.name, d.value, StoreMode(meta));
      StorePositionals(clause, meta.name, d.value, StoreMode(meta));
    }
  }

  /** One pass of the loop body moves exactly as the reference reading
      does, and shapes the clauses as it says. */
  lemma ConsumeShape(fields: seq<FieldMeta>, args: seq<string>, i: nat, st: ScanState, parseFloat: FloatParser)
    requires i < |args|
    requires Consume(fields, args, i, st, parseFloat).Ok?
    ensures var c := Consume(fields, args, i, st, parseFloat).value;
            var m := WalkStep(fields, args, i, Shape(Raw(st)));
            c.pos == m.pos && Shape(Raw(c.st)) == m.segs
  {
    var arg := args[i];
    var segs := Shape(Raw(st));
    assert segs[|segs| - 1] == Segment(st.current.negated, Positionals(st.current.fields)) by {
      ShapeLast(st.done, st.current);
    }
    if arg == "+" || arg == "-" {
      ShapeLast(Raw(st), EmptyClause(arg == "+"));
      assert Raw(StartClause(st, arg == "+")) == Raw(st) + [EmptyClause(arg == "+")];
    } else if HasPrefix(arg, "+") || HasPrefix(arg, "-") {
      SwitchWordShape(fields, args, i, st, parseFloat);
    } else {
      var st' := AddPositional(st, arg);
      ShapeReplaceCurrent(st, st'.current);
      assert Positionals(st'.current.fields) == Positionals(st.current.fields) + [arg];
    }
  }

  lemma SwitchWordShape(fields: seq<FieldMeta>, args: seq<string>, i: nat, st: ScanState, parseFloat: FloatParser)
    requires i < |args| && args[i] != "+" && args[i] != "-"
    requires HasPrefix(args[i], "+") || HasPrefix(args[i], "-")
    requires Consume(fields, args, i, st, parseFloat).Ok?
    requires var segs := Shape(Raw(st)); segs[|segs| - 1] == Segment(st.current.negated, Positionals(st.current.fields))
    ensures var c := Consume(fields, args, i, st, parseFloat).value;
            var m := WalkStep(fields, args, i, Shape(Raw(st)));
            c.pos == m.pos && Shape(Raw(c.st)) == m.segs
  {
    var segs := Shape(Raw(st));
    ConsumeSwitchShape(fields, args, i, st, parseFloat);
    WalkSwitch(fields, args, i, segs);
    DropLastAppend(segs);
  }

  /** A switch word moves past the switch and its values, and leaves the
      current clause's words alone unless the switch sets `_args`. */
  lemma ConsumeSwitchShape(fields: seq<FieldMeta>, args: seq<string>, i: nat, st: ScanState, parseFloat: FloatParser)
    requires i < |args| && args[i] != "+" && args[i] != "-"
    requires HasPrefix(args[i], "+") || HasPrefix(args[i], "-")
    requires Consume(fields, args, i, st, parseFloat).Ok?
    ensures var c := Consume(fields, args, i, st, parseFloat).value;
            var flag := "-" + args[i][1..];
            var segs := Shape(Raw(st));
            && c.pos == i + FlagWidth(fields, flag) <= |args|
            && Shape(Raw(c.st)) == segs[..|segs| - 1]
                 + [Segment(st.current.negated, if Clobbers(fields, flag) then [] else Positionals(st.current.fields))]
  {
    var arg := args[i];
    var negated := HasPrefix(arg, "+");
    var flag := "-" + arg[1..];
    var sw := if negated then [flag] + args[i + 1..] else args[i..];
    var step := ParseSwitch(fields, sw, st.current.fields, st.global, negated, parseFloat).value;
    var c := Consume(fields, args, i, st, parseFloat).value;
    assert c == Cursor(i + step.consumed, Advance(st, step)) by {
      ConsumeSwitch(fields, args, i, st, parseFloat);
    }
    assert step.consumed == FlagWidth(fields, flag) && step.consumed <= |args| - i
        && Positionals(step.clause) == (if Clobbers(fields, flag) then [] else Positionals(st.current.fields)) by {
      assert sw[0] == flag by {
        if !negated {
          assert arg == arg[..1] + arg[1..];
        }
      }
      SwitchPositionals(fields, sw, st.current.fields, st.global, negated, parseFloat);
    }
    ShapeReplaceCurrent(st, ClauseSet(step.clause, st.current.negated));
  }

  /** The loop body on a switch word hands the switch, spelled with `-`,
      and the words after it to ParseSwitch. */
  lemma ConsumeSwitch(fields: seq<FieldMeta>, args: seq<string>, i: nat, st: ScanState, parseFloat: FloatParser)
    requires i < |args| && args[i] != "+" && args[i] != "-"
    requires HasPrefix(args[i], "+") || HasPrefix(args[i], "-")
    requires Consume(fields, args, i, st, parseFloat).Ok?
    ensures var negated := HasPrefix(args[i], "+");
            var sw := if negated then ["-" + args[i][1..]] + args[i + 1..] else args[i..];
            var r := ParseSwitch(fields, sw, st.current.fields, st.global, negated, parseFloat);
            r.Ok? && Consume(fields, args, i, st, parseFloat).value == Cursor(i + r.value.consumed, Advance(st, r.value))
  {
  }

  /** The walk steps over a switch word and the values it takes; a switch
      of the `_args` field empties the current clause's words. */
  lemma WalkSwitch(fields: seq<FieldMeta>, args: seq<string>, i: nat, segs: seq<Segment>)
    requires i < |args| && args[i] != "+" && args[i] != "-" && |segs| > 0
    requires HasPrefix(args[i], "+") || HasPrefix(args[i], "-")
    requires i + FlagWidth(fields, "-" + args[i][1..]) <= |args|
    ensures var flag := "-" + args[i][1..];
            var n := |segs|;
            WalkStep(fields, args, i, segs)
              == Mark(i + FlagWidth(fields, flag), if Clobbers(fields, flag) then segs[..n - 1] + [Segment(segs[n - 1].negated, [])] else segs)
  {
  }

  lemma DropLastAppend<T>(s: seq<T>)
    requires |s| > 0
    ensures s[..|s| - 1] + [s[|s| - 1]] == s
  {
  }

  /** The loop of Parse produces, clause by clause, exactly the polarity
      and positional words the reference walk reads off the words. */
  lemma {:induction false} ScanWalk(fields: seq<FieldMeta>, args: seq<string>, i: nat, st: ScanState, parseFloat: FloatParser)
    requires i <= |args|
    requires Scan(fields, args, i, st, parseFloat).Ok?
    ensures Shape(Raw(Scan(fields, args, i, st, parseFloat).value)) == Walk(fields, args, i, Shape(Raw(st)))
    decreases |args| - i
  {
    if i < |args| {
      var c := Consume(fields, args, i, st, parseFloat).value;
      ConsumeShape(fields, args, i, st, parseFloat);
      ScanWalk(fields, args, c.pos, c.st, parseFloat);
    }
  }

  /** The clauses of a successful parse are those of the reference
      reading: the first is positive, each later one is negated exactly
      when `+` opened it, and each collected the positional words that
      followed its separator, in order. */
  lemma ParseShape(fields: seq<FieldMeta>, args: seq<string>, parseFloat: FloatParser)
    requires Parse(fields, args, parseFloat).Ok?
    ensures ScanAll(fields, args, parseFloat).Ok?
    ensures var w := Walk(fields, args, 0, [Segment(false, [])]);
            var raw := Raw(ScanAll(fields, args, parseFloat).value);
            var p := Parse(fields, args, parseFloat).value;
            && |p.clauses| == |w| == |raw|
            && (forall j :: 0 <= j < |w| ==> p.clauses[j].negated == w[j].negated)
            && (forall j :: 0 <= j < |w| ==> Positionals(raw[j].fields) == w[j].words)
  {
    var st := ScanAll(fields, args, parseFloat).value;
    assert Shape(Raw(InitialState())) == [Segment(false, [])];
    ScanWalk(fields, args, 0, InitialState(), parseFloat);
    var w := Walk(fields, args, 0, [Segment(false, [])]);
    assert forall j :: 0 <= j < |w| ==> Shape(Raw(st))[j] == w[j];
  }

  /** The standalone separators among `words`, in order. */
  function SeparatorWords(words: seq<string>): (r: seq<string>)
    decreases |words|
  {
    if |words| == 0 then []
    else if words[0] == "+" || words[0] == "-" then [words[0]] + SeparatorWords(words[1..])
    else SeparatorWords(words[1..])
  }

  /** No word is a switch: each is a separator or a positional word. */
  predicate NoSwitchWords(words: seq<string>) {
    forall j :: 0 <= j < |words| ==> words[j] == "+" || words[j] == "-" || !(HasPrefix(words[j], "+") || HasPrefix(words[j], "-"))
  }

  /** The walk never drops a segment nor changes the polarity of one it
      has already opened. */
  lemma {:induction false} WalkKeepsPolarity(fields: seq<FieldMeta>, args: seq<string>, i: nat, segs: seq<Segment>)
    requires i <= |args| && |segs| > 0
    ensures var w := Walk(fields, args, i, segs);
            |w| >= |segs| && forall t :: 0 <= t < |segs| ==> w[t].negated == segs[t].negated
    decreases |args| - i
  {
    if i < |args| {
      var m := WalkStep(fields, args, i, segs);
      assert |m.segs| >= |segs| && forall t :: 0 <= t < |segs| ==> m.segs[t].negated == segs[t].negated;
      WalkKeepsPolarity(fields, args, m.pos, m.segs);
    }
  }

  /** Without switch words, the walk opens one segment per separator, in
      order, negated exactly when the separator is `+`. */
  lemma {:induction false} WalkSeparators(fields: seq<FieldMeta>, args: seq<string>, i: nat, segs: seq<Segment>)
    requires i <= |args| && |segs| > 0
    requires NoSwitchWords(args[i..])
    ensures var w := Walk(fields, args, i, segs);
            var seps := SeparatorWords(args[i..]);
            && |w| == |segs| + |seps|
            && forall t :: 0 <= t < |seps| ==> w[|segs| + t].negated == (seps[t] == "+")
    decreases |args| - i
  {
    if i < |args| {
      var m := WalkStep(fields, args, i, segs);
      var rest := args[i + 1..];
      assert args[i..] == [args[i]] + rest;
      assert NoSwitchWords(rest) by {
        assert forall j :: 0 <= j < |rest| ==> rest[j] == args[i..][j + 1];
      }
      assert m.pos == i + 1 by {
        assert args[i..][0] == args[i];
      }
      WalkSeparators(fields, args, i + 1, m.segs);
      var w := Walk(fields, args, i, segs);
      var seps := SeparatorWords(args[i..]);
      if args[i] == "+" || args[i] == "-" {
        assert seps == [args[i]] + SeparatorWords(rest);
        WalkKeepsPolarity(fields, args, i + 1, m.segs);
        assert w[|segs|].negated == m.segs[|segs|].negated;
      } else {
        assert seps == SeparatorWords(rest);
      }
    }
  }

  /** A command line without switch words splits into one clause more than
      it has separators; the first clause is positive and each later one is
      negated exactly when its separator is `+`. */
  lemma ParseClauses(fields: seq<FieldMeta>, args: seq<string>, parseFloat: FloatParser)
    requires Parse(fields, args, parseFloat).Ok?
    requires NoSwitchWords(args)
    ensures var p := Parse(fields, args, parseFloat).value;
            var seps := SeparatorWords(args);
            && |p.clauses| == |seps| + 1
            && !p.clauses[0].negated
            && forall t :: 0 <= t < |seps| ==> p.clauses[t + 1].negated == (seps[t] == "+")
  {
    var p := Parse(fields, args, parseFloat).value;
    var seps := SeparatorWords(args);
    var w := Walk(fields, args, 0, [Segment(false, [])]);
    assert |p.clauses| == |w| && forall j :: 0 <= j < |w| ==> p.clauses[j].negated == w[j].negated by {
      ParseShape(fields, args, parseFloat);
    }
    assert |w| == |seps| + 1 && forall t :: 0 <= t < |seps| ==> w[1 + t].negated == (seps[t] == "+") by {
      assert args[0..] == args;
      WalkSeparators(fields, args, 0, [Segment(false, [])]);
    }
    assert !w[0].negated by {
      WalkKeepsPolarity(fields, args, 0, [Segment(false, [])]);
    }
  }

  /** The first clause of every successful parse is positive. */
  lemma ParseFirstPositive(fields: seq<FieldMeta>, args: seq<string>, parseFloat: FloatParser)
    requires Parse(fields, args, parseFloat).Ok?
    ensures |Parse(fields, args, parseFloat).value.clauses| > 0
    ensures !Parse(fields, args, parseFloat).value.clauses[0].negated
  {
    ParseShape(fields, args, parseFloat);
    WalkKeepsPolarity(fields, args, 0, [Segment(false, [])]);
  }

  // =====================================================================
  // Positional words and Argv adoption
  // =====================================================================

  /** A positional word is appended to the clause's positional list; a
      table file becomes the clause's `Argv` only when neither the clause
      nor the global map has one, so the first such file wins and an
      explicit `-argv` is never overridden. Nothing else changes. */
  lemma PositionalEffect(st: ScanState, arg: string)
    ensures var r := AddPositional(st, arg);
            var c, c' := st.current.fields, r.current.fields;
            && r.done == st.done && r.global == st.global && r.current.negated == st.current.negated
            && Positionals(c') == Positionals(c) + [arg]
            && ("Argv" in c ==> "Argv" in c' && c'["Argv"] == c["Argv"])
            && ("Argv" !in c ==> ("Argv" in c' <==> LooksLikeTable(arg) && "Argv" !in st.global))
            && ("Argv" !in c && "Argv" in c' ==> c'["Argv"] == Str(arg))
            && c'.Keys <= c.Keys + {"_args", "Argv"}
            && forall n :: n in c && n != "_args" && n != "Argv" ==> c'[n] == c[n]
  {
  }

  /** The lower-cased suffix of a word is the lower-cased suffix of the
      word's lower-cased form. */
  lemma LowerSuffix(p: string, s: string)
    ensures Lower(p + s)[|p|..] == Lower(s)
  {
  }

  /** The table test ignores case and what precedes the extension. */
  lemma TableExtensions(p: string)
    ensures LooksLikeTable(p + ".tsv") && LooksLikeTable(p + ".TSV")
    ensures LooksLikeTable(p + ".csv") && LooksLikeTable(p + ".Csv")
    ensures !LooksLikeTable(p + ".txt")
  {
    LowerSuffix(p, ".tsv");
    LowerSuffix(p, ".TSV");
    LowerSuffix(p, ".csv");
    LowerSuffix(p, ".Csv");
    LowerSuffix(p, ".txt");
    assert Lower(".TSV") == ".tsv";
    assert Lower(".Csv") == ".csv";
    assert Lower(".txt") == ".txt";
  }
}

=== FILE: completion.dfy ===
/** The completion analyzer of gs/command.go: from the words of a command
    line and the cursor position it decides what kind of word is being
    completed (a switch, a field name, an enumerated value, one argument of a
    multi-argument switch, or a file) looking only at the switch
    descriptors and backwards from the cursor; `complete` then asks the
    matching candidate source. Directory listing is a parameter. */
module Completion {
  import opened Results
  import opened Strings
  import opened Types
  import opened Clauses
  import opened Patterns
  import opened Tables

  // =====================================================================
  // Contexts
  // =====================================================================

  datatype CompletionType =
    | FlagCompletion
    | FieldCompletion
    | ContentCompletion
    | MultiArgCompletion
    | EnumCompletion
    | FileCompletion

  /** CompletionContext: `tsvFile` and `fieldName` are "" when unknown. */
  datatype CompletionContext = CompletionContext(
    kind: CompletionType,
    current: string,
    tsvFile: string,
    fieldName: string,
    argumentIndex: nat,
    argumentSpec: Option<ArgumentSpec>,
    fieldMeta: Option<FieldMeta>)

  /** A word that starts like a switch or a separator. */
  predicate IsPrefixed(w: string) {
    HasPrefix(w, "-") || HasPrefix(w, "+")
  }

  /** The word under the cursor, "" past the end. */
  function CurrentWord(args: seq<string>, pos: nat): string {
    if pos < |args| then args[pos] else ""
  }

  // =====================================================================
  // Looking back for a switch (findLastFlag)
  // =====================================================================

  datatype LastFlag = NoFlag | FlagAt(at: nat, meta: FieldMeta)

  /** The walk of findLastFlag over `args[..i]`, last word first: words
      without a prefix are skipped; the first prefixed word ends the walk,
      yielding its field when it names one (`+name` read as `-name`) and
      nothing when it is a separator or an unknown switch. */
  function LookBack(fields: seq<FieldMeta>, args: seq<string>, i: nat): (r: LastFlag)
    requires i <= |args|
    ensures r.FlagAt? ==> r.at < i
    decreases i
  {
    if i == 0 then NoFlag
    else if IsPrefixed(args[i - 1]) then
      if |args[i - 1]| <= 1 then NoFlag
      else match FindField(fields, "-" + args[i - 1][1..])
        case None => NoFlag
        case Some(j) => FlagAt(i - 1, fields[j])
    else LookBack(fields, args, i - 1)
  }

  /** findLastFlag: the cursor is clamped to the end of the words. */
  function FindLastFlag(fields: seq<FieldMeta>, args: seq<string>, pos: nat): (r: LastFlag)
    ensures r.FlagAt? ==> r.at < pos && r.at < |args|
  {
    LookBack(fields, args, if pos > |args| then |args| else pos)
  }

  /** Words without a prefix between the nearest prefixed word and `i` are
      skipped. */
  lemma {:induction false} LookBackSkips(fields: seq<FieldMeta>, args: seq<string>, i: nat, k: nat)
    requires k < i <= |args| && IsPrefixed(args[k])
    requires forall j :: k < j < i ==> !IsPrefixed(args[j])
    ensures LookBack(fields, args, i) == LookBack(fields, args, k + 1)
    decreases i
  {
    if i > k + 1 {
      LookBackSkips(fields, args, i - 1, k);
    }
  }

  lemma {:induction false} LookBackNone(fields: seq<FieldMeta>, args: seq<string>, i: nat)
    requires i <= |args|
    requires forall j :: 0 <= j < i ==> !IsPrefixed(args[j])
    ensures LookBack(fields, args, i).NoFlag?
    decreases i
  {
    if i > 0 {
      LookBackNone(fields, args, i - 1);
    }
  }

  /** findLastFlag finds a switch exactly when the nearest prefixed word
      before the cursor names one (with `+` read as `-`), and then reports
      that word's position and field. */
  lemma FindLastFlagMeaning(fields: seq<FieldMeta>, args: seq<string>, pos: nat, k: nat)
    requires k < pos && k < |args| && IsPrefixed(args[k])
    requires forall j :: k < j < pos && j < |args| ==> !IsPrefixed(args[j])
    ensures var r := FindLastFlag(fields, args, pos);
            && (r.FlagAt? <==> |args[k]| > 1 && FindField(fields, "-" + args[k][1..]).Some?)
            && (r.FlagAt? ==> r.at == k && r.meta == fields[FindField(fields, "-" + args[k][1..]).value])
  {
    LookBackSkips(fields, args, if pos > |args| then |args| else pos, k);
  }

  /** With no prefixed word before the cursor there is no switch. */
  lemma FindLastFlagNone(fields: seq<FieldMeta>, args: seq<string>, pos: nat)
    requires forall j :: 0 <= j < pos && j < |args| ==> !IsPrefixed(args[j])
    ensures FindLastFlag(fields, args, pos).NoFlag?
  {
    LookBackNone(fields, args, if pos > |args| then |args| else pos);
  }

  /** The walk reads only the words before `i`. */
  lemma {:induction false} LookBackPrefix(fields: seq<FieldMeta>, args: seq<string>, more: seq<string>, i: nat)
    requires i <= |args|
    ensures LookBack(fields, args + more, i) == LookBack(fields, args, i)
    decreases i
  {
    if i > 0 {
      assert (args + more)[i - 1] == args[i - 1];
      LookBackPrefix(fields, args, more, i - 1);
    }
  }

  // =====================================================================
  // Bare file arguments (shouldUseBareFileCompletion)
  // =====================================================================

  /** A word at the start, or after a separator or a plain word, is
      completed like the positional input file. */
  predicate ShouldUseBareFileCompletion(args: seq<string>, pos: nat) {
    pos == 0
    || (pos - 1 < |args| && (args[pos - 1] == "+" || args[pos - 1] == "-" || !IsPrefixed(args[pos - 1])))
  }

  /** Equivalently: the cursor is at the start, or the word before it
      exists and is not a switch spelling (a prefixed word longer than its
      prefix). */
  lemma BareFileMeaning(args: seq<string>, pos: nat)
    ensures ShouldUseBareFileCompletion(args, pos) <==>
              pos == 0 || (pos <= |args| && !(IsPrefixed(args[pos - 1]) && |args[pos - 1]| > 1))
  {
    if pos > 0 && pos <= |args| {
      var w := args[pos - 1];
      if IsPrefixed(w) && |w| <= 1 {
        assert w == [w[0]];
      }
    }
  }

  /** The first field named `Argv`. */
  function FindArgv(fields: seq<FieldMeta>): (r: Option<nat>)
    ensures r.Some? ==> r.value < |fields| && fields[r.value].name == "Argv"
    ensures r.Some? ==> forall j :: 0 <= j < r.value ==> fields[j].name != "Argv"
    ensures r.None? <==> forall j :: 0 <= j < |fields| ==> fields[j].name != "Argv"
    decreases |fields|
  {
    if |fields| == 0 then None
    else if fields[0].name == "Argv" then Some(0)
    else match FindArgv(fields[1..])
      case None => None
      case Some(k) => Some(k + 1)
  }

  // =====================================================================
  // The table file of a command line (findTSVFile)
  // =====================================================================

  predicate TableSuffix(w: string) {
    HasSuffix(w, ".tsv") || HasSuffix(w, ".csv")
  }

  /** A switch whose value is a file: `-argv` or any `...-file`. */
  predicate FileFlag(w: string) {
    w == "-argv" || HasSuffix(w, "-file")
  }

  /** Whether `args[i]` is taken as the table file: a `.tsv`/`.csv` word
      after a file switch, or one not starting with `-` that is first, or
      follows a word not starting with `-`, or follows a separator. */
  predicate TableCandidate(args: seq<string>, i: nat)
    requires i < |args|
  {
    || (i > 0 && FileFlag(args[i - 1]) && TableSuffix(args[i]))
    || (TableSuffix(args[i]) && !HasPrefix(args[i], "-")
        && (i == 0 || !HasPrefix(args[i - 1], "-") || args[i - 1] == "-" || args[i - 1] == "+"))
  }

  /** The position of the first candidate at or after `i`; `|args|` when
      there is none. */
  function FirstTable(args: seq<string>, i: nat): (k: nat)
    requires i <= |args|
    ensures i <= k <= |args|
    ensures forall m :: i <= m < k ==> !TableCandidate(args, m)
    ensures k < |args| ==> TableCandidate(args, k)
    decreases |args| - i
  {
    if i == |args| then |args|
    else if TableCandidate(args, i) then i
    else FirstTable(args, i + 1)
  }

  /** findTSVFile: the first candidate, "" when there is none. */
  function FindTSVFile(args: seq<string>): (r: string)
    ensures r != "" ==> r in args && TableSuffix(r)
  {
    var k := FirstTable(args, 0);
    if k == |args| then "" else args[k]
  }

  /** The table file is the first candidate word; there is none exactly
      when no word is a candidate. */
  lemma FindTSVFileMeaning(args: seq<string>)
    ensures FindTSVFile(args) == "" <==> forall j :: 0 <= j < |args| ==> !TableCandidate(args, j)
    ensures FindTSVFile(args) != "" ==>
              exists j :: 0 <= j < |args| && TableCandidate(args, j) && args[j] == FindTSVFile(args)
                          && forall m :: 0 <= m < j ==> !TableCandidate(args, m)
  {
    var k := FirstTable(args, 0);
    if k < |args| {
      assert |args[k]| >= 4;
    }
  }

  // =====================================================================
  // Classification (analyzeCompletionContext)
  // =====================================================================

  /** analyzeCompletionContext. The table file is looked up for every
      word that is not a switch; it does not influence the kind. */
  function AnalyzeCompletionContext(fields: seq<FieldMeta>, args: seq<string>, pos: nat): (r: CompletionContext)
    ensures r.kind != ContentCompletion
    ensures r.kind == MultiArgCompletion ==>
              r.fieldMeta.Some? && r.argumentIndex < |r.fieldMeta.value.args|
              && r.argumentSpec == Some(r.fieldMeta.value.args[r.argumentIndex])
    ensures r.kind == EnumCompletion ==>
              r.fieldMeta.Some? && r.fieldMeta.value.kind == StringKind && |r.fieldMeta.value.enum| > 0
  {
    var c := Classify(fields, args, pos);
    if c.kind == FlagCompletion then c else c.(tsvFile := FindTSVFile(args))
  }

  /** Everything of analyzeCompletionContext but the table file. */
  function Classify(fields: seq<FieldMeta>, args: seq<string>, pos: nat): (r: CompletionContext)
    ensures r.tsvFile == ""
    ensures r.kind != ContentCompletion
    ensures r.kind == MultiArgCompletion ==>
              r.fieldMeta.Some? && r.argumentIndex < |r.fieldMeta.value.args|
              && r.argumentSpec == Some(r.fieldMeta.value.args[r.argumentIndex])
    ensures r.kind == EnumCompletion ==>
              r.fieldMeta.Some? && r.fieldMeta.value.kind == StringKind && |r.fieldMeta.value.enum| > 0
  {
    var current := CurrentWord(args, pos);
    var base := CompletionContext(FileCompletion, current, "", "", 0, None, None);
    if IsPrefixed(current) then base.(kind := FlagCompletion)
    else
      match FindLastFlag(fields, args, pos)
      case NoFlag =>
        if ShouldUseBareFileCompletion(args, pos) then
          match FindArgv(fields)
          case Some(j) => base.(fieldMeta := Some(fields[j]))
          case None => base
        else base
      case FlagAt(flagPos, meta) => ClassifySwitch(base, args, pos, flagPos, meta)
  }

  /** The words after a switch: `pos - flagPos - 1` says which of its
      arguments is under the cursor. */
  function ClassifySwitch(ctx: CompletionContext, args: seq<string>, pos: nat, flagPos: nat, meta: FieldMeta): (r: CompletionContext)
    requires flagPos < pos && ctx.kind == FileCompletion
    ensures r.tsvFile == ctx.tsvFile && r.current == ctx.current && r.fieldMeta == Some(meta)
    ensures r.kind != ContentCompletion && r.kind != FlagCompletion
    ensures r.kind == MultiArgCompletion ==>
              r.argumentIndex < |meta.args| && r.argumentSpec == Some(meta.args[r.argumentIndex])
    ensures r.kind == EnumCompletion ==> meta.kind == StringKind && |meta.enum| > 0
  {
    var argIndex: nat := pos - flagPos - 1;
    var ctx := ctx.(fieldMeta := Some(meta));
    match meta.kind
    case FieldKind => if argIndex == 0 then ctx.(kind := FieldCompletion) else ctx
    case StringKind => if argIndex == 0 && |meta.enum| > 0 then ctx.(kind := EnumCompletion) else ctx
    case MultiKind =>
      if argIndex < |meta.args| then
        var multi := ctx.(kind := MultiArgCompletion, argumentIndex := argIndex, argumentSpec := Some(meta.args[argIndex]));
        if argIndex > 0 && meta.args[argIndex - 1].argType == FieldArg && flagPos + argIndex < |args|
        then multi.(fieldName := args[flagPos + argIndex])
        else multi
      else ctx
    case _ => ctx
  }

  /** A word starting with `-` or `+` is always completed as a switch, and
      nothing else is. */
  lemma AnalyzeFlag(fields: seq<FieldMeta>, args: seq<string>, pos: nat)
    ensures AnalyzeCompletionContext(fields, args, pos).kind == FlagCompletion <==> IsPrefixed(CurrentWord(args, pos))
  {
  }

  /** Field names are completed exactly right after a field-kind switch
      that the look-back finds. */
  lemma AnalyzeField(fields: seq<FieldMeta>, args: seq<string>, pos: nat)
    ensures AnalyzeCompletionContext(fields, args, pos).kind == FieldCompletion <==>
              && !IsPrefixed(CurrentWord(args, pos))
              && pos > 0
              && FindLastFlag(fields, args, pos).FlagAt?
              && FindLastFlag(fields, args, pos).at == pos - 1
              && FindLastFlag(fields, args, pos).meta.kind == FieldKind
  {
  }

  /** Enumerated values are completed exactly right after a string switch
      with a non-empty enumeration, whose descriptor is passed along. */
  lemma AnalyzeEnum(fields: seq<FieldMeta>, args: seq<string>, pos: nat)
    ensures var r := AnalyzeCompletionContext(fields, args, pos);
            var f := FindLastFlag(fields, args, pos);
            && (r.kind == EnumCompletion <==>
                  (!IsPrefixed(CurrentWord(args, pos)) && pos > 0 && f.FlagAt? && f.at == pos - 1
                   && f.meta.kind == StringKind && |f.meta.enum| > 0))
            && (r.kind == EnumCompletion ==> r.fieldMeta == Some(f.meta))
  {
  }

  /** The k-th word after a multi-argument switch is completed as its k-th
      argument while k is below the number of declared arguments; a word
      following a field argument carries that field's name. */
  lemma AnalyzeMulti(fields: seq<FieldMeta>, args: seq<string>, pos: nat)
    ensures var r := AnalyzeCompletionContext(fields, args, pos);
            var f := FindLastFlag(fields, args, pos);
            && (r.kind == MultiArgCompletion <==>
                  (!IsPrefixed(CurrentWord(args, pos)) && f.FlagAt? && f.meta.kind == MultiKind
                   && pos - f.at - 1 < |f.meta.args|))
            && (r.kind == MultiArgCompletion ==>
                  && f.at + 1 + r.argumentIndex == pos
                  && r.argumentSpec == Some(f.meta.args[r.argumentIndex])
                  && (r.argumentIndex > 0 && f.meta.args[r.argumentIndex - 1].argType == FieldArg && pos - 1 < |args|
                      ==> r.fieldName == args[pos - 1]))
  {
  }

  /** Without a switch to complete for, a bare position borrows the `Argv`
      field's descriptor (for its suffix filter); the kind is file. */
  lemma AnalyzeBareFile(fields: seq<FieldMeta>, args: seq<string>, pos: nat)
    requires !IsPrefixed(CurrentWord(args, pos)) && FindLastFlag(fields, args, pos).NoFlag?
    ensures var r := AnalyzeCompletionContext(fields, args, pos);
            && r.kind == FileCompletion
            && (r.fieldMeta.Some? <==> ShouldUseBareFileCompletion(args, pos) && FindArgv(fields).Some?)
            && (r.fieldMeta.Some? ==> r.fieldMeta.value.name == "Argv")
  {
  }

  /** The classification looks only backwards: words after the cursor
      change nothing but the table file found. */
  lemma AnalyzeLooksBack(fields: seq<FieldMeta>, args: seq<string>, more: seq<string>, pos: nat)
    requires pos < |args|
    ensures AnalyzeCompletionContext(fields, args + more, pos).(tsvFile := "")
         == AnalyzeCompletionContext(fields, args, pos).(tsvFile := "")
  {
    ClassifyLooksBack(fields, args, more, pos);
  }

  lemma ClassifyLooksBack(fields: seq<FieldMeta>, args: seq<string>, more: seq<string>, pos: nat)
    requires pos < |args|
    ensures Classify(fields, args + more, pos) == Classify(fields, args, pos)
  {
    var long := args + more;
    assert long[pos] == args[pos];
    LookBackPrefix(fields, args, more, pos);
    if pos > 0 {
      assert long[pos - 1] == args[pos - 1];
    }
    var f := FindLastFlag(fields, args, pos);
    if f.FlagAt? {
      var ctx := CompletionContext(FileCompletion, CurrentWord(args, pos), "", "", 0, None, None);
      SwitchLooksBack(ctx, args, more, pos, f.at, f.meta);
    }
  }

  lemma SwitchLooksBack(ctx: CompletionContext, args: seq<string>, more: seq<string>, pos: nat, flagPos: nat, meta: FieldMeta)
    requires flagPos < pos < |args| && ctx.kind == FileCompletion
    ensures ClassifySwitch(ctx, args + more, pos, flagPos, meta) == ClassifySwitch(ctx, args, pos, flagPos, meta)
  {
    assert (args + more)[pos - 1] == args[pos - 1];
  }

  // =====================================================================
  // Dispatch (complete, completeMultiArgument)
  // =====================================================================

  /** completeFilesWithSuffix: the directory listing for a partial path,
      filtered by a descriptor's suffix pattern. It never fails. */
  type FileLister = (string, Option<FieldMeta>) -> seq<string>

  datatype Caches = Caches(fields: FieldCache, content: ContentCache)

  /** completeMultiArgument. */
  function CompleteMultiArgument(ctx: CompletionContext, caches: Caches, fs: FileSystem, files: FileLister)
    : (r: (Result<seq<string>>, Caches))
    ensures r.1.fields == caches.fields || r.1.content == caches.content
    ensures r.0.Err? ==> r.1 == caches && ctx.argumentSpec.Some? && ctx.argumentSpec.value.argType == FieldArg
                         && ctx.tsvFile != "" && ReadHeader(fs, ctx.tsvFile).Err?
  {
    match ctx.argumentSpec
    case None => (Ok(files(ctx.current, None)), caches)
    case Some(spec) =>
      match spec.argType
      case FieldArg =>
        if ctx.tsvFile != "" then
          var (names, fc) := CompleteField(caches.fields, fs, ctx.tsvFile, ctx.current);
          (names, caches.(fields := fc))
        else (Ok([]), caches)
      case ContentArg =>
        if ctx.tsvFile != "" && ctx.fieldName != "" then
          var (values, cc) := CompleteContent(caches.content, fs, ctx.tsvFile, ctx.fieldName, ctx.current, ScanDepth);
          (Ok(values), caches.(content := cc))
        else (Ok([]), caches)
      case FileArg => (Ok(files(ctx.current, None)), caches)
      case _ => (Ok([]), caches)
  }

  /** complete: classify the cursor, then ask the matching source. */
  function CompleteAt(fields: seq<FieldMeta>, caches: Caches, fs: FileSystem, files: FileLister, args: seq<string>, pos: nat)
    : (r: (Result<seq<string>>, Caches))
    ensures r.1.fields == caches.fields || r.1.content == caches.content
    ensures r.0.Err? ==> r.1 == caches
  {
    var ctx := AnalyzeCompletionContext(fields, args, pos);
    match ctx.kind
    case FlagCompletion => (Ok(CompleteFlags(fields, ctx.current)), caches)
    case FieldCompletion =>
      var (names, fc) := CompleteField(caches.fields, fs, ctx.tsvFile, ctx.current);
      (names, caches.(fields := fc))
    case ContentCompletion =>
      var (values, cc) := CompleteContent(caches.content, fs, ctx.tsvFile, ctx.fieldName, ctx.current, ScanDepth);
      (Ok(values), caches.(content := cc))
    case MultiArgCompletion => CompleteMultiArgument(ctx, caches, fs, files)
    case EnumCompletion => (Ok(CompleteEnum(ctx.fieldMeta, ctx.current)), caches)
    case FileCompletion => (Ok(files(ctx.current, ctx.fieldMeta)), caches)
  }

  /** The only failure of completion is a table header that cannot be read
      while completing field names: the table file is not cached, reading
      it fails, and the error is that read's error. */
  lemma CompleteFailsOnlyOnHeaders(fields: seq<FieldMeta>, caches: Caches, fs: FileSystem, files: FileLister, args: seq<string>, pos: nat)
    ensures var ctx := AnalyzeCompletionContext(fields, args, pos);
            CompleteAt(fields, caches, fs, files, args, pos).0.Err? ==>
            && (ctx.kind == FieldCompletion
                || (ctx.kind == MultiArgCompletion && ctx.argumentSpec.value.argType == FieldArg && ctx.tsvFile != ""))
            && ctx.tsvFile !in caches.fields
            && CompleteAt(fields, caches, fs, files, args, pos).0 == Err(ReadHeader(fs, ctx.tsvFile).msg)
  {
  }

  /** Switch words are offered switch names and touch no cache. */
  lemma CompleteSwitches(fields: seq<FieldMeta>, caches: Caches, fs: FileSystem, files: FileLister, args: seq<string>, pos: nat)
    requires IsPrefixed(CurrentWord(args, pos))
    ensures CompleteAt(fields, caches, fs, files, args, pos) == (Ok(CompleteFlags(fields, CurrentWord(args, pos))), caches)
  {
  }

  /** Completion keeps both caches faithful to unchanged files. */
  lemma CompleteKeepsCachesFaithful(fields: seq<FieldMeta>, caches: Caches, fs: FileSystem, files: FileLister, args: seq<string>, pos: nat)
    requires FieldCacheFaithful(caches.fields, fs) && ContentCacheFaithful(caches.content, fs, ScanDepth)
    ensures var c := CompleteAt(fields, caches, fs, files, args, pos).1;
            FieldCacheFaithful(c.fields, fs) && ContentCacheFaithful(c.content, fs, ScanDepth)
  {
    var ctx := AnalyzeCompletionContext(fields, args, pos);
    var c := CompleteAt(fields, caches, fs, files, args, pos).1;
    if ctx.kind == FieldCompletion {
      GetFieldsTransparent(caches.fields, fs, ctx.tsvFile);
      assert c == caches.(fields := GetFields(caches.fields, fs, ctx.tsvFile).1);
    } else if ctx.kind == MultiArgCompletion {
      MultiKeepsCachesFaithful(ctx, caches, fs, files);
    } else {
      assert c == caches;
    }
  }

  /** What a multi-argument position offers: a field argument offers the
      table's header names matching the word, a content argument the
      matching values of the named column, a file argument (or a context
      with no argument specification) the file listing, and a string or number
      argument nothing. */
  lemma MultiArgumentOffers(ctx: CompletionContext, caches: Caches, fs: FileSystem, files: FileLister, x: string)
    requires FieldCacheFaithful(caches.fields, fs)
    ensures var r := CompleteMultiArgument(ctx, caches, fs, files).0;
            var spec := ctx.argumentSpec;
            && (spec.None? || spec.value.argType == FileArg ==> r == Ok(files(ctx.current, None)))
            && (spec.Some? && spec.value.argType in {StringArg, NumberArg} ==> r == Ok([]))
            && (spec.Some? && spec.value.argType == FieldArg ==>
                  if ctx.tsvFile == "" then r == Ok([])
                  else (r.Ok? <==> ReadHeader(fs, ctx.tsvFile).Ok?)
                       && (r.Ok? ==> (x in r.value <==> x in ReadHeader(fs, ctx.tsvFile).value && MatchesPartial(x, ctx.current))))
            && (spec.Some? && spec.value.argType == ContentArg ==>
                  if ctx.tsvFile == "" || ctx.fieldName == "" then r == Ok([])
                  else
                    var vs := GetFieldValues(caches.content, fs, ctx.tsvFile, ctx.fieldName, ScanDepth).0;
                    r.Ok? && (x in r.value <==> vs.Ok? && x in vs.value && MatchesPartial(x, ctx.current)))
  {
    if ctx.argumentSpec.Some? && ctx.tsvFile != "" {
      CompleteFieldSpec(caches.fields, fs, ctx.tsvFile, ctx.current, x);
      CompleteContentSpec(caches.content, fs, ctx.tsvFile, ctx.fieldName, ctx.current, ScanDepth, x);
    }
  }

  lemma MultiKeepsCachesFaithful(ctx: CompletionContext, caches: Caches, fs: FileSystem, files: FileLister)
    requires FieldCacheFaithful(caches.fields, fs) && ContentCacheFaithful(caches.content, fs, ScanDepth)
    ensures var c := CompleteMultiArgument(ctx, caches, fs, files).1;
            FieldCacheFaithful(c.fields, fs) && ContentCacheFaithful(c.content, fs, ScanDepth)
  {
    var c := CompleteMultiArgument(ctx, caches, fs, files).1;
    if ctx.argumentSpec.Some? && ctx.argumentSpec.value.argType == FieldArg && ctx.tsvFile != "" {
      GetFieldsTransparent(caches.fields, fs, ctx.tsvFile);
      assert c == caches.(fields := GetFields(caches.fields, fs, ctx.tsvFile).1);
    } else if ctx.argumentSpec.Some? && ctx.argumentSpec.value.argType == ContentArg && ctx.tsvFile != "" && ctx.fieldName != "" {
      GetFieldValuesTransparent(caches.content, fs, ctx.tsvFile, ctx.fieldName, ScanDepth);
      assert c == caches.(content := GetFieldValues(caches.content, fs, ctx.tsvFile, ctx.fieldName, ScanDepth).1);
    } else {
      assert c == caches;
    }
  }
}

=== FILE: patterns.dfy ===
/** The candidate filters of the completion code (gs/command.go and
    completion/tsv.go): case-insensitive prefix filtering, switch-name and
    enumeration candidates, and the suffix patterns of `suffix=` attributes. */
module Patterns {
  import opened Results
  import opened Strings
  import opened Types
  import opened TagParser

  // =====================================================================
  // Case-insensitive prefix filtering
  // =====================================================================

  /** `strings.HasPrefix(strings.ToLower(candidate), strings.ToLower(partial))`. */
  predicate MatchesPartial(candidate: string, partial: string) {
    HasPrefix(Lower(candidate), Lower(partial))
  }

  /** The candidates that match `partial`, in their own order. */
  function FilterPartial(cands: seq<string>, partial: string): (r: seq<string>)
    ensures |r| <= |cands|
    ensures forall x :: x in r ==> x in cands && MatchesPartial(x, partial)
    decreases |cands|
  {
    if |cands| == 0 then []
    else (if MatchesPartial(cands[0], partial) then [cands[0]] else []) + FilterPartial(cands[1..], partial)
  }

  /** A candidate is kept exactly when it matches. */
  lemma {:induction false} FilterMembers(cands: seq<string>, partial: string, x: string)
    ensures x in FilterPartial(cands, partial) <==> x in cands && MatchesPartial(x, partial)
    decreases |cands|
  {
    if |cands| > 0 {
      FilterMembers(cands[1..], partial, x);
      assert cands == [cands[0]] + cands[1..];
    }
  }

  /** Filtering keeps the candidates' order. */
  lemma {:induction false} FilterSubsequence(cands: seq<string>, partial: string)
    ensures Subsequence(FilterPartial(cands, partial), cands)
    decreases |cands|
  {
    if |cands| > 0 {
      FilterSubsequence(cands[1..], partial);
      var rest := FilterPartial(cands[1..], partial);
      if MatchesPartial(cands[0], partial) {
        assert ([cands[0]] + rest)[1..] == rest;
      } else {
        assert [] + rest == rest;
        SubsequenceSkip(rest, cands);
      }
    }
  }

  /** Filtering a concatenation filters each part. */
  lemma {:induction false} FilterAppend(a: seq<string>, b: seq<string>, partial: string)
    ensures FilterPartial(a + b, partial) == FilterPartial(a, partial) + FilterPartial(b, partial)
    decreases |a|
  {
    if |a| > 0 {
      FilterAppend(a[1..], b, partial);
      assert (a + b)[0] == a[0];
      assert (a + b)[1..] == a[1..] + b;
      var h := if MatchesPartial(a[0], partial) then [a[0]] else [];
      assert FilterPartial(a + b, partial) == h + (FilterPartial(a[1..], partial) + FilterPartial(b, partial));
      assert FilterPartial(a, partial) == h + FilterPartial(a[1..], partial);
      assert h + (FilterPartial(a[1..], partial) + FilterPartial(b, partial))
          == (h + FilterPartial(a[1..], partial)) + FilterPartial(b, partial);
    } else {
      assert a + b == b;
    }
  }

  /** An empty partial word keeps every candidate. */
  lemma {:induction false} FilterEmptyPartial(cands: seq<string>)
    ensures FilterPartial(cands, "") == cands
    decreases |cands|
  {
    if |cands| > 0 {
      FilterEmptyPartial(cands[1..]);
      assert Lower("") == "";
    }
  }

  /** Lower-casing twice is lower-casing once. */
  lemma LowerIdempotent(s: string)
    ensures Lower(Lower(s)) == Lower(s)
  {
  }

  /** The filter ignores the case of the partial word. */
  lemma FilterIgnoresCase(cands: seq<string>, partial: string)
    ensures FilterPartial(cands, Lower(partial)) == FilterPartial(cands, partial)
  {
    LowerIdempotent(partial);
    FilterSameLowered(cands, Lower(partial), partial);
  }

  lemma {:induction false} FilterSameLowered(cands: seq<string>, p: string, q: string)
    requires Lower(p) == Lower(q)
    ensures FilterPartial(cands, p) == FilterPartial(cands, q)
    decreases |cands|
  {
    if |cands| > 0 {
      FilterSameLowered(cands[1..], p, q);
    }
  }

  // =====================================================================
  // Switch-name candidates (completeFlags)
  // =====================================================================

  /** The switches every command accepts besides its own. */
  const BuiltinFlags: seq<string> := ["-help", "-man", "-complete", "-bash-completion"]

  /** `+name` for the switch `-name`. */
  function PlusFlag(flag: string): string
    requires |flag| > 0
  {
    "+" + flag[1..]
  }

  /** Both spellings of every field's switch, field by field. */
  function SwitchSpellings(fields: seq<FieldMeta>): (r: seq<string>)
    ensures |r| == 2 * |fields|
    decreases |fields|
  {
    if |fields| == 0 then []
    else
      var flag := ParseFlagName(fields[0].name);
      [flag, PlusFlag(flag)] + SwitchSpellings(fields[1..])
  }

  /** The field loop of completeFlags: `-name` then `+name` for each field,
      each kept when it matches. */
  function FieldFlagMatches(fields: seq<FieldMeta>, partial: string): seq<string>
    decreases |fields|
  {
    if |fields| == 0 then []
    else
      var flag := ParseFlagName(fields[0].name);
      (if MatchesPartial(flag, partial) then [flag] else [])
      + (if MatchesPartial(PlusFlag(flag), partial) then [PlusFlag(flag)] else [])
      + FieldFlagMatches(fields[1..], partial)
  }

  /** completeFlags. */
  function CompleteFlags(fields: seq<FieldMeta>, partial: string): seq<string> {
    FieldFlagMatches(fields, partial) + FilterPartial(BuiltinFlags, partial)
  }

  /** The candidates are the matching spellings, in field order with `-`
      before `+`, followed by the matching built-in switches. */
  lemma {:induction false} FieldFlagMatchesFilter(fields: seq<FieldMeta>, partial: string)
    ensures FieldFlagMatches(fields, partial) == FilterPartial(SwitchSpellings(fields), partial)
    decreases |fields|
  {
    if |fields| > 0 {
      FieldFlagMatchesFilter(fields[1..], partial);
      var flag := ParseFlagName(fields[0].name);
      var rest := SwitchSpellings(fields[1..]);
      FilterAppend([flag, PlusFlag(flag)], rest, partial);
      FilterAppend([flag], [PlusFlag(flag)], partial);
      assert [flag, PlusFlag(flag)] == [flag] + [PlusFlag(flag)];
      assert FilterPartial([flag], partial) == if MatchesPartial(flag, partial) then [flag] else [];
      assert FilterPartial([PlusFlag(flag)], partial) == if MatchesPartial(PlusFlag(flag), partial) then [PlusFlag(flag)] else [];
    }
  }

  lemma CompleteFlagsSpec(fields: seq<FieldMeta>, partial: string)
    ensures CompleteFlags(fields, partial) == FilterPartial(SwitchSpellings(fields) + BuiltinFlags, partial)
  {
    FieldFlagMatchesFilter(fields, partial);
    FilterAppend(SwitchSpellings(fields), BuiltinFlags, partial);
  }

  /** With nothing typed yet every spelling of every switch is offered:
      two per field and the four built-ins. */
  lemma CompleteFlagsAll(fields: seq<FieldMeta>)
    ensures CompleteFlags(fields, "") == SwitchSpellings(fields) + BuiltinFlags
    ensures |CompleteFlags(fields, "")| == 2 * |fields| + 4
  {
    CompleteFlagsSpec(fields, "");
    FilterEmptyPartial(SwitchSpellings(fields) + BuiltinFlags);
  }

  // =====================================================================
  // Enumeration candidates (completeEnum)
  // =====================================================================

  /** completeEnum: the declared values matching `partial`, in declared
      order; nothing for a missing descriptor. */
  function CompleteEnum(meta: Option<FieldMeta>, partial: string): (r: seq<string>)
    ensures forall x :: x in r ==> meta.Some? && x in meta.value.enum && MatchesPartial(x, partial)
  {
    if meta.None? || |meta.value.enum| == 0 then [] else FilterPartial(meta.value.enum, partial)
  }

  /** A value is offered exactly when it is declared and matches; the
      offers keep the declared order. */
  lemma CompleteEnumSpec(meta: FieldMeta, partial: string, x: string)
    ensures x in CompleteEnum(Some(meta), partial) <==> x in meta.enum && MatchesPartial(x, partial)
    ensures Subsequence(CompleteEnum(Some(meta), partial), meta.enum)
  {
    FilterMembers(meta.enum, partial, x);
    FilterSubsequence(meta.enum, partial);
  }

  // =====================================================================
  // Suffix patterns (matchesSuffixPattern, matchesBracePattern)
  // =====================================================================

  /** A brace pattern `prefix{o1,o2,...}suffix`. */
  datatype Brace = Brace(prefix: string, options: seq<string>, suffix: string)

  /** The brace section of a pattern: the first `{` and the first `}`, which
      must come after it. */
  function BraceOf(pattern: string): Option<Brace> {
    var start := FirstIndex(pattern, '{');
    var end := FirstIndex(pattern, '}');
    if start == |pattern| || end == |pattern| || start >= end then None
    else Some(Brace(pattern[..start], Split(pattern[start + 1..end], ','), pattern[end + 1..]))
  }

  /** Whether `name` ends with one of the expansions. */
  function AnyOptionMatches(name: string, b: Brace, k: nat): bool
    requires k <= |b.options|
    decreases |b.options| - k
  {
    if k == |b.options| then false
    else HasSuffix(name, Expansion(b, k)) || AnyOptionMatches(name, b, k + 1)
  }

  /** matchesBracePattern. */
  function MatchesBracePattern(name: string, pattern: string): bool {
    match BraceOf(pattern)
    case None => false
    case Some(b) => AnyOptionMatches(name, b, 0)
  }

  /** A brace pattern matches exactly the names ending in one of its
      expansions `prefix + trim(option) + suffix`. */
  lemma BraceMeaning(name: string, pattern: string)
    ensures MatchesBracePattern(name, pattern) <==>
              BraceOf(pattern).Some? &&
              exists k :: 0 <= k < |BraceOf(pattern).value.options| &&
                HasSuffix(name, Expansion(BraceOf(pattern).value, k))
  {
    if BraceOf(pattern).Some? {
      AnyOptionMeaning(name, BraceOf(pattern).value, 0);
    }
  }

  function Expansion(b: Brace, k: nat): string
    requires k < |b.options|
  {
    b.prefix + TrimSpace(b.options[k]) + b.suffix
  }

  lemma {:induction false} AnyOptionMeaning(name: string, b: Brace, k: nat)
    requires k <= |b.options|
    ensures AnyOptionMatches(name, b, k) <==> exists j :: k <= j < |b.options| && HasSuffix(name, Expansion(b, j))
    decreases |b.options| - k
  {
    if k < |b.options| {
      AnyOptionMeaning(name, b, k + 1);
      if HasSuffix(name, Expansion(b, k)) {
        assert k <= k < |b.options| && HasSuffix(name, Expansion(b, k));
      }
    }
  }

  /** A glob matcher (`filepath.Match`): `None` when the pattern is
      malformed. */
  type Glob = (string, string) -> Option<bool>

  predicate HasGlobChars(s: string) {
    '*' in s || '?' in s || '[' in s || ']' in s
  }

  /** matchesSuffixPattern: both sides lower-cased; a pattern with a brace
      pair is a brace pattern, one with glob characters is matched by the
      glob matcher against `*pattern` (falling back to a plain suffix test
      when the glob is malformed), any other is a plain suffix. */
  function MatchesSuffixPattern(name: string, pattern: string, glob: Glob): bool {
    var f := Lower(name);
    var p := Lower(pattern);
    if '{' in p && '}' in p then MatchesBracePattern(f, p)
    else if HasGlobChars(p) then
      match glob("*" + p, f)
      case None => HasSuffix(f, p)
      case Some(b) => b
    else HasSuffix(f, p)
  }

  /** The case of the file name never matters. */
  lemma SuffixPatternIgnoresCase(name: string, pattern: string, glob: Glob)
    ensures MatchesSuffixPattern(Lower(name), pattern, glob) == MatchesSuffixPattern(name, pattern, glob)
  {
    LowerIdempotent(name);
  }

  /** A literal suffix is a case-insensitive suffix test. */
  lemma PlainSuffix(name: string, pattern: string, glob: Glob)
    requires '{' !in pattern && !HasGlobChars(pattern)
    ensures MatchesSuffixPattern(name, pattern, glob) <==> HasSuffix(Lower(name), Lower(pattern))
  {
    LowerKeepsPunctuation(pattern, '{');
    LowerKeepsPunctuation(pattern, '*');
    LowerKeepsPunctuation(pattern, '?');
    LowerKeepsPunctuation(pattern, '[');
    LowerKeepsPunctuation(pattern, ']');
  }

  /** Lower-casing neither creates nor removes a non-letter. */
  lemma LowerKeepsPunctuation(s: string, c: char)
    requires !IsUpper(c) && !IsLowerLetter(c)
    ensures c in Lower(s) <==> c in s
  {
    if c in Lower(s) {
      var i :| 0 <= i < |s| && Lower(s)[i] == c;
      assert LowerChar(s[i]) == c;
    }
    if c in s {
      var i :| 0 <= i < |s| && s[i] == c;
      assert Lower(s)[i] == c;
    }
  }

  /** The brace section of `pre{inner}post` when `pre` holds no brace and
      `inner` no closing brace. */
  lemma BraceOfShape(pre: string, inner: string, post: string)
    requires '{' !in pre && '}' !in pre && '}' !in inner
    ensures BraceOf(pre + "{" + inner + "}" + post) == Some(Brace(pre, Split(inner, ','), post))
  {
    BraceParts(pre + "{" + inner + "}" + post, pre, inner, post);
  }

  lemma BraceParts(p: string, pre: string, inner: string, post: string)
    requires p == pre + "{" + inner + "}" + post
    requires '{' !in pre && '}' !in pre && '}' !in inner
    ensures BraceOf(p) == Some(Brace(pre, Split(inner, ','), post))
  {
    var start, end := |pre|, |pre| + 1 + |inner|;
    assert FirstIndex(p, '{') == start && FirstIndex(p, '}') == end by {
      BraceIndices(pre, inner, post);
    }
    assert p[..start] == pre && p[start + 1..end] == inner && p[end + 1..] == post by {
      BraceSlices(pre, inner, post);
    }
    BraceAt(p, start, end, pre, inner, post);
  }

  /** BraceOf reads the sections around the first `{` and the first `}`. */
  lemma BraceAt(p: string, start: nat, end: nat, pre: string, inner: string, post: string)
    requires start < end < |p|
    requires FirstIndex(p, '{') == start && FirstIndex(p, '}') == end
    requires p[..start] == pre && p[start + 1..end] == inner && p[end + 1..] == post
    ensures BraceOf(p) == Some(Brace(pre, Split(inner, ','), post))
  {
    assert Split(p[start + 1..end], ',') == Split(inner, ',');
  }

  lemma BraceIndices(pre: string, inner: string, post: string)
    requires '{' !in pre && '}' !in pre && '}' !in inner
    ensures FirstIndex(pre + "{" + inner + "}" + post, '{') == |pre|
    ensures FirstIndex(pre + "{" + inner + "}" + post, '}') == |pre| + 1 + |inner|
  {
    var p := pre + "{" + inner + "}" + post;
    var open := pre + "{" + inner;
    assert p == pre + ['{'] + (inner + "}" + post);
    FirstIndexAfter(pre, '{', inner + "}" + post);
    assert p == open + ['}'] + post;
    assert '}' !in open;
    FirstIndexAfter(open, '}', post);
  }

  lemma BraceSlices(pre: string, inner: string, post: string)
    ensures var p := pre + "{" + inner + "}" + post;
            && p[..|pre|] == pre
            && p[|pre| + 1..|pre| + 1 + |inner|] == inner
            && p[|pre| + 1 + |inner| + 1..] == post
  {
    var p := pre + "{" + inner + "}" + post;
    SliceParts(pre, "{" + inner, "}" + post);
    SliceParts(pre + "{", inner, "}" + post);
    SliceParts(pre + "{" + inner, "}", post);
  }

  /** A two-option pattern `.{a,c}` accepts names ending in `.a` and names
      ending in `.c`; `.{tsv,csv}` is the case the table files use. */
  lemma BraceTwoOptions(stem: string, a: string, c: string)
    requires ',' !in a && '}' !in a && '}' !in c && ',' !in c
    requires TrimSpace(a) == a && TrimSpace(c) == c
    ensures MatchesBracePattern(stem + "." + a, "." + "{" + (a + "," + c) + "}" + "")
    ensures MatchesBracePattern(stem + "." + c, "." + "{" + (a + "," + c) + "}" + "")
  {
    var pattern := "." + "{" + (a + "," + c) + "}" + "";
    BraceTwoOf(a, c);
    BraceOptionEnding(stem, pattern, Brace(".", [a, c], ""), 0);
    BraceOptionEnding(stem, pattern, Brace(".", [a, c], ""), 1);
  }

  /** The brace section of `.{a,c}`. */
  lemma BraceTwoOf(a: string, c: string)
    requires ',' !in a && '}' !in a && '}' !in c && ',' !in c
    ensures BraceOf("." + "{" + (a + "," + c) + "}" + "") == Some(Brace(".", [a, c], ""))
  {
    BraceOfShape(".", a + "," + c, "");
    assert Split(a + "," + c, ',') == [a, c] by {
      SplitCons(a, c, ',');
      SplitNone(c, ',');
    }
  }

  /** A name made of any stem and an expansion (with an empty suffix and an
      option needing no trimming) matches the pattern. */
  lemma BraceOptionEnding(stem: string, pattern: string, b: Brace, k: nat)
    requires BraceOf(pattern) == Some(b) && k < |b.options| && b.suffix == ""
    requires TrimSpace(b.options[k]) == b.options[k]
    ensures MatchesBracePattern(stem + b.prefix + b.options[k], pattern)
  {
    var e := b.prefix + b.options[k];
    assert Expansion(b, k) == e;
    assert HasSuffix(stem + e, e) by {
      SliceParts(stem, e, "");
    }
    assert stem + b.prefix + b.options[k] == stem + e;
    BraceOption(stem + e, pattern, b, k);
  }

  /** A name ending in any one expansion matches the pattern. */
  lemma BraceOption(name: string, pattern: string, b: Brace, k: nat)
    requires BraceOf(pattern) == Some(b) && k < |b.options|
    requires HasSuffix(name, Expansion(b, k))
    ensures MatchesBracePattern(name, pattern)
  {
    BraceMeaning(name, pattern);
  }
}

=== FILE: registry.dfy ===
/** The registration loop of reflectFields (gs/types.go): every declared
    field with a non-empty `gs` tag is turned into a descriptor, in
    declaration order. Struct reflection is replaced by a list of
    (name, tag) declarations. */
module Registry {
  import opened Results
  import opened Strings
  import opened Types
  import opened TagParser

  /** One struct field: its Go name and its `gs` tag ("" when absent). */
  datatype FieldDecl = FieldDecl(name: string, tag: string)

  /** The error reported for a field whose tag does not parse. */
  function FieldError(name: string, err: string): string {
    "parsing field " + name + ": " + err
  }

  function RegisterFields(decls: seq<FieldDecl>, parseFloat: FloatParser): (r: Result<seq<FieldMeta>>)
    ensures r.Ok? ==> |r.value| <= |decls|
    decreases |decls|
  {
    if |decls| == 0 then Ok([])
    else if decls[0].tag == "" then RegisterFields(decls[1..], parseFloat)
    else
      match ParseFieldTag(decls[0].name, decls[0].tag, parseFloat)
      case Err(e) => Err(FieldError(decls[0].name, e))
      case Ok(m) =>
        var rest :- RegisterFields(decls[1..], parseFloat);
        Ok([m] + rest)
  }

  // ---------------------------------------------------------------------
  // Reference definitions
  // ---------------------------------------------------------------------

  /** The declarations that carry a tag, in order. */
  function Tagged(decls: seq<FieldDecl>): (t: seq<FieldDecl>)
    ensures forall d :: d in t ==> d in decls && d.tag != ""
    ensures forall d :: d in decls && d.tag != "" ==> d in t
    ensures Subsequence(t, decls)
  {
    if |decls| == 0 then []
    else if decls[0].tag == "" then
      SubsequenceSkip(Tagged(decls[1..]), decls);
      Tagged(decls[1..])
    else [decls[0]] + Tagged(decls[1..])
  }

  predicate TagParses(d: FieldDecl, parseFloat: FloatParser) {
    ParseFieldTag(d.name, d.tag, parseFloat).Ok?
  }

  /** Every declaration in `t` parses, stated recursively. */
  predicate AllParse(t: seq<FieldDecl>, parseFloat: FloatParser)
    decreases |t|
  {
    |t| == 0 || (TagParses(t[0], parseFloat) && AllParse(t[1..], parseFloat))
  }

  lemma {:induction false} AllParseMeaning(t: seq<FieldDecl>, parseFloat: FloatParser)
    ensures AllParse(t, parseFloat) <==> forall k :: 0 <= k < |t| ==> TagParses(t[k], parseFloat)
    decreases |t|
  {
    if |t| > 0 {
      AllParseMeaning(t[1..], parseFloat);
      assert forall k :: 1 <= k < |t| ==> t[k] == t[1..][k - 1];
    }
  }

  /** The recursive form of RegisterAccepts. */
  lemma {:induction false} RegisterAcceptsRec(decls: seq<FieldDecl>, parseFloat: FloatParser)
    ensures RegisterFields(decls, parseFloat).Ok? <==> AllParse(Tagged(decls), parseFloat)
    ensures RegisterFields(decls, parseFloat).Ok? ==>
              var metas, t := RegisterFields(decls, parseFloat).value, Tagged(decls);
              |metas| == |t|
              && forall k :: 0 <= k < |t| ==> ParseFieldTag(t[k].name, t[k].tag, parseFloat) == Ok(metas[k])
    decreases |decls|
  {
    if |decls| > 0 {
      RegisterAcceptsRec(decls[1..], parseFloat);
      if decls[0].tag != "" {
        var t, t' := Tagged(decls), Tagged(decls[1..]);
        assert t == [decls[0]] + t';
        assert t[1..] == t';
        assert forall k :: 1 <= k < |t| ==> t[k] == t'[k - 1];
      }
    }
  }

  /** Registration succeeds exactly when every tagged declaration parses;
      it then lists one descriptor per tagged declaration, in order, each
      the parse of that declaration's tag. */
  lemma RegisterAccepts(decls: seq<FieldDecl>, parseFloat: FloatParser)
    ensures RegisterFields(decls, parseFloat).Ok? <==> forall k :: 0 <= k < |Tagged(decls)| ==> TagParses(Tagged(decls)[k], parseFloat)
    ensures RegisterFields(decls, parseFloat).Ok? ==>
              var metas, t := RegisterFields(decls, parseFloat).value, Tagged(decls);
              |metas| == |t|
              && forall k :: 0 <= k < |t| ==> ParseFieldTag(t[k].name, t[k].tag, parseFloat) == Ok(metas[k])
  {
    RegisterAcceptsRec(decls, parseFloat);
    AllParseMeaning(Tagged(decls), parseFloat);
  }

  /** The descriptors are named after the tagged fields, in declaration
      order. */
  lemma RegisterNames(decls: seq<FieldDecl>, parseFloat: FloatParser)
    requires RegisterFields(decls, parseFloat).Ok?
    ensures var metas, t := RegisterFields(decls, parseFloat).value, Tagged(decls);
            |metas| == |t| && forall k :: 0 <= k < |t| ==> metas[k].name == t[k].name
  {
    RegisterAccepts(decls, parseFloat);
  }

  /** The index of the first tagged declaration whose tag does not parse
      (`|Tagged(decls)|` when there is none). */
  function FirstBad(t: seq<FieldDecl>, parseFloat: FloatParser): (k: nat)
    ensures k <= |t|
    ensures forall j :: 0 <= j < k ==> TagParses(t[j], parseFloat)
    ensures k < |t| ==> !TagParses(t[k], parseFloat)
  {
    if |t| == 0 then 0
    else if !TagParses(t[0], parseFloat) then 0
    else 1 + FirstBad(t[1..], parseFloat)
  }

  /** A failure names the first tagged field whose tag does not parse and
      carries that tag's own error; no descriptor list comes back. */
  lemma {:induction false} RegisterFirstError(decls: seq<FieldDecl>, parseFloat: FloatParser)
    requires RegisterFields(decls, parseFloat).Err?
    ensures var t := Tagged(decls);
            var k := FirstBad(t, parseFloat);
            k < |t|
            && RegisterFields(decls, parseFloat).msg == FieldError(t[k].name, ParseFieldTag(t[k].name, t[k].tag, parseFloat).msg)
    decreases |decls|
  {
    if decls[0].tag == "" {
      RegisterFirstError(decls[1..], parseFloat);
    } else if TagParses(decls[0], parseFloat) {
      RegisterFirstError(decls[1..], parseFloat);
      var t := Tagged(decls);
      assert t == [decls[0]] + Tagged(decls[1..]);
      assert t[1..] == Tagged(decls[1..]);
    }
  }

  /** Fields without a tag never reach the descriptor parser: the error a
      failed registration carries is always a token error, never the
      "empty tag" error. */
  lemma RegisterSkipsUntagged(decls: seq<FieldDecl>, parseFloat: FloatParser)
    requires RegisterFields(decls, parseFloat).Err?
    ensures var t := Tagged(decls);
            var k := FirstBad(t, parseFloat);
            k < |t| && TokenError(ParseFieldTag(t[k].name, t[k].tag, parseFloat).msg)
  {
    var t := Tagged(decls);
    RegisterFirstError(decls, parseFloat);
    var k := FirstBad(t, parseFloat);
    assert t[k] in t;
    FieldTagErrors(t[k].name, t[k].tag, parseFloat);
  }
}

=== FILE: results.dfy ===
/** Failure-compatible wrappers shared by every module. An error carries the
    text that the Go code would produce with `fmt.Errorf`. */
module Results {

  datatype Option<+T> = None | Some(value: T) {

    /** The wrapped value, or `default` when there is none. */
    function GetOr(default: T): T {
      match this
      case Some(v) => v
      case None => default
    }
  }

  datatype Result<+T> = Ok(value: T) | Err(msg: string) {

    predicate IsFailure() {
      Err?
    }

    function PropagateFailure<U>(): Result<U>
      requires Err?
    {
      Err(msg)
    }

    function Extract(): T
      requires Ok?
    {
      value
    }
  }
}

=== FILE: strings.dfy ===
/** The slice of Go's `strings`/`unicode` packages that the grammar relies on,
    over `string` = `seq<char>` (one char per Unicode code point). */
module Strings {

  // ---------------------------------------------------------------------
  // Character classes
  // ---------------------------------------------------------------------

  predicate IsUpper(c: char) {
    'A' <= c <= 'Z'
  }

  predicate IsLowerLetter(c: char) {
    'a' <= c <= 'z'
  }

  predicate IsAlnum(c: char) {
    IsUpper(c) || IsLowerLetter(c) || '0' <= c <= '9'
  }

  /** Go's `unicode.IsSpace`: the Latin-1 spaces plus the other code points
      with the Unicode White_Space property. */
  predicate IsSpace(c: char) {
    c == ' ' || c == '\t' || c == '\n' || c == '\r' || c == '\U{B}' || c == '\U{C}'
    || c == '\U{85}' || c == '\U{A0}' || c == '\U{1680}'
    || ('\U{2000}' <= c <= '\U{200A}')
    || c == '\U{2028}' || c == '\U{2029}' || c == '\U{202F}' || c == '\U{205F}' || c == '\U{3000}'
  }

  function LowerChar(c: char): (r: char)
    ensures !IsUpper(r)
    ensures IsUpper(c) ==> IsLowerLetter(r)
    ensures !IsUpper(c) ==> r == c
  {
    if IsUpper(c) then (c as int + 32) as char else c
  }

  function UpperChar(c: char): (r: char)
    ensures IsLowerLetter(c) ==> IsUpper(r)
    ensures !IsLowerLetter(c) ==> r == c
  {
    if IsLowerLetter(c) then (c as int - 32) as char else c
  }

  lemma UpperLowerInverse(c: char)
    requires IsUpper(c)
    ensures UpperChar(LowerChar(c)) == c
  {
  }

  /** ASCII lower-casing, character by character. */
  function Lower(s: string): (r: string)
    ensures |r| == |s|
    ensures forall i :: 0 <= i < |s| ==> r[i] == LowerChar(s[i])
  {
    seq(|s|, i requires 0 <= i < |s| => LowerChar(s[i]))
  }

  // ---------------------------------------------------------------------
  // Prefixes, suffixes, containment
  // ---------------------------------------------------------------------

  predicate HasPrefix(s: string, p: string) {
    |p| <= |s| && s[..|p|] == p
  }

  predicate HasSuffix(s: string, p: string) {
    |p| <= |s| && s[|s| - |p|..] == p
  }

  /** `strings.Contains(s, sub)` for an arbitrary sub-string. */
  predicate ContainsSub(s: string, sub: string)
    decreases |s|
  {
    HasPrefix(s, sub) || (|s| > 0 && ContainsSub(s[1..], sub))
  }

  /** Index of the first `c` in `s`, or `|s|` when there is none. */
  function FirstIndex(s: string, c: char): (r: nat)
    ensures r <= |s|
    ensures r < |s| ==> s[r] == c
    ensures forall j :: 0 <= j < r ==> s[j] != c
    ensures r == |s| <==> c !in s
  {
    if |s| == 0 then 0
    else if s[0] == c then 0
    else 1 + FirstIndex(s[1..], c)
  }

  /** The first `c` in `pre + [c] + rest` is the one after `pre` when `pre`
      holds none. */
  lemma FirstIndexAfter(pre: string, c: char, rest: string)
    requires c !in pre
    ensures FirstIndex(pre + [c] + rest, c) == |pre|
  {
    var s := pre + [c] + rest;
    assert s[|pre|] == c;
    assert forall j :: 0 <= j < |pre| ==> s[j] == pre[j];
  }

  /** The three parts of a concatenation can be sliced back out. */
  lemma SliceParts(a: string, b: string, c: string)
    ensures (a + b + c)[..|a|] == a
    ensures (a + b + c)[|a|..|a| + |b|] == b
    ensures (a + b + c)[|a| + |b|..] == c
  {
  }

  function Count(s: string, c: char): nat
  {
    if |s| == 0 then 0 else (if s[0] == c then 1 else 0) + Count(s[1..], c)
  }

  // ---------------------------------------------------------------------
  // Split and Join
  // ---------------------------------------------------------------------

  /** `strings.Split(s, string(sep))`: the pieces between occurrences of `sep`;
      an input without `sep` (including the empty string) is one piece. */
  function Split(s: string, sep: char): (parts: seq<string>)
    ensures |parts| >= 1
    ensures forall k :: 0 <= k < |parts| ==> sep !in parts[k]
    decreases |s|
  {
    var k := FirstIndex(s, sep);
    if k == |s| then [s] else [s[..k]] + Split(s[k + 1..], sep)
  }

  /** `strings.Join(parts, sep)`. */
  function Join(parts: seq<string>, sep: string): string
  {
    if |parts| == 0 then []
    else if |parts| == 1 then parts[0]
    else parts[0] + sep + Join(parts[1..], sep)
  }

  lemma JoinCons(p: string, rest: seq<string>, sep: string)
    requires |rest| > 0
    ensures Join([p] + rest, sep) == p + sep + Join(rest, sep)
  {
    assert ([p] + rest)[1..] == rest;
  }

  /** Joining the pieces of a split with the separator gives back the input. */
  lemma {:induction false} SplitJoin(s: string, sep: char)
    ensures Join(Split(s, sep), [sep]) == s
    decreases |s|
  {
    var k := FirstIndex(s, sep);
    if k < |s| {
      var rest := s[k + 1..];
      assert Split(s, sep) == [s[..k]] + Split(rest, sep);
      calc {
        Join(Split(s, sep), [sep]);
        Join([s[..k]] + Split(rest, sep), [sep]);
        { JoinCons(s[..k], Split(rest, sep), [sep]); }
        s[..k] + [sep] + Join(Split(rest, sep), [sep]);
        { SplitJoin(rest, sep); }
        s[..k] + [sep] + rest;
        { assert s == s[..k] + [sep] + rest; }
        s;
      }
    }
  }

  /** A piece without the separator, then the separator, splits off as the
      first piece. */
  lemma SplitCons(w: string, rest: string, sep: char)
    requires sep !in w
    ensures Split(w + [sep] + rest, sep) == [w] + Split(rest, sep)
  {
    var s := w + [sep] + rest;
    var k := FirstIndex(s, sep);
    assert s[|w|] == sep;
    assert k == |w|;
    assert s[..k] == w && s[k + 1..] == rest;
  }

  /** Splitting pieces joined by a separator they do not contain gives the
      pieces back. */
  lemma {:induction false} JoinSplit(parts: seq<string>, sep: char)
    requires |parts| >= 1
    requires forall k :: 0 <= k < |parts| ==> sep !in parts[k]
    ensures Split(Join(parts, [sep]), sep) == parts
    decreases |parts|
  {
    if |parts| == 1 {
      SplitNone(parts[0], sep);
    } else {
      JoinSplit(parts[1..], sep);
      JoinCons(parts[0], parts[1..], [sep]);
      assert [parts[0]] + parts[1..] == parts;
      SplitCons(parts[0], Join(parts[1..], [sep]), sep);
    }
  }

  /** A character in neither the pieces nor the separator is not in the
      join. */
  lemma {:induction false} JoinAvoids(parts: seq<string>, sep: string, c: char)
    requires c !in sep
    requires forall k :: 0 <= k < |parts| ==> c !in parts[k]
    ensures c !in Join(parts, sep)
    decreases |parts|
  {
    if |parts| > 1 {
      JoinAvoids(parts[1..], sep, c);
    }
  }

  /** Two or more pieces joined by `sep` contain `sep`; the join starts
      with the first piece. */
  lemma JoinShape(parts: seq<string>, sep: char)
    requires |parts| >= 1
    ensures HasPrefix(Join(parts, [sep]), parts[0])
    ensures |parts| >= 2 ==> sep in Join(parts, [sep])
  {
    if |parts| >= 2 {
      var j := Join(parts, [sep]);
      assert j == parts[0] + [sep] + Join(parts[1..], [sep]);
      assert j[|parts[0]|] == sep;
    }
  }

  /** Text without the separator is one piece. */
  lemma SplitNone(w: string, sep: char)
    requires sep !in w
    ensures Split(w, sep) == [w]
  {
  }

  /** A split yields one more piece than there are separators. */
  lemma {:induction false} SplitCount(s: string, sep: char)
    ensures |Split(s, sep)| == Count(s, sep) + 1
    decreases |s|
  {
    var k := FirstIndex(s, sep);
    if k < |s| {
      SplitCount(s[k + 1..], sep);
      CountAround(s, k, sep);
    } else {
      CountAbsent(s, sep);
    }
  }

  lemma {:induction false} CountAbsent(s: string, c: char)
    requires c !in s
    ensures Count(s, c) == 0
    decreases |s|
  {
    if |s| > 0 {
      CountAbsent(s[1..], c);
    }
  }

  lemma {:induction false} CountAround(s: string, k: nat, c: char)
    requires k < |s| && s[k] == c
    requires forall j :: 0 <= j < k ==> s[j] != c
    ensures Count(s, c) == 1 + Count(s[k + 1..], c)
    decreases k
  {
    if k > 0 {
      CountAround(s[1..], k - 1, c);
      assert s[1..][k..] == s[k + 1..];
    }
  }

  // ---------------------------------------------------------------------
  // Trimming
  // ---------------------------------------------------------------------

  /** `strings.TrimLeftFunc(s, p)`. */
  function TrimLeftBy(s: string, p: char -> bool): (r: string)
    ensures |r| <= |s|
    decreases |s|
  {
    if |s| > 0 && p(s[0]) then TrimLeftBy(s[1..], p) else s
  }

  /** `strings.TrimRightFunc(s, p)`. */
  function TrimRightBy(s: string, p: char -> bool): (r: string)
    ensures |r| <= |s|
    decreases |s|
  {
    if |s| > 0 && p(s[|s| - 1]) then TrimRightBy(s[..|s| - 1], p) else s
  }

  /** A prefix made only of characters satisfying `p` is trimmed away
      entirely. */
  lemma {:induction false} TrimLeftSkips(junk: string, s: string, p: char -> bool)
    requires forall i :: 0 <= i < |junk| ==> p(junk[i])
    ensures TrimLeftBy(junk + s, p) == TrimLeftBy(s, p)
    decreases |junk|
  {
    if |junk| > 0 {
      TrimLeftSkips(junk[1..], s, p);
      assert (junk + s)[0] == junk[0];
      assert (junk + s)[1..] == junk[1..] + s;
    } else {
      assert junk + s == s;
    }
  }

  /** TrimLeftFunc drops exactly the longest prefix whose characters satisfy
      `p`: the result is a suffix of `s` that does not start with such a
      character, and everything dropped satisfied `p`. */
  lemma {:induction false} TrimLeftByMeaning(s: string, p: char -> bool)
    ensures var r := TrimLeftBy(s, p);
            && r == s[|s| - |r|..]
            && (|r| == 0 || !p(r[0]))
            && forall i :: 0 <= i < |s| - |r| ==> p(s[i])
    decreases |s|
  {
    if |s| > 0 && p(s[0]) {
      TrimLeftByMeaning(s[1..], p);
    }
  }

  /** TrimRightFunc drops exactly the longest suffix whose characters
      satisfy `p`. */
  lemma {:induction false} TrimRightByMeaning(s: string, p: char -> bool)
    ensures var r := TrimRightBy(s, p);
            && r == s[..|r|]
            && (|r| == 0 || !p(r[|r| - 1]))
            && forall i :: |r| <= i < |s| ==> p(s[i])
    decreases |s|
  {
    if |s| > 0 && p(s[|s| - 1]) {
      TrimRightByMeaning(s[..|s| - 1], p);
    }
  }

  /** `strings.TrimSpace`. */
  function TrimSpace(s: string): (r: string)
    ensures |r| <= |s|
  {
    TrimRightBy(TrimLeftBy(s, IsSpace), IsSpace)
  }

  /** A trimmed string has no space at either end, and trimming it again
      changes nothing. */
  lemma TrimSpaceEnds(s: string)
    ensures var r := TrimSpace(s);
            && (|r| == 0 || (!IsSpace(r[0]) && !IsSpace(r[|r| - 1])))
            && TrimSpace(r) == r
  {
    var l := TrimLeftBy(s, IsSpace);
    var r := TrimRightBy(l, IsSpace);
    TrimLeftByMeaning(s, IsSpace);
    TrimRightByMeaning(l, IsSpace);
    if |r| > 0 {
      assert r[0] == l[0];
    }
    TrimSpaceOfTrimmed(r);
  }

  /** A string with no space at either end is its own trim. */
  lemma TrimSpaceOfTrimmed(s: string)
    requires |s| == 0 || (!IsSpace(s[0]) && !IsSpace(s[|s| - 1]))
    ensures TrimSpace(s) == s
  {
  }

  // ---------------------------------------------------------------------
  // Decimal rendering (`%d`)
  // ---------------------------------------------------------------------

  function DigitChar(d: nat): char
    requires d < 10
  {
    "0123456789"[d]
  }

  function NatToString(n: nat): (r: string)
    ensures |r| >= 1
    decreases n
  {
    if n < 10 then [DigitChar(n)] else NatToString(n / 10) + [DigitChar(n % 10)]
  }

  // ---------------------------------------------------------------------
  // Byte-wise (code point) ordering of strings, as Go's `<` on strings
  // ---------------------------------------------------------------------

  predicate Less(a: string, b: string)
    decreases |a|
  {
    if |a| == 0 then |b| > 0
    else if |b| == 0 then false
    else if a[0] != b[0] then a[0] < b[0]
    else Less(a[1..], b[1..])
  }

  lemma {:induction false} LessIrreflexive(a: string)
    ensures !Less(a, a)
    decreases |a|
  {
    if |a| > 0 {
      LessIrreflexive(a[1..]);
    }
  }

  lemma {:induction false} LessTotal(a: string, b: string)
    requires a != b
    ensures Less(a, b) || Less(b, a)
    decreases |a|
  {
    if |a| > 0 && |b| > 0 && a[0] == b[0] {
      assert a == [a[0]] + a[1..] && b == [b[0]] + b[1..];
      LessTotal(a[1..], b[1..]);
    }
  }

  lemma {:induction false} LessAsymmetric(a: string, b: string)
    requires Less(a, b)
    ensures !Less(b, a)
    decreases |a|
  {
    if |a| > 0 && |b| > 0 && a[0] == b[0] {
      LessAsymmetric(a[1..], b[1..]);
    }
  }

  lemma {:induction false} LessTransitive(a: string, b: string, c: string)
    requires Less(a, b) && Less(b, c)
    ensures Less(a, c)
    decreases |a|
  {
    if |a| > 0 && |b| > 0 && |c| > 0 && a[0] == b[0] && b[0] == c[0] {
      LessTransitive(a[1..], b[1..], c[1..]);
    }
  }

  // ---------------------------------------------------------------------
  // Order-keeping selection
  // ---------------------------------------------------------------------

  /** `a` is `b` with some elements left out, the rest kept in order. */
  predicate Subsequence<T(==)>(a: seq<T>, b: seq<T>)
    decreases |b|
  {
    if |a| == 0 then true
    else if |b| == 0 then false
    else if a[0] == b[0] then Subsequence(a[1..], b[1..])
    else Subsequence(a, b[1..])
  }

  lemma SubsequenceSkip<T>(a: seq<T>, b: seq<T>)
    requires |b| > 0 && Subsequence(a, b[1..])
    ensures Subsequence(a, b)
    decreases |b|, 0
  {
    if |a| > 0 && a[0] == b[0] {
      SubsequenceDrop(a, b[1..]);
    }
  }

  /** Dropping the head of a subsequence keeps it a subsequence. */
  lemma {:induction false} SubsequenceDrop<T>(a: seq<T>, b: seq<T>)
    requires |a| > 0 && Subsequence(a, b)
    ensures Subsequence(a[1..], b)
    decreases |b|, 1
  {
    if |b| > 0 {
      if a[0] == b[0] {
        SubsequenceSkip(a[1..], b);
      } else {
        SubsequenceDrop(a, b[1..]);
        SubsequenceSkip(a[1..], b);
      }
    }
  }
}

=== FILE: tables.dfy ===
/** What the completion code reads from a table file: the field names of its
    header line (parseTSVHeader, in gs/command.go and completion/tsv.go), the
    distinct values of one column (getFieldValues), and the caches both
    readers keep. The file system is a parameter: a file either cannot be
    opened, or it is its list of lines. */
module Tables {
  import opened Results
  import opened Strings
  import opened Patterns

  // =====================================================================
  // Files
  // =====================================================================

  /** What opening and scanning a file yields. */
  datatype FileRead = OpenFailed(reason: string) | Lines(lines: seq<string>)

  type FileSystem = string -> FileRead

  function OpenError(filename: string, reason: string): string {
    "opening file " + filename + ": " + reason
  }

  function EmptyError(filename: string): string {
    "file " + filename + " is empty"
  }

  // =====================================================================
  // Header lines (parseTSVHeader)
  // =====================================================================

  predicate NotAlnum(c: char) {
    !IsAlnum(c)
  }

  /** The columns of a header: tab-separated when there is a tab, otherwise
      comma-separated. */
  function SplitColumns(h: string): (parts: seq<string>)
    ensures |parts| >= 1
  {
    if '\t' in h then Split(h, '\t') else Split(h, ',')
  }

  /** Each column trimmed, the empty ones dropped. */
  function CleanNames(parts: seq<string>): (r: seq<string>)
    ensures |r| <= |parts|
    ensures forall k :: 0 <= k < |r| ==> r[k] != "" && TrimSpace(r[k]) == r[k]
    decreases |parts|
  {
    if |parts| == 0 then []
    else
      var f := TrimSpace(parts[0]);
      TrimSpaceEnds(parts[0]);
      (if f == "" then [] else [f]) + CleanNames(parts[1..])
  }

  /** parseTSVHeader: leading characters other than ASCII letters and
      digits are dropped (a byte-order mark, a `#`), then the columns are
      split, trimmed and the empty ones dropped. */
  function ParseTSVHeader(header: string): (names: seq<string>)
    ensures forall k :: 0 <= k < |names| ==> names[k] != "" && TrimSpace(names[k]) == names[k]
  {
    CleanNames(SplitColumns(TrimLeftBy(header, NotAlnum)))
  }

  /** A name is kept exactly when some column trims to it and it is not
      empty; every kept name is its own trim. */
  lemma {:induction false} CleanNamesMeaning(parts: seq<string>, x: string)
    ensures x in CleanNames(parts) <==> x != "" && exists k :: 0 <= k < |parts| && TrimSpace(parts[k]) == x
    ensures x in CleanNames(parts) ==> TrimSpace(x) == x
    decreases |parts|
  {
    if |parts| > 0 {
      CleanNamesMeaning(parts[1..], x);
      TrimSpaceEnds(parts[0]);
      if exists k :: 0 <= k < |parts| && TrimSpace(parts[k]) == x {
        var k :| 0 <= k < |parts| && TrimSpace(parts[k]) == x;
        if k > 0 {
          assert TrimSpace(parts[1..][k - 1]) == x;
        }
      }
      if exists k :: 0 <= k < |parts[1..]| && TrimSpace(parts[1..][k]) == x {
        var k :| 0 <= k < |parts[1..]| && TrimSpace(parts[1..][k]) == x;
        assert TrimSpace(parts[k + 1]) == x;
      }
    }
  }

  /** Header names are never empty and carry no surrounding space. */
  lemma HeaderNamesClean(header: string, x: string)
    requires x in ParseTSVHeader(header)
    ensures x != "" && TrimSpace(x) == x
  {
    CleanNamesMeaning(SplitColumns(TrimLeftBy(header, NotAlnum)), x);
  }

  /** Clean names pass through the cleaning step unchanged. */
  lemma {:induction false} CleanNamesOfClean(names: seq<string>)
    requires forall k :: 0 <= k < |names| ==> names[k] != "" && TrimSpace(names[k]) == names[k]
    ensures CleanNames(names) == names
    decreases |names|
  {
    if |names| > 0 {
      CleanNamesOfClean(names[1..]);
    }
  }

  /** Whether `names` is a header a program would write: non-empty names
      without surrounding space, the first starting with a letter or
      digit. */
  predicate WellFormedNames(names: seq<string>) {
    && |names| >= 1
    && (forall k :: 0 <= k < |names| ==> names[k] != "" && TrimSpace(names[k]) == names[k])
    && IsAlnum(names[0][0])
  }

  lemma TrimLeftKeeps(s: string, p: char -> bool)
    requires |s| > 0 && !p(s[0])
    ensures TrimLeftBy(s, p) == s
  {
  }

  /** Writing names separated by tabs and parsing the line gives the names
      back (two or more names, none holding a tab). */
  lemma HeaderRoundTripTabs(names: seq<string>)
    requires WellFormedNames(names) && |names| >= 2
    requires forall k :: 0 <= k < |names| ==> '\t' !in names[k]
    ensures ParseTSVHeader(Join(names, "\t")) == names
  {
    var line := Join(names, "\t");
    JoinShape(names, '\t');
    assert line[0] == names[0][0];
    TrimLeftKeeps(line, NotAlnum);
    JoinSplit(names, '\t');
    CleanNamesOfClean(names);
  }

  /** Writing names separated by commas and parsing the line gives the
      names back (no name holding a comma or a tab). */
  lemma HeaderRoundTripCommas(names: seq<string>)
    requires WellFormedNames(names)
    requires forall k :: 0 <= k < |names| ==> ',' !in names[k] && '\t' !in names[k]
    ensures ParseTSVHeader(Join(names, ",")) == names
  {
    var line := Join(names, ",");
    JoinShape(names, ',');
    assert line[0] == names[0][0];
    TrimLeftKeeps(line, NotAlnum);
    JoinAvoids(names, ",", '\t');
    JoinSplit(names, ',');
    CleanNamesOfClean(names);
  }

  /** Leading punctuation before a header changes nothing. */
  lemma HeaderIgnoresLeader(junk: string, header: string)
    requires forall i :: 0 <= i < |junk| ==> NotAlnum(junk[i])
    ensures ParseTSVHeader(junk + header) == ParseTSVHeader(header)
  {
    TrimLeftSkips(junk, header, NotAlnum);
  }

  // =====================================================================
  // Column values (getFieldValues)
  // =====================================================================

  /** The number of data lines getFieldValues reads (`scanDepth`). */
  const ScanDepth: nat := 100

  /** The position of the first header name equal to `name`. */
  function IndexOf(names: seq<string>, name: string): (r: Option<nat>)
    ensures r.Some? ==> r.value < |names| && names[r.value] == name
    ensures r.Some? ==> forall j :: 0 <= j < r.value ==> names[j] != name
    ensures r.None? <==> name !in names
    decreases |names|
  {
    if |names| == 0 then None
    else if names[0] == name then Some(0)
    else match IndexOf(names[1..], name)
      case None => None
      case Some(k) => Some(k + 1)
  }

  /** The trimmed cell of column `idx` in one data line: the line is split
      on tabs, and on commas instead when that gives too few cells. */
  function Cell(line: string, idx: nat): Option<string> {
    var tabs := Split(line, '\t');
    var parts := if |tabs| <= idx then Split(line, ',') else tabs;
    if idx < |parts| then Some(TrimSpace(parts[idx])) else None
  }

  /** Strictly ascending in Go's byte-wise string order. */
  predicate Sorted(s: seq<string>) {
    forall i, j :: 0 <= i < j < |s| ==> Less(s[i], s[j])
  }

  /** `v` added to a sorted sequence at its place, unless already there. */
  function InsertSorted(s: seq<string>, v: string): (r: seq<string>)
    decreases |s|
  {
    if |s| == 0 then [v]
    else if v == s[0] then s
    else if Less(v, s[0]) then [v] + s
    else [s[0]] + InsertSorted(s[1..], v)
  }

  lemma {:induction false} InsertSortedSpec(s: seq<string>, v: string)
    requires Sorted(s)
    ensures Sorted(InsertSorted(s, v))
    ensures forall x :: x in InsertSorted(s, v) <==> x in s || x == v
    ensures |InsertSorted(s, v)| <= |s| + 1
    decreases |s|
  {
    if |s| > 0 && v != s[0] {
      if Less(v, s[0]) {
        var r := [v] + s;
        forall i, j | 0 <= i < j < |r|
          ensures Less(r[i], r[j])
        {
          if i == 0 && j > 1 {
            LessTransitive(v, s[0], s[j - 1]);
          }
        }
      } else {
        LessTotal(v, s[0]);
        InsertSortedSpec(s[1..], v);
        var t := InsertSorted(s[1..], v);
        var r := [s[0]] + t;
        forall i, j | 0 <= i < j < |r|
          ensures Less(r[i], r[j])
        {
          if i == 0 {
            assert r[j] == t[j - 1] && t[j - 1] in t;
            if t[j - 1] != v {
              var k :| 0 <= k < |s[1..]| && s[1..][k] == t[j - 1];
              assert s[k + 1] == t[j - 1];
            }
          }
        }
        assert s == [s[0]] + s[1..];
      }
    }
  }

  /** The distinct non-empty cells of column `idx`, ascending. */
  function Collect(lines: seq<string>, idx: nat): seq<string>
    decreases |lines|
  {
    if |lines| == 0 then []
    else
      var rest := Collect(lines[1..], idx);
      match Cell(lines[0], idx)
      case Some(v) => if v == "" then rest else InsertSorted(rest, v)
      case None => rest
  }

  /** Whether some line has `v` in column `idx`. */
  predicate Observed(lines: seq<string>, idx: nat, v: string) {
    exists k :: 0 <= k < |lines| && Cell(lines[k], idx) == Some(v)
  }

  lemma {:induction false} CollectSpec(lines: seq<string>, idx: nat)
    ensures Sorted(Collect(lines, idx))
    ensures |Collect(lines, idx)| <= |lines|
    ensures forall v :: v in Collect(lines, idx) <==> v != "" && Observed(lines, idx, v)
    decreases |lines|
  {
    if |lines| > 0 {
      CollectSpec(lines[1..], idx);
      var rest := Collect(lines[1..], idx);
      if Cell(lines[0], idx).Some? && Cell(lines[0], idx).value != "" {
        InsertSortedSpec(rest, Cell(lines[0], idx).value);
      }
      forall v
        ensures Observed(lines, idx, v) <==> Cell(lines[0], idx) == Some(v) || Observed(lines[1..], idx, v)
      {
        if Observed(lines, idx, v) {
          var k :| 0 <= k < |lines| && Cell(lines[k], idx) == Some(v);
          if k > 0 {
            assert Cell(lines[1..][k - 1], idx) == Some(v);
          }
        }
        if Observed(lines[1..], idx, v) {
          var k :| 0 <= k < |lines[1..]| && Cell(lines[1..][k], idx) == Some(v);
          assert Cell(lines[k + 1], idx) == Some(v);
        }
      }
    }
  }

  /** The first `depth` data lines, or all of them when there are fewer. */
  function Scanned(lines: seq<string>, depth: nat): (r: seq<string>)
    ensures |r| <= depth
  {
    if |lines| <= depth then lines else lines[..depth]
  }

  /** The values offered for column `idx`: the distinct non-empty trimmed
      cells of the first `depth` data lines, in ascending order. */
  function FieldValues(lines: seq<string>, idx: nat, depth: nat): seq<string> {
    Collect(Scanned(lines, depth), idx)
  }

  /** The values are strictly ascending, at most `depth` of them, and are
      exactly the non-empty cells seen in the scanned lines. */
  lemma FieldValuesSpec(lines: seq<string>, idx: nat, depth: nat, v: string)
    ensures Sorted(FieldValues(lines, idx, depth))
    ensures |FieldValues(lines, idx, depth)| <= depth
    ensures v in FieldValues(lines, idx, depth) <==>
              v != "" && exists k :: 0 <= k < |lines| && k < depth && Cell(lines[k], idx) == Some(v)
  {
    var s := Scanned(lines, depth);
    CollectSpec(s, idx);
    if exists k :: 0 <= k < |lines| && k < depth && Cell(lines[k], idx) == Some(v) {
      var k :| 0 <= k < |lines| && k < depth && Cell(lines[k], idx) == Some(v);
      assert s[k] == lines[k];
    }
  }

  lemma SameElementsEmpty(a: seq<string>, b: seq<string>)
    requires forall x :: x in a <==> x in b
    ensures |a| == 0 <==> |b| == 0
  {
    if |a| > 0 {
      assert a[0] in b;
    }
    if |b| > 0 {
      assert b[0] in a;
    }
  }

  /** Two ascending sequences holding the same strings are equal: the
      values do not depend on the order in which the distinct cells were
      gathered (Go iterates its set of values in no fixed order). */
  lemma {:induction false} SortedUnique(a: seq<string>, b: seq<string>)
    requires Sorted(a) && Sorted(b)
    requires forall x :: x in a <==> x in b
    ensures a == b
    decreases |a|
  {
    SameElementsEmpty(a, b);
    if |a| > 0 {
      if a[0] != b[0] {
        assert a[0] in b;
        var k :| 0 <= k < |b| && b[k] == a[0];
        assert b[0] in a;
        var m :| 0 <= m < |a| && a[m] == b[0];
        LessAsymmetric(a[0], b[0]);
        assert false;
      }
      forall x
        ensures x in a[1..] <==> x in b[1..]
      {
        if x in a[1..] {
          var k :| 0 <= k < |a[1..]| && a[1..][k] == x;
          assert Less(a[0], a[k + 1]);
          LessIrreflexive(x);
          assert x in b && x != b[0];
          var m :| 0 <= m < |b| && b[m] == x;
          assert b[1..][m - 1] == x;
        }
        if x in b[1..] {
          var k :| 0 <= k < |b[1..]| && b[1..][k] == x;
          assert Less(b[0], b[k + 1]);
          LessIrreflexive(x);
          assert x in a && x != a[0];
          var m :| 0 <= m < |a| && a[m] == x;
          assert a[1..][m - 1] == x;
        }
      }
      SortedUnique(a[1..], b[1..]);
      assert a == [a[0]] + a[1..] && b == [b[0]] + b[1..];
    }
  }

  // =====================================================================
  // Reading a file
  // =====================================================================

  /** The field names of a file: its first line, parsed. */
  function ReadHeader(fs: FileSystem, filename: string): (r: Result<seq<string>>)
    ensures r.Err? <==> fs(filename).OpenFailed? || fs(filename).lines == []
  {
    match fs(filename)
    case OpenFailed(e) => Err(OpenError(filename, e))
    case Lines(ls) => if |ls| == 0 then Err(EmptyError(filename)) else Ok(ParseTSVHeader(ls[0]))
  }

  /** The values of column `name` of a file; `None` when the header has
      no such name. */
  function ReadValues(fs: FileSystem, filename: string, name: string, depth: nat): (r: Result<Option<seq<string>>>)
    ensures r.Err? <==> fs(filename).OpenFailed? || fs(filename).lines == []
  {
    match fs(filename)
    case OpenFailed(e) => Err(OpenError(filename, e))
    case Lines(ls) =>
      if |ls| == 0 then Err(EmptyError(filename))
      else match IndexOf(ParseTSVHeader(ls[0]), name)
        case None => Ok(None)
        case Some(i) => Ok(Some(FieldValues(ls[1..], i, depth)))
  }

  // =====================================================================
  // The field-name cache (getFields)
  // =====================================================================

  type FieldCache = map<string, seq<string>>

  /** getFields: a cached file is answered from the cache without opening
      it; otherwise the header is read and, when that succeeds, cached. */
  function GetFields(cache: FieldCache, fs: FileSystem, filename: string): (r: (Result<seq<string>>, FieldCache))
    ensures filename in cache ==> r == (Ok(cache[filename]), cache)
    ensures r.0.Ok? ==> filename in r.1 && r.1[filename] == r.0.value
    ensures r.0.Err? ==> r.1 == cache
    ensures forall f :: f in cache ==> f in r.1 && r.1[f] == cache[f]
    ensures forall f :: f in r.1 ==> f in cache || f == filename
  {
    if filename in cache then (Ok(cache[filename]), cache)
    else
      var h := ReadHeader(fs, filename);
      if h.Ok? then (h, cache[filename := h.value]) else (h, cache)
  }

  /** Once a lookup succeeds, asking again for the same file gives the same
      list and leaves the cache alone, whatever the file holds by then. */
  lemma GetFieldsSticky(cache: FieldCache, fs: FileSystem, later: FileSystem, filename: string)
    requires GetFields(cache, fs, filename).0.Ok?
    ensures var (r, c) := GetFields(cache, fs, filename);
            GetFields(c, later, filename) == (r, c)
  {
  }

  /** Every cached list is what the file's header says now. */
  predicate FieldCacheFaithful(cache: FieldCache, fs: FileSystem) {
    forall f :: f in cache ==> ReadHeader(fs, f) == Ok(cache[f])
  }

  /** While files do not change the cache is invisible: a lookup answers
      what reading the file answers, and the cache stays faithful. */
  lemma GetFieldsTransparent(cache: FieldCache, fs: FileSystem, filename: string)
    requires FieldCacheFaithful(cache, fs)
    ensures GetFields(cache, fs, filename).0 == ReadHeader(fs, filename)
    ensures FieldCacheFaithful(GetFields(cache, fs, filename).1, fs)
  {
  }

  /** completeField (and CompleteField of completion/tsv.go): the header
      names matching `partial`, in header order; a read failure is passed
      on. */
  function CompleteField(cache: FieldCache, fs: FileSystem, filename: string, partial: string): (r: (Result<seq<string>>, FieldCache))
    ensures r.1 == GetFields(cache, fs, filename).1
    ensures r.0.Err? <==> GetFields(cache, fs, filename).0.Err?
    ensures r.0.Ok? ==> forall x :: x in r.0.value ==> x in GetFields(cache, fs, filename).0.value && MatchesPartial(x, partial)
    ensures forall f :: f in r.1 ==> f in cache || f == filename
  {
    var (fields, c) := GetFields(cache, fs, filename);
    match fields
    case Err(e) => (Err(e), c)
    case Ok(names) => (Ok(FilterPartial(names, partial)), c)
  }

  /** The offered names are exactly the header names matching `partial`,
      in header order; an empty `partial` offers every name. */
  lemma CompleteFieldSpec(cache: FieldCache, fs: FileSystem, filename: string, partial: string, x: string)
    requires FieldCacheFaithful(cache, fs)
    ensures var r := CompleteField(cache, fs, filename, partial).0;
            && (r.Ok? <==> ReadHeader(fs, filename).Ok?)
            && (r.Ok? ==> (x in r.value <==> x in ReadHeader(fs, filename).value && MatchesPartial(x, partial)))
            && (r.Ok? ==> Subsequence(r.value, ReadHeader(fs, filename).value))
            && (r.Ok? && partial == "" ==> r.value == ReadHeader(fs, filename).value)
  {
    GetFieldsTransparent(cache, fs, filename);
    var h := ReadHeader(fs, filename);
    if h.Ok? {
      FilterMembers(h.value, partial, x);
      FilterSubsequence(h.value, partial);
      FilterEmptyPartial(h.value);
    }
  }

  // =====================================================================
  // The content cache (getFieldValues, completeContent)
  // =====================================================================

  type ContentCache = map<string, map<string, seq<string>>>

  /** getFieldValues. A cached column is answered from the cache. Otherwise
      an (empty) entry for the file is made before the file is opened, so
      it exists even when opening fails; a column the header lacks yields
      no values and is not cached; any other column is scanned and
      cached. */
  function GetFieldValues(cache: ContentCache, fs: FileSystem, filename: string, name: string, depth: nat)
    : (r: (Result<seq<string>>, ContentCache))
    ensures filename in cache && name in cache[filename] ==> r == (Ok(cache[filename][name]), cache)
    ensures filename in r.1
    ensures forall f :: f in cache && f != filename ==> f in r.1 && r.1[f] == cache[f]
    ensures forall f :: f in r.1 ==> f in cache || f == filename
  {
    if filename in cache && name in cache[filename] then (Ok(cache[filename][name]), cache)
    else
      var c := if filename in cache then cache else cache[filename := map[]];
      match ReadValues(fs, filename, name, depth)
      case Err(e) => (Err(e), c)
      case Ok(None) => (Ok([]), c)
      case Ok(Some(vs)) => (Ok(vs), c[filename := c[filename][name := vs]])
  }

  /** The values found are ascending, at most `depth` of them, and exactly
      the non-empty cells of the named column in the first `depth` data
      lines; a column the header lacks has none. */
  lemma GetFieldValuesSpec(cache: ContentCache, fs: FileSystem, filename: string, name: string, depth: nat, v: string)
    requires !(filename in cache && name in cache[filename])
    requires fs(filename).Lines? && |fs(filename).lines| > 0
    ensures var r := GetFieldValues(cache, fs, filename, name, depth).0;
            var ls := fs(filename).lines;
            var names := ParseTSVHeader(ls[0]);
            && r.Ok?
            && Sorted(r.value)
            && |r.value| <= depth
            && (name !in names ==> r.value == [])
            && (name in names ==>
                  (v in r.value <==>
                    (v != "" && exists k :: 0 <= k < |ls[1..]| && k < depth && Cell(ls[1..][k], IndexOf(names, name).value) == Some(v))))
  {
    var ls := fs(filename).lines;
    var names := ParseTSVHeader(ls[0]);
    if name in names {
      FieldValuesSpec(ls[1..], IndexOf(names, name).value, depth, v);
    }
  }

  /** Once a column is cached, or has been found in a file whose header
      has it, asking again gives the same values without reading. */
  lemma GetFieldValuesSticky(cache: ContentCache, fs: FileSystem, later: FileSystem, filename: string, name: string, depth: nat)
    requires || (filename in cache && name in cache[filename])
             || (fs(filename).Lines? && |fs(filename).lines| > 0 && name in ParseTSVHeader(fs(filename).lines[0]))
    ensures var (r, c) := GetFieldValues(cache, fs, filename, name, depth);
            GetFieldValues(c, later, filename, name, depth) == (r, c)
  {
  }

  /** Every cached column is what the file says now. */
  predicate ContentCacheFaithful(cache: ContentCache, fs: FileSystem, depth: nat) {
    forall f, n :: f in cache && n in cache[f] ==> ReadValues(fs, f, n, depth) == Ok(Some(cache[f][n]))
  }

  /** While files do not change the content cache is invisible: a lookup
      answers what reading the file answers (no values for a column the
      header lacks), and the cache stays faithful. */
  lemma GetFieldValuesTransparent(cache: ContentCache, fs: FileSystem, filename: string, name: string, depth: nat)
    requires ContentCacheFaithful(cache, fs, depth)
    ensures var r := GetFieldValues(cache, fs, filename, name, depth).0;
            var read := ReadValues(fs, filename, name, depth);
            && (read.Err? ==> r == Err(read.msg))
            && (read.Ok? ==> r == Ok(read.value.GetOr([])))
    ensures ContentCacheFaithful(GetFieldValues(cache, fs, filename, name, depth).1, fs, depth)
  {
  }

  /** completeContent: the values matching `partial`, in ascending order;
      a read failure offers nothing. */
  function CompleteContent(cache: ContentCache, fs: FileSystem, filename: string, name: string, partial: string, depth: nat)
    : (r: (seq<string>, ContentCache))
    ensures r.1 == GetFieldValues(cache, fs, filename, name, depth).1
    ensures forall x :: x in r.0 ==> MatchesPartial(x, partial)
    ensures filename in r.1 && forall f :: f in r.1 ==> f in cache || f == filename
  {
    var (values, c) := GetFieldValues(cache, fs, filename, name, depth);
    match values
    case Err(_) => ([], c)
    case Ok(vs) => (FilterPartial(vs, partial), c)
  }

  /** A value is offered exactly when the lookup succeeds, finds it and it
      matches `partial`; the offers keep the values' order. */
  lemma CompleteContentSpec(cache: ContentCache, fs: FileSystem, filename: string, name: string, partial: string, depth: nat, x: string)
    ensures var vs := GetFieldValues(cache, fs, filename, name, depth).0;
            var r := CompleteContent(cache, fs, filename, name, partial, depth).0;
            && (x in r <==> vs.Ok? && x in vs.value && MatchesPartial(x, partial))
            && (vs.Ok? ==> Subsequence(r, vs.value))
  {
    var vs := GetFieldValues(cache, fs, filename, name, depth).0;
    if vs.Ok? {
      FilterMembers(vs.value, partial, x);
      FilterSubsequence(vs.value, partial);
    }
  }
}

=== FILE: tag_parser.dfy ===
/** The descriptor grammar (gs/parser.go): a tag such as
    `multi,local,list,args=field:content` becomes a `FieldMeta`. Tokens are
    split on commas outside braces; tokens 0, 1 and 2 name kind, scope and
    mode; tokens holding `=` are `key=value` attributes. */
module TagParser {
  import opened Results
  import opened Strings
  import opened Types

  // =====================================================================
  // Brace-aware splitting (parseTagParts)
  // =====================================================================

  function BraceDelta(c: char): int {
    if c == '{' then 1 else if c == '}' then -1 else 0
  }

  /** The brace depth reached after reading `s` from depth `d`. */
  function DepthAfter(d: int, s: string): int
    decreases |s|
  {
    if |s| == 0 then d else DepthAfter(d + BraceDelta(s[0]), s[1..])
  }

  /** The number of commas of `s` read at depth 0, starting from depth `d`. */
  function TopCommas(d: int, s: string): nat
    decreases |s|
  {
    if |s| == 0 then 0
    else (if s[0] == ',' && d == 0 then 1 else 0) + TopCommas(d + BraceDelta(s[0]), s[1..])
  }

  /** `s` (read from depth `d`) ends in a comma that is a separator. */
  predicate EndsWithTopComma(d: int, s: string) {
    |s| > 0 && s[|s| - 1] == ',' && DepthAfter(d, s[..|s| - 1]) == 0
  }

  /** The scan of parseTagParts from depth `depth` with `cur` already
      collected: a comma at depth 0 closes a part; the final part is kept only
      when it is non-empty. The depth may go negative on a stray `}`. */
  function SplitFrom(s: string, depth: int, cur: string): seq<string>
    decreases |s|
  {
    if |s| == 0 then (if |cur| > 0 then [cur] else [])
    else if s[0] == '{' then SplitFrom(s[1..], depth + 1, cur + [s[0]])
    else if s[0] == '}' then SplitFrom(s[1..], depth - 1, cur + [s[0]])
    else if s[0] == ',' && depth == 0 then [cur] + SplitFrom(s[1..], depth, [])
    else SplitFrom(s[1..], depth, cur + [s[0]])
  }

  function SplitTagParts(tag: string): seq<string> {
    SplitFrom(tag, 0, [])
  }

  lemma EndsCons(c: char, rest: string, d: int)
    requires |rest| > 0
    ensures EndsWithTopComma(d, [c] + rest) == EndsWithTopComma(d + BraceDelta(c), rest)
  {
    var s := [c] + rest;
    assert s[..|s| - 1] == [c] + rest[..|rest| - 1];
    assert ([c] + rest[..|rest| - 1])[1..] == rest[..|rest| - 1];
  }

  lemma {:induction false} SplitFromNonEmpty(s: string, d: int, cur: string)
    requires |s| > 0 || |cur| > 0
    ensures |SplitFrom(s, d, cur)| > 0
    decreases |s|
  {
    if |s| > 0 && !(s[0] == ',' && d == 0) {
      SplitFromNonEmpty(s[1..], d + BraceDelta(s[0]), cur + [s[0]]);
    }
  }

  /** Joining the parts with "," restores what was scanned, except for a
      trailing separator comma whose empty final part is dropped. */
  lemma {:induction false} SplitFromJoin(s: string, d: int, cur: string)
    ensures Join(SplitFrom(s, d, cur), ",") + (if EndsWithTopComma(d, s) then "," else "") == cur + s
    decreases |s|
  {
    if |s| > 0 {
      if s[0] == ',' && d == 0 {
        SplitFromJoin(s[1..], 0, []);
        if |s| == 1 {
          assert EndsWithTopComma(d, s);
        } else {
          SplitCommaStep(s, cur);
        }
      } else {
        SplitFromJoin(s[1..], d + BraceDelta(s[0]), cur + [s[0]]);
        SplitCharStep(s, d, cur);
      }
    }
  }

  lemma SplitCharStep(s: string, d: int, cur: string)
    requires |s| > 0 && !(s[0] == ',' && d == 0)
    requires var d1, cur1 := d + BraceDelta(s[0]), cur + [s[0]];
             Join(SplitFrom(s[1..], d1, cur1), ",") + (if EndsWithTopComma(d1, s[1..]) then "," else "") == cur1 + s[1..]
    ensures Join(SplitFrom(s, d, cur), ",") + (if EndsWithTopComma(d, s) then "," else "") == cur + s
  {
    var c, rest := s[0], s[1..];
    assert s == [c] + rest;
    assert SplitFrom(s, d, cur) == SplitFrom(rest, d + BraceDelta(c), cur + [c]);
    if |rest| > 0 {
      EndsCons(c, rest, d);
    } else {
      assert !EndsWithTopComma(d, s);
    }
    assert cur + [c] + rest == cur + s;
  }

  lemma SplitCommaStep(s: string, cur: string)
    requires |s| > 1 && s[0] == ','
    requires Join(SplitFrom(s[1..], 0, []), ",") + (if EndsWithTopComma(0, s[1..]) then "," else "") == s[1..]
    ensures Join(SplitFrom(s, 0, cur), ",") + (if EndsWithTopComma(0, s) then "," else "") == cur + s
  {
    var rest := s[1..];
    var tail := SplitFrom(rest, 0, []);
    assert SplitFrom(s, 0, cur) == [cur] + tail;
    EndsCons(',', rest, 0);
    assert s == [','] + rest;
    SplitFromNonEmpty(rest, 0, []);
    JoinCons(cur, tail, ",");
  }

  /** The number of parts is the number of separator commas, plus one for a
      non-empty final part. */
  lemma {:induction false} SplitFromCount(s: string, d: int, cur: string)
    ensures |SplitFrom(s, d, cur)|
            == TopCommas(d, s) + (if (|s| == 0 && |cur| == 0) || EndsWithTopComma(d, s) then 0 else 1)
    decreases |s|
  {
    if |s| > 0 {
      var c, rest := s[0], s[1..];
      assert s == [c] + rest;
      if c == ',' && d == 0 {
        SplitFromCount(rest, 0, []);
        if |rest| > 0 {
          EndsCons(c, rest, d);
        }
      } else {
        SplitFromCount(rest, d + BraceDelta(c), cur + [c]);
        if |rest| > 0 {
          EndsCons(c, rest, d);
        }
      }
    }
  }

  /** parseTagParts round trip: joining the parts with "," gives back the
      tag, unless the tag ends in a separator comma (then exactly that comma
      is lost). */
  lemma TagPartsRoundTrip(tag: string)
    ensures EndsWithTopComma(0, tag) ==> Join(SplitTagParts(tag), ",") + "," == tag
    ensures !EndsWithTopComma(0, tag) ==> Join(SplitTagParts(tag), ",") == tag
  {
    SplitFromJoin(tag, 0, []);
    assert [] + tag == tag;
  }

  /** parseTagParts yields one part per separator comma, plus one unless the
      tag is empty or ends in a separator comma. */
  lemma TagPartsCount(tag: string)
    ensures |SplitTagParts(tag)| == TopCommas(0, tag) + (if |tag| == 0 || EndsWithTopComma(0, tag) then 0 else 1)
  {
    SplitFromCount(tag, 0, []);
  }

  /** Only the empty tag has no parts. */
  lemma TagPartsEmpty(tag: string)
    ensures |SplitTagParts(tag)| == 0 <==> |tag| == 0
  {
    if |tag| > 0 {
      SplitFromNonEmpty(tag, 0, []);
    }
  }

  predicate NoBraces(w: string) {
    '{' !in w && '}' !in w
  }

  /** Characters other than braces are copied into the current part, and so
      are commas read inside braces. */
  lemma {:induction false} SplitFromCopy(w: string, rest: string, d: int, cur: string)
    requires NoBraces(w) && (d == 0 ==> ',' !in w)
    ensures SplitFrom(w + rest, d, cur) == SplitFrom(rest, d, cur + w)
    decreases |w|
  {
    if |w| == 0 {
      assert w + rest == rest && cur + w == cur;
    } else {
      var c := w[0];
      assert c in w;
      assert forall x :: x in w[1..] ==> x in w;
      assert w + rest == [c] + (w[1..] + rest);
      SplitFromStep(c, w[1..] + rest, d, cur);
      SplitFromCopy(w[1..], rest, d, cur + [c]);
      assert cur + [c] + w[1..] == cur + w;
    }
  }

  lemma SplitFromStep(c: char, rest: string, d: int, cur: string)
    requires c != ',' || d != 0
    ensures SplitFrom([c] + rest, d, cur) == SplitFrom(rest, d + BraceDelta(c), cur + [c])
  {
    assert ([c] + rest)[0] == c && ([c] + rest)[1..] == rest;
  }

  /** A token without braces ends at the next comma. */
  lemma PlainTokenStep(w: string, rest: string)
    requires NoBraces(w) && ',' !in w
    ensures SplitFrom(w + "," + rest, 0, "") == [w] + SplitFrom(rest, 0, "")
  {
    SplitFromCopy(w, "," + rest, 0, "");
    assert w + "," + rest == w + ("," + rest);
    assert "" + w == w;
    assert ("," + rest)[1..] == rest;
  }

  /** A brace group is copied whole into the current part: the commas inside
      it do not separate. */
  lemma BraceGroupCopied(inner: string, rest: string, cur: string)
    requires NoBraces(inner)
    ensures SplitFrom("{" + inner + "}" + rest, 0, cur) == SplitFrom(rest, 0, cur + "{" + inner + "}")
  {
    var a := inner + "}" + rest;
    var b := "}" + rest;
    assert "{" + inner + "}" + rest == ['{'] + a;
    SplitFromStep('{', a, 0, cur);
    assert a == inner + b;
    SplitFromCopy(inner, b, 1, cur + "{");
    assert b == ['}'] + rest;
    SplitFromStep('}', rest, 1, cur + "{" + inner);
  }

  /** A token made of brace-free text, one brace group and brace-free text
      is copied whole into the current part: the commas inside the group do
      not separate. */
  lemma BracedTokenCopied(pre: string, inner: string, post: string, rest: string, cur: string)
    requires NoBraces(pre) && ',' !in pre && NoBraces(inner) && NoBraces(post) && ',' !in post
    ensures SplitFrom(pre + "{" + inner + "}" + post + rest, 0, cur)
            == SplitFrom(rest, 0, cur + (pre + "{" + inner + "}" + post))
  {
    var g := "{" + inner + "}" + (post + rest);
    assert pre + "{" + inner + "}" + post + rest == pre + g;
    assert SplitFrom(pre + g, 0, cur) == SplitFrom(g, 0, cur + pre) by {
      SplitFromCopy(pre, g, 0, cur);
    }
    assert SplitFrom(g, 0, cur + pre) == SplitFrom(post + rest, 0, cur + pre + "{" + inner + "}") by {
      BraceGroupCopied(inner, post + rest, cur + pre);
    }
    assert SplitFrom(post + rest, 0, cur + pre + "{" + inner + "}")
           == SplitFrom(rest, 0, cur + pre + "{" + inner + "}" + post) by {
      SplitFromCopy(post, rest, 0, cur + pre + "{" + inner + "}");
    }
    assert cur + pre + "{" + inner + "}" + post == cur + (pre + "{" + inner + "}" + post);
  }

  /** A comma at depth 0 closes the current part. */
  lemma CommaCloses(rest: string, cur: string)
    ensures SplitFrom("," + rest, 0, cur) == [cur] + SplitFrom(rest, 0, "")
  {
    assert ("," + rest)[0] == ',' && ("," + rest)[1..] == rest;
  }

  /** A token holding one brace group stays whole wherever it stands: before
      a separator comma it becomes one part (after whatever the current part
      already holds), and at the end of the tag it is the last part. */
  lemma BracedTokenStaysWhole(pre: string, inner: string, post: string, rest: string, cur: string)
    requires NoBraces(pre) && ',' !in pre
    requires NoBraces(inner)
    requires NoBraces(post) && ',' !in post
    ensures var t := pre + "{" + inner + "}" + post;
            SplitFrom(t + "," + rest, 0, cur) == [cur + t] + SplitFrom(rest, 0, "")
    ensures var t := pre + "{" + inner + "}" + post;
            SplitFrom(t, 0, cur) == [cur + t]
  {
    var t := pre + "{" + inner + "}" + post;
    assert SplitFrom(t + "," + rest, 0, cur) == SplitFrom("," + rest, 0, cur + t) by {
      BracedTokenCopied(pre, inner, post, "," + rest, cur);
      assert t + "," + rest == pre + "{" + inner + "}" + post + ("," + rest);
    }
    CommaCloses(rest, cur + t);
    assert SplitFrom(t, 0, cur) == SplitFrom("", 0, cur + t) by {
      BracedTokenCopied(pre, inner, post, "", cur);
      assert t == pre + "{" + inner + "}" + post + "";
    }
    assert |cur + t| > 0 by {
      assert |t| >= 2;
    }
  }

  /** Three plain tokens followed by a braced token give four parts. */
  lemma ThreePlainThenBraced(a: string, b: string, c: string, pre: string, inner: string)
    requires NoBraces(a) && ',' !in a && NoBraces(b) && ',' !in b && NoBraces(c) && ',' !in c
    requires NoBraces(pre) && ',' !in pre && NoBraces(inner)
    ensures SplitTagParts(a + "," + b + "," + c + "," + pre + "{" + inner + "}")
            == [a, b, c, pre + "{" + inner + "}"]
  {
    var t4 := pre + "{" + inner + "}";
    assert SplitFrom(t4, 0, "") == [t4] by {
      BracedTokenStaysWhole(pre, inner, "", "", "");
      assert pre + "{" + inner + "}" + "" == t4 && "" + t4 == t4;
    }
    var t3 := c + "," + t4;
    PlainTokenStep(c, t4);
    var t2 := b + "," + t3;
    PlainTokenStep(b, t3);
    PlainTokenStep(a, t2);
    assert a + "," + b + "," + c + "," + pre + "{" + inner + "}" == a + "," + t2;
  }

  /** The tag `file,global,last,suffix=.{tsv,csv}` has four parts: the
      comma inside the braces stays in the suffix token. */
  lemma TagPartsBraceExample()
    ensures SplitTagParts("file" + "," + "global" + "," + "last" + "," + "suffix=." + "{" + "tsv,csv" + "}")
            == ["file", "global", "last", "suffix=.{tsv,csv}"]
  {
    ThreePlainThenBraced("file", "global", "last", "suffix=.", "tsv,csv");
    assert "suffix=." + "{" + "tsv,csv" + "}" == "suffix=.{tsv,csv}";
  }

  // =====================================================================
  // Positional tokens
  // =====================================================================

  function ParseFieldType(s: string): (r: Result<Kind>)
    ensures r.Err? <==> s !in ["string", "field", "file", "number", "flag", "multi"]
    ensures r.Err? ==> r.msg == "unknown field type: " + s
  {
    if s == "string" then Ok(StringKind)
    else if s == "field" then Ok(FieldKind)
    else if s == "file" then Ok(FileKind)
    else if s == "number" then Ok(NumberKind)
    else if s == "flag" then Ok(FlagKind)
    else if s == "multi" then Ok(MultiKind)
    else Err("unknown field type: " + s)
  }

  function ParseFieldScope(s: string): (r: Result<Scope>)
    ensures r.Err? <==> s !in ["global", "local"]
    ensures r.Err? ==> r.msg == "unknown field scope: " + s
  {
    if s == "global" then Ok(Global)
    else if s == "local" then Ok(Local)
    else Err("unknown field scope: " + s)
  }

  function ParseFieldMode(s: string): (r: Result<Mode>)
    ensures r.Err? <==> s !in ["last", "list"]
    ensures r.Err? ==> r.msg == "unknown field mode: " + s
  {
    if s == "last" then Ok(LastMode)
    else if s == "list" then Ok(ListMode)
    else Err("unknown field mode: " + s)
  }

  // =====================================================================
  // Sub-lists: args= and enum=
  // =====================================================================

  function ParseArgumentType(s: string): (r: ArgType)
    ensures s == "field" <==> r == FieldArg
    ensures s == "content" <==> r == ContentArg
    ensures s == "file" <==> r == FileArg
    ensures s == "number" <==> r == NumberArg
    ensures r == StringArg <==> s !in ["field", "content", "file", "number"]
  {
    if s == "string" then StringArg
    else if s == "field" then FieldArg
    else if s == "content" then ContentArg
    else if s == "file" then FileArg
    else if s == "number" then NumberArg
    else StringArg
  }

  /** The separator of an `args=` list: `:` when present, else `,`. */
  function ArgsSeparator(value: string): char {
    if ':' in value then ':' else ','
  }

  function SpecsOf(pieces: seq<string>): (specs: seq<ArgumentSpec>)
    ensures |specs| == |pieces|
    ensures forall i :: 0 <= i < |pieces| ==>
              specs[i] == ArgumentSpec(TrimSpace(pieces[i]), ParseArgumentType(TrimSpace(pieces[i])))
  {
    if |pieces| == 0 then []
    else [ArgumentSpec(TrimSpace(pieces[0]), ParseArgumentType(TrimSpace(pieces[0])))] + SpecsOf(pieces[1..])
  }

  /** parseArgumentSpecs: one spec per `:`-separated piece (or `,`-separated
      when there is no `:`), in order, named by the trimmed piece. It never
      fails: unknown type names mean string. */
  function ParseArgumentSpecs(value: string): seq<ArgumentSpec> {
    SpecsOf(Split(value, ArgsSeparator(value)))
  }

  /** The pieces of an `args=` list are exactly the text between separators. */
  lemma ArgumentSpecsCoverValue(value: string)
    ensures Join(Split(value, ArgsSeparator(value)), [ArgsSeparator(value)]) == value
    ensures |ParseArgumentSpecs(value)| == Count(value, ArgsSeparator(value)) + 1
  {
    SplitJoin(value, ArgsSeparator(value));
    SplitCount(value, ArgsSeparator(value));
  }

  /** The separator of an `enum=` list: `,` when present, else `:`. */
  function EnumSeparator(value: string): char {
    if ',' in value then ',' else ':'
  }

  function TrimAll(pieces: seq<string>): (r: seq<string>)
    ensures |r| == |pieces|
    ensures forall i :: 0 <= i < |pieces| ==> r[i] == TrimSpace(pieces[i])
  {
    if |pieces| == 0 then [] else [TrimSpace(pieces[0])] + TrimAll(pieces[1..])
  }

  /** parseEnumValues: split on `,` if there is one, else on `:` if there
      is one, else the single trimmed value. */
  function ParseEnumValues(value: string): seq<string> {
    if ',' in value then TrimAll(Split(value, ','))
    else if ':' in value then TrimAll(Split(value, ':'))
    else [TrimSpace(value)]
  }

  /** Every enum value is the trimmed text between separators, in order, and
      the separators account for all the text. */
  lemma EnumValuesCoverValue(value: string)
    ensures ParseEnumValues(value) == TrimAll(Split(value, EnumSeparator(value)))
    ensures Join(Split(value, EnumSeparator(value)), [EnumSeparator(value)]) == value
    ensures |ParseEnumValues(value)| == Count(value, EnumSeparator(value)) + 1
  {
    SplitJoin(value, EnumSeparator(value));
    SplitCount(value, EnumSeparator(value));
  }

  /** Three trimmed values separated by colons (and no comma) are the
      three enum values. */
  lemma ThreeColonValues(a: string, b: string, c: string)
    requires ',' !in a && ',' !in b && ',' !in c && ':' !in a && ':' !in b && ':' !in c
    requires |a| > 0 && !IsSpace(a[0]) && !IsSpace(a[|a| - 1])
    requires |b| > 0 && !IsSpace(b[0]) && !IsSpace(b[|b| - 1])
    requires |c| > 0 && !IsSpace(c[0]) && !IsSpace(c[|c| - 1])
    ensures ParseEnumValues(a + ":" + (b + ":" + c)) == [a, b, c]
  {
    ThreeColonSplit(a, b, c);
    TrimSpaceOfTrimmed(a);
    TrimSpaceOfTrimmed(b);
    TrimSpaceOfTrimmed(c);
    assert TrimAll([a, b, c]) == [TrimSpace(a)] + TrimAll([b, c]);
    assert TrimAll([b, c]) == [TrimSpace(b)] + TrimAll([c]);
  }

  lemma ThreeColonSplit(a: string, b: string, c: string)
    requires ',' !in a && ',' !in b && ',' !in c && ':' !in a && ':' !in b && ':' !in c
    ensures var v := a + ":" + (b + ":" + c);
            ':' in v && ',' !in v && Split(v, ':') == [a, b, c]
  {
    ThreeColonChars(a, b + ":" + c);
    PieceThenColon(b, c);
    SplitNone(c, ':');
    PieceThenColon(a, b + ":" + c);
  }

  lemma PieceThenColon(a: string, rest: string)
    requires ':' !in a
    ensures Split(a + ":" + rest, ':') == [a] + Split(rest, ':')
  {
    assert a + ":" + rest == a + [':'] + rest;
    SplitCons(a, rest, ':');
  }

  lemma ThreeColonChars(a: string, bc: string)
    requires ',' !in a && ',' !in bc
    ensures ':' in a + ":" + bc && ',' !in a + ":" + bc
  {
    assert (a + ":" + bc)[|a|] == ':';
  }

  /** `enum=bar:line:area` lists three values. */
  lemma EnumColonExample()
    ensures ParseEnumValues("bar:line:area") == ["bar", "line", "area"]
  {
    ThreeColonValues("bar", "line", "area");
    assert "bar" + ":" + ("line" + ":" + "area") == "bar:line:area";
  }

  // =====================================================================
  // key=value attributes
  // =====================================================================

  /** The trimmed key of a `key=value` token (text before the first `=`). */
  function KeyOf(kv: string): string
    requires '=' in kv
  {
    TrimSpace(kv[..FirstIndex(kv, '=')])
  }

  /** The trimmed value of a `key=value` token (text after the first `=`). */
  function ValueOf(kv: string): string
    requires '=' in kv
  {
    TrimSpace(kv[FirstIndex(kv, '=') + 1..])
  }

  /** The attribute keys a tag may set. */
  datatype AttrKey = HelpKey | DefaultKey | RequiredKey | CompleteKey | ArgsKey | SuffixKey | EnumKey

  /** The attribute a key names, if it names one. */
  function KeyNamed(key: string): (r: Option<AttrKey>)
  {
    if key == "help" then Some(HelpKey)
    else if key == "default" then Some(DefaultKey)
    else if key == "required" then Some(RequiredKey)
    else if key == "complete" then Some(CompleteKey)
    else if key == "args" then Some(ArgsKey)
    else if key == "suffix" then Some(SuffixKey)
    else if key == "enum" then Some(EnumKey)
    else None
  }

  /** When a `key=value` token is accepted, independently of the descriptor
      it is applied to. */
  predicate KeyValueOk(kv: string) {
    '=' in kv && KeyNamed(KeyOf(kv)).Some?
    && (KeyNamed(KeyOf(kv)) == Some(RequiredKey) ==> ParseBool(ValueOf(kv)).Some?)
  }

  /** parseDefaultValue: numbers and booleans are parsed, falling back to
      0 and false; every other kind keeps the text. */
  function ParseDefaultValue(value: string, kind: Kind, parseFloat: FloatParser): Value {
    match kind
    case NumberKind => Num(parseFloat(value).GetOr(0.0))
    case FlagKind => Bool(ParseBool(value).GetOr(false))
    case _ => Str(value)
  }

  /** The switch of parseKeyValue: set the attribute `key` to `value`. */
  function SetAttr(meta: FieldMeta, key: AttrKey, value: string, parseFloat: FloatParser): (r: Result<FieldMeta>)
    ensures r.Ok? ==> r.value.name == meta.name && r.value.kind == meta.kind
                      && r.value.scope == meta.scope && r.value.mode == meta.mode
  {
    match key
    case HelpKey => Ok(meta.(help := value))
    case DefaultKey => Ok(meta.(defaultValue := Some(ParseDefaultValue(value, meta.kind, parseFloat))))
    case RequiredKey =>
      (match ParseBool(value)
       case None => Err("invalid boolean for required: " + value)
       case Some(b) => Ok(meta.(required := b)))
    case CompleteKey => Ok(meta.(complete := value))
    case ArgsKey => Ok(meta.(args := ParseArgumentSpecs(value)))
    case SuffixKey => Ok(meta.(suffix := value))
    case EnumKey => Ok(meta.(enum := ParseEnumValues(value)))
  }

  /** parseKeyValue: split at the first `=`, trim both halves, and set the
      attribute the key names. */
  function ParseKeyValue(kv: string, meta: FieldMeta, parseFloat: FloatParser): (r: Result<FieldMeta>)
    ensures '=' !in kv ==> r == Err("invalid key=value pair: " + kv)
    ensures r.Ok? ==> r.value.name == meta.name && r.value.kind == meta.kind
                      && r.value.scope == meta.scope && r.value.mode == meta.mode
  {
    if '=' !in kv then Err("invalid key=value pair: " + kv)
    else
      match KeyNamed(KeyOf(kv))
      case None => Err("unknown key in tag: " + KeyOf(kv))
      case Some(key) => SetAttr(meta, key, ValueOf(kv), parseFloat)
  }

  /** A `key=value` token is accepted exactly when it is valid on its own,
      whatever descriptor it is applied to. */
  lemma KeyValueAccepts(kv: string, meta: FieldMeta, parseFloat: FloatParser)
    ensures ParseKeyValue(kv, meta, parseFloat).Ok? <==> KeyValueOk(kv)
  {
  }

  /** The messages a single tag token can fail with. */
  predicate TokenError(msg: string) {
    HasPrefix(msg, "unknown field type: ") || HasPrefix(msg, "unknown field scope: ")
    || HasPrefix(msg, "unknown field mode: ") || HasPrefix(msg, "unknown key in tag: ")
    || HasPrefix(msg, "invalid boolean for required: ") || HasPrefix(msg, "invalid key=value pair: ")
  }

  lemma PrefixOfConcat(p: string, s: string)
    ensures HasPrefix(p + s, p)
  {
    assert (p + s)[..|p|] == p;
  }

  /** A token error never reads like the error for an empty tag. */
  lemma TokenErrorNotEmptyTag(msg: string)
    requires TokenError(msg)
    ensures msg != "empty tag"
  {
  }

  lemma KeyValueErrors(kv: string, meta: FieldMeta, parseFloat: FloatParser)
    requires ParseKeyValue(kv, meta, parseFloat).Err?
    ensures TokenError(ParseKeyValue(kv, meta, parseFloat).msg)
  {
    if '=' !in kv {
      PrefixOfConcat("invalid key=value pair: ", kv);
    } else if KeyNamed(KeyOf(kv)).None? {
      PrefixOfConcat("unknown key in tag: ", KeyOf(kv));
    } else {
      PrefixOfConcat("invalid boolean for required: ", ValueOf(kv));
    }
  }

  /** An accepted `key=value` token names a known key; the attribute it
      names takes the meaning of the trimmed text after the first `=`, and
      every other attribute keeps its value. */
  lemma KeyValueSetsAttr(kv: string, meta: FieldMeta, parseFloat: FloatParser, other: AttrKey)
    requires ParseKeyValue(kv, meta, parseFloat).Ok?
    ensures '=' in kv && KeyNamed(KeyOf(kv)).Some?
    ensures var key, m := KeyNamed(KeyOf(kv)).value, ParseKeyValue(kv, meta, parseFloat).value;
            && (other == key ==> Some(Attr(m, key)) == AttrMeaning(key, ValueOf(kv), meta.kind, parseFloat))
            && (other != key ==> Attr(m, other) == Attr(meta, other))
  {
    SetAttrEffect(meta, KeyNamed(KeyOf(kv)).value, ValueOf(kv), parseFloat, other);
  }

  /** The value of one attribute of a descriptor. */
  datatype AttrVal =
    | TextVal(text: string)
    | DefaultVal(default: Option<Value>)
    | RequiredVal(required: bool)
    | ArgsVal(specs: seq<ArgumentSpec>)
    | EnumVal(values: seq<string>)

  function Attr(m: FieldMeta, key: AttrKey): AttrVal {
    match key
    case HelpKey => TextVal(m.help)
    case DefaultKey => DefaultVal(m.defaultValue)
    case RequiredKey => RequiredVal(m.required)
    case CompleteKey => TextVal(m.complete)
    case ArgsKey => ArgsVal(m.args)
    case SuffixKey => TextVal(m.suffix)
    case EnumKey => EnumVal(m.enum)
  }

  /** What the text `value` means for attribute `key` of a field of kind
      `kind`; `None` when it is not acceptable (a `required=` that is not a
      boolean). */
  function AttrMeaning(key: AttrKey, value: string, kind: Kind, parseFloat: FloatParser): Option<AttrVal> {
    match key
    case HelpKey => Some(TextVal(value))
    case DefaultKey => Some(DefaultVal(Some(ParseDefaultValue(value, kind, parseFloat))))
    case RequiredKey => (match ParseBool(value) case None => None case Some(b) => Some(RequiredVal(b)))
    case CompleteKey => Some(TextVal(value))
    case ArgsKey => Some(ArgsVal(ParseArgumentSpecs(value)))
    case SuffixKey => Some(TextVal(value))
    case EnumKey => Some(EnumVal(ParseEnumValues(value)))
  }

  /** Setting attribute `key` succeeds exactly when the value means something
      for it, gives it that meaning, and leaves every other attribute as it
      was. */
  lemma SetAttrEffect(meta: FieldMeta, key: AttrKey, value: string, parseFloat: FloatParser, other: AttrKey)
    ensures SetAttr(meta, key, value, parseFloat).Ok? <==> AttrMeaning(key, value, meta.kind, parseFloat).Some?
    ensures SetAttr(meta, key, value, parseFloat).Ok? ==>
              Some(Attr(SetAttr(meta, key, value, parseFloat).value, other))
              == (if other == key then AttrMeaning(key, value, meta.kind, parseFloat) else Some(Attr(meta, other)))
  {
  }

  // =====================================================================
  // The whole tag (parseFieldTag)
  // =====================================================================

  /** The descriptor before any token is read: string, global, last. */
  function InitialMeta(name: string): FieldMeta {
    FieldMeta(name, StringKind, Global, LastMode, [], None, "", false, "", "", [])
  }

  /** A trimmed token that is neither blank nor an attribute. */
  predicate Bare(part: string) {
    |part| > 0 && '=' !in part
  }

  /** One pass of parseFieldTag's loop over the trimmed token at position
      `i`: blank tokens are skipped, `=` tokens are attributes, bare tokens at
      positions 0, 1, 2 set kind, scope and mode, and later bare tokens are
      ignored. */
  function ApplyPart(part: string, i: nat, meta: FieldMeta, parseFloat: FloatParser): (r: Result<FieldMeta>)
    ensures r.Ok? ==> r.value.name == meta.name
  {
    if |part| == 0 then Ok(meta)
    else if '=' in part then ParseKeyValue(part, meta, parseFloat)
    else if i == 0 then
      var k :- ParseFieldType(part);
      Ok(meta.(kind := k))
    else if i == 1 then
      var s :- ParseFieldScope(part);
      Ok(meta.(scope := s))
    else if i == 2 then
      var m :- ParseFieldMode(part);
      Ok(meta.(mode := m))
    else Ok(meta)
  }

  /** The loop of parseFieldTag from part `i`; the first failing token ends
      it with that token's error. */
  function ApplyParts(parts: seq<string>, i: nat, meta: FieldMeta, parseFloat: FloatParser): (r: Result<FieldMeta>)
    requires i <= |parts|
    ensures r.Ok? ==> r.value.name == meta.name
    decreases |parts| - i
  {
    if i == |parts| then Ok(meta)
    else
      var m :- ApplyPart(TrimSpace(parts[i]), i, meta, parseFloat);
      ApplyParts(parts, i + 1, m, parseFloat)
  }

  /** parseFieldTag: the descriptor of the field `name` with tag `tag`. */
  function ParseFieldTag(name: string, tag: string, parseFloat: FloatParser): (r: Result<FieldMeta>)
    ensures r.Ok? ==> r.value.name == name
  {
    var parts := SplitTagParts(tag);
    if |parts| == 0 then Err("empty tag")
    else ApplyParts(parts, 0, InitialMeta(name), parseFloat)
  }

  // ---------------------------------------------------------------------
  // What a tag means, stated independently of the scan
  // ---------------------------------------------------------------------

  /** The trimmed token at position `i` is acceptable on its own: blank, a
      valid attribute, a known name at positions 0 to 2, or anything bare
      further on. */
  predicate TokenOk(part: string, i: nat) {
    |part| == 0
    || ('=' in part && KeyValueOk(part))
    || ('=' !in part && i == 0 && part in ["string", "field", "file", "number", "flag", "multi"])
    || ('=' !in part && i == 1 && part in ["global", "local"])
    || ('=' !in part && i == 2 && part in ["last", "list"])
    || ('=' !in part && i >= 3)
  }

  /** The bare (positional) token at position `i`, if there is one. */
  function PositionalAt(parts: seq<string>, i: nat): Option<string> {
    if i < |parts| && Bare(TrimSpace(parts[i])) then Some(TrimSpace(parts[i])) else None
  }

  /** The value of the last `key=` attribute at position `i` or later. */
  function LastSetting(parts: seq<string>, i: nat, key: AttrKey): Option<string>
    decreases |parts| - i
  {
    if i >= |parts| then None
    else
      var later := LastSetting(parts, i + 1, key);
      var part := TrimSpace(parts[i]);
      if later.Some? then later
      else if '=' in part && KeyNamed(KeyOf(part)) == Some(key) then Some(ValueOf(part))
      else None
  }

  lemma ApplyPartAccepts(part: string, i: nat, meta: FieldMeta, parseFloat: FloatParser)
    ensures ApplyPart(part, i, meta, parseFloat).Ok? <==> TokenOk(part, i)
  {
    if '=' in part {
      KeyValueAccepts(part, meta, parseFloat);
    }
  }

  lemma ApplyPartErrors(part: string, i: nat, meta: FieldMeta, parseFloat: FloatParser)
    requires ApplyPart(part, i, meta, parseFloat).Err?
    ensures TokenError(ApplyPart(part, i, meta, parseFloat).msg)
  {
    if '=' in part {
      KeyValueErrors(part, meta, parseFloat);
    } else if i == 0 {
      PrefixOfConcat("unknown field type: ", part);
    } else if i == 1 {
      PrefixOfConcat("unknown field scope: ", part);
    } else {
      PrefixOfConcat("unknown field mode: ", part);
    }
  }

  /** One token changes kind, scope or mode only when it is bare and at
      position 0, 1 or 2, and changes an attribute only when it names it. */
  lemma ApplyPartEffect(part: string, i: nat, meta: FieldMeta, parseFloat: FloatParser)
    requires ApplyPart(part, i, meta, parseFloat).Ok?
    ensures var m := ApplyPart(part, i, meta, parseFloat).value;
            && (i == 0 && Bare(part) ==> ParseFieldType(part) == Ok(m.kind))
            && (!(i == 0 && Bare(part)) ==> m.kind == meta.kind)
            && (i == 1 && Bare(part) ==> ParseFieldScope(part) == Ok(m.scope))
            && (!(i == 1 && Bare(part)) ==> m.scope == meta.scope)
            && (i == 2 && Bare(part) ==> ParseFieldMode(part) == Ok(m.mode))
            && (!(i == 2 && Bare(part)) ==> m.mode == meta.mode)
            && ('=' !in part ==> m.(kind := meta.kind, scope := meta.scope, mode := meta.mode) == meta)
  {
    if '=' in part {
      assert |part| > 0;
    }
  }

  /** Every trimmed part from position `i` on is acceptable. */
  predicate TokensOkFrom(parts: seq<string>, i: nat)
    decreases |parts| - i
  {
    i >= |parts| || (TokenOk(TrimSpace(parts[i]), i) && TokensOkFrom(parts, i + 1))
  }

  lemma {:induction false} TokensOkFromAll(parts: seq<string>, i: nat)
    ensures TokensOkFrom(parts, i) <==> forall j :: i <= j < |parts| ==> TokenOk(TrimSpace(parts[j]), j)
    decreases |parts| - i
  {
    if i < |parts| {
      TokensOkFromAll(parts, i + 1);
    }
  }

  lemma {:induction false} ApplyPartsAcceptsFrom(parts: seq<string>, i: nat, meta: FieldMeta, parseFloat: FloatParser)
    requires i <= |parts|
    ensures ApplyParts(parts, i, meta, parseFloat).Ok? <==> TokensOkFrom(parts, i)
    decreases |parts| - i
  {
    if i < |parts| {
      var step := ApplyPart(TrimSpace(parts[i]), i, meta, parseFloat);
      ApplyPartAccepts(TrimSpace(parts[i]), i, meta, parseFloat);
      if step.Ok? {
        ApplyPartsAcceptsFrom(parts, i + 1, step.value, parseFloat);
      }
    }
  }

  lemma ApplyPartsAccepts(parts: seq<string>, i: nat, meta: FieldMeta, parseFloat: FloatParser)
    requires i <= |parts|
    ensures ApplyParts(parts, i, meta, parseFloat).Ok? <==> forall j :: i <= j < |parts| ==> TokenOk(TrimSpace(parts[j]), j)
  {
    ApplyPartsAcceptsFrom(parts, i, meta, parseFloat);
    TokensOkFromAll(parts, i);
  }

  /** The loop fails only with the error of one of its tokens. */
  lemma {:induction false} ApplyPartsErrors(parts: seq<string>, i: nat, meta: FieldMeta, parseFloat: FloatParser)
    requires i <= |parts|
    requires ApplyParts(parts, i, meta, parseFloat).Err?
    ensures TokenError(ApplyParts(parts, i, meta, parseFloat).msg)
    decreases |parts| - i
  {
    var step := ApplyPart(TrimSpace(parts[i]), i, meta, parseFloat);
    if step.Ok? {
      ApplyPartsErrors(parts, i + 1, step.value, parseFloat);
    } else {
      ApplyPartErrors(TrimSpace(parts[i]), i, meta, parseFloat);
    }
  }

  lemma {:induction false} ApplyPartsPositions(parts: seq<string>, i: nat, meta: FieldMeta, parseFloat: FloatParser)
    requires i <= |parts|
    requires ApplyParts(parts, i, meta, parseFloat).Ok?
    ensures var m := ApplyParts(parts, i, meta, parseFloat).value;
            && (i == 0 && PositionalAt(parts, 0).Some? ==> ParseFieldType(PositionalAt(parts, 0).value) == Ok(m.kind))
            && (!(i == 0 && PositionalAt(parts, 0).Some?) ==> m.kind == meta.kind)
            && (i <= 1 && PositionalAt(parts, 1).Some? ==> ParseFieldScope(PositionalAt(parts, 1).value) == Ok(m.scope))
            && (!(i <= 1 && PositionalAt(parts, 1).Some?) ==> m.scope == meta.scope)
            && (i <= 2 && PositionalAt(parts, 2).Some? ==> ParseFieldMode(PositionalAt(parts, 2).value) == Ok(m.mode))
            && (!(i <= 2 && PositionalAt(parts, 2).Some?) ==> m.mode == meta.mode)
  {
    ApplyPartsKind(parts, i, meta, parseFloat);
    ApplyPartsScope(parts, i, meta, parseFloat);
    ApplyPartsMode(parts, i, meta, parseFloat);
  }

  /** Only a bare token at position 0 sets the kind. */
  lemma {:induction false} ApplyPartsKind(parts: seq<string>, i: nat, meta: FieldMeta, parseFloat: FloatParser)
    requires i <= |parts|
    requires ApplyParts(parts, i, meta, parseFloat).Ok?
    ensures var m := ApplyParts(parts, i, meta, parseFloat).value;
            && (i == 0 && PositionalAt(parts, 0).Some? ==> ParseFieldType(PositionalAt(parts, 0).value) == Ok(m.kind))
            && (!(i == 0 && PositionalAt(parts, 0).Some?) ==> m.kind == meta.kind)
    decreases |parts| - i
  {
    if i < |parts| {
      var part := TrimSpace(parts[i]);
      var m1 := ApplyPart(part, i, meta, parseFloat).value;
      assert ApplyParts(parts, i, meta, parseFloat) == ApplyParts(parts, i + 1, m1, parseFloat);
      ApplyPartEffect(part, i, meta, parseFloat);
      ApplyPartsKind(parts, i + 1, m1, parseFloat);
    }
  }

  /** Only a bare token at position 1 sets the scope. */
  lemma {:induction false} ApplyPartsScope(parts: seq<string>, i: nat, meta: FieldMeta, parseFloat: FloatParser)
    requires i <= |parts|
    requires ApplyParts(parts, i, meta, parseFloat).Ok?
    ensures var m := ApplyParts(parts, i, meta, parseFloat).value;
            && (i <= 1 && PositionalAt(parts, 1).Some? ==> ParseFieldScope(PositionalAt(parts, 1).value) == Ok(m.scope))
            && (!(i <= 1 && PositionalAt(parts, 1).Some?) ==> m.scope == meta.scope)
    decreases |parts| - i
  {
    if i < |parts| {
      var part := TrimSpace(parts[i]);
      var m1 := ApplyPart(part, i, meta, parseFloat).value;
      assert ApplyParts(parts, i, meta, parseFloat) == ApplyParts(parts, i + 1, m1, parseFloat);
      ApplyPartEffect(part, i, meta, parseFloat);
      ApplyPartsScope(parts, i + 1, m1, parseFloat);
    }
  }

  /** Only a bare token at position 2 sets the mode. */
  lemma {:induction false} ApplyPartsMode(parts: seq<string>, i: nat, meta: FieldMeta, parseFloat: FloatParser)
    requires i <= |parts|
    requires ApplyParts(parts, i, meta, parseFloat).Ok?
    ensures var m := ApplyParts(parts, i, meta, parseFloat).value;
            && (i <= 2 && PositionalAt(parts, 2).Some? ==> ParseFieldMode(PositionalAt(parts, 2).value) == Ok(m.mode))
            && (!(i <= 2 && PositionalAt(parts, 2).Some?) ==> m.mode == meta.mode)
    decreases |parts| - i
  {
    if i < |parts| {
      var part := TrimSpace(parts[i]);
      var m1 := ApplyPart(part, i, meta, parseFloat).value;
      assert ApplyParts(parts, i, meta, parseFloat) == ApplyParts(parts, i + 1, m1, parseFloat);
      ApplyPartEffect(part, i, meta, parseFloat);
      ApplyPartsMode(parts, i + 1, m1, parseFloat);
    }
  }

  /** Past position 0 the kind is fixed, and each attribute ends up with
      the meaning of its last `key=` token, or keeps its value when there is
      none. */
  lemma {:induction false} ApplyPartsSettings(parts: seq<string>, i: nat, meta: FieldMeta, parseFloat: FloatParser, key: AttrKey)
    requires i <= |parts|
    requires i > 0 || PositionalAt(parts, 0).None?
    requires ApplyParts(parts, i, meta, parseFloat).Ok?
    ensures var m := ApplyParts(parts, i, meta, parseFloat).value;
            && m.kind == meta.kind
            && (LastSetting(parts, i, key).Some? ==>
                  Some(Attr(m, key)) == AttrMeaning(key, LastSetting(parts, i, key).value, meta.kind, parseFloat))
            && (LastSetting(parts, i, key).None? ==> Attr(m, key) == Attr(meta, key))
    decreases |parts| - i
  {
    if i < |parts| {
      var part := TrimSpace(parts[i]);
      var m1 := ApplyPart(part, i, meta, parseFloat).value;
      ApplyPartSetting(part, i, meta, parseFloat, key);
      ApplyPartsSettings(parts, i + 1, m1, parseFloat, key);
    }
  }

  /** One token past position 0 (or one that is not bare) keeps the kind,
      gives attribute `key` its meaning when it is a `key=` token, and
      leaves that attribute alone otherwise. */
  lemma ApplyPartSetting(part: string, i: nat, meta: FieldMeta, parseFloat: FloatParser, key: AttrKey)
    requires ApplyPart(part, i, meta, parseFloat).Ok?
    requires i > 0 || !Bare(part)
    ensures var m := ApplyPart(part, i, meta, parseFloat).value;
            && m.kind == meta.kind
            && ('=' in part && KeyNamed(KeyOf(part)) == Some(key) ==>
                  Some(Attr(m, key)) == AttrMeaning(key, ValueOf(part), meta.kind, parseFloat))
            && (!('=' in part && KeyNamed(KeyOf(part)) == Some(key)) ==> Attr(m, key) == Attr(meta, key))
  {
    ApplyPartEffect(part, i, meta, parseFloat);
    if '=' in part {
      KeyValueSetsAttr(part, meta, parseFloat, key);
    }
  }

  /** parseFieldTag rejects exactly the empty tag with "empty tag"; any other
      tag is accepted iff every one of its trimmed parts is acceptable on its
      own (so the first bad token fails the whole descriptor). */
  lemma FieldTagAccepts(name: string, tag: string, parseFloat: FloatParser)
    ensures |tag| == 0 <==> ParseFieldTag(name, tag, parseFloat) == Err("empty tag")
    ensures ParseFieldTag(name, tag, parseFloat).Ok?
            <==> |tag| > 0 && forall j :: 0 <= j < |SplitTagParts(tag)| ==> TokenOk(TrimSpace(SplitTagParts(tag)[j]), j)
  {
    var parts := SplitTagParts(tag);
    TagPartsEmpty(tag);
    if |parts| > 0 {
      ApplyPartsAccepts(parts, 0, InitialMeta(name), parseFloat);
      var r := ApplyParts(parts, 0, InitialMeta(name), parseFloat);
      if r.Err? {
        ApplyPartsErrors(parts, 0, InitialMeta(name), parseFloat);
        TokenErrorNotEmptyTag(r.msg);
      }
    }
  }

  /** A non-empty tag fails only with the error of one of its tokens. */
  lemma FieldTagErrors(name: string, tag: string, parseFloat: FloatParser)
    requires tag != [] && ParseFieldTag(name, tag, parseFloat).Err?
    ensures TokenError(ParseFieldTag(name, tag, parseFloat).msg)
  {
    TagPartsEmpty(tag);
    ApplyPartsErrors(SplitTagParts(tag), 0, InitialMeta(name), parseFloat);
  }

  /** On success, kind, scope and mode are named by the bare tokens at
      positions 0, 1 and 2 (string, global and last when a position holds no
      bare token). */
  lemma FieldTagPositions(name: string, tag: string, parseFloat: FloatParser)
    requires ParseFieldTag(name, tag, parseFloat).Ok?
    ensures var m := ParseFieldTag(name, tag, parseFloat).value;
            var parts := SplitTagParts(tag);
            && m.name == name
            && (PositionalAt(parts, 0).Some? ==> ParseFieldType(PositionalAt(parts, 0).value) == Ok(m.kind))
            && (PositionalAt(parts, 0).None? ==> m.kind == StringKind)
            && (PositionalAt(parts, 1).Some? ==> ParseFieldScope(PositionalAt(parts, 1).value) == Ok(m.scope))
            && (PositionalAt(parts, 1).None? ==> m.scope == Global)
            && (PositionalAt(parts, 2).Some? ==> ParseFieldMode(PositionalAt(parts, 2).value) == Ok(m.mode))
            && (PositionalAt(parts, 2).None? ==> m.mode == LastMode)
  {
    ApplyPartsPositions(SplitTagParts(tag), 0, InitialMeta(name), parseFloat);
  }

  /** On success, every attribute has the meaning of its last `key=` token
      (a default is converted with the final kind), and keeps its zero value
      when no token sets it. */
  lemma FieldTagAttr(name: string, tag: string, parseFloat: FloatParser, key: AttrKey)
    requires ParseFieldTag(name, tag, parseFloat).Ok?
    ensures var m := ParseFieldTag(name, tag, parseFloat).value;
            var setting := LastSetting(SplitTagParts(tag), 0, key);
            && (setting.Some? ==> Some(Attr(m, key)) == AttrMeaning(key, setting.value, m.kind, parseFloat))
            && (setting.None? ==> Attr(m, key) == Attr(InitialMeta(name), key))
  {
    var parts := SplitTagParts(tag);
    var init := InitialMeta(name);
    if PositionalAt(parts, 0).Some? {
      var part := TrimSpace(parts[0]);
      var m1 := ApplyPart(part, 0, init, parseFloat).value;
      ApplyPartEffect(part, 0, init, parseFloat);
      ApplyPartsSettings(parts, 1, m1, parseFloat, key);
      LastSettingSkipsBare(parts, key);
      assert Attr(m1, key) == Attr(init, key);
    } else {
      ApplyPartsSettings(parts, 0, init, parseFloat, key);
    }
  }

  lemma LastSettingSkipsBare(parts: seq<string>, key: AttrKey)
    requires PositionalAt(parts, 0).Some?
    ensures LastSetting(parts, 0, key) == LastSetting(parts, 1, key)
  {
  }

  // =====================================================================
  // Switch names (parseFlagName)
  // =====================================================================

  /** The lower-cased, hyphenated rendering of `s`; `first` says whether
      `s` starts the field name (no hyphen before a leading capital). */
  function Kebab(s: string, first: bool): (r: string)
    ensures forall c :: c in r ==> !IsUpper(c)
    decreases |s|
  {
    if |s| == 0 then []
    else (if !first && IsUpper(s[0]) then "-" else []) + [LowerChar(s[0])] + Kebab(s[1..], false)
  }

  /** parseFlagName: "X" becomes "-x", "InputFile" becomes "-input-file". A
      one-byte name is lower-cased directly; any other name is walked rune by
      rune, with a hyphen before every capital but the first. */
  function ParseFlagName(fieldName: string): (r: string)
    ensures |r| >= 1 && r[0] == '-'
    ensures forall c :: c in r ==> !IsUpper(c)
  {
    if |fieldName| == 1 && fieldName[0] as int < 128 then "-" + Lower(fieldName)
    else "-" + Kebab(fieldName, true)
  }

  /** Reads a switch name back into a field name: hyphens are dropped and the
      letter after each hyphen, and the first letter, are capitalised. */
  function Camel(s: string, capNext: bool): string
    decreases |s|
  {
    if |s| == 0 then []
    else if s[0] == '-' then Camel(s[1..], true)
    else [if capNext then UpperChar(s[0]) else s[0]] + Camel(s[1..], false)
  }

  function FieldNameOfFlag(flag: string): string {
    if |flag| == 0 then [] else Camel(flag[1..], true)
  }

  /** A Go exported field name: it starts with a character that is not an
      ASCII lower-case letter and contains no hyphen. */
  predicate IsExportedName(name: string) {
    (|name| == 0 || !IsLowerLetter(name[0])) && '-' !in name
  }

  lemma {:induction false} KebabCamel(s: string, first: bool)
    requires '-' !in s
    requires first ==> |s| == 0 || !IsLowerLetter(s[0])
    ensures Camel(Kebab(s, first), first) == s
    decreases |s|
  {
    if |s| > 0 {
      var c, rest := s[0], s[1..];
      var tail := Kebab(rest, false);
      var lc := LowerChar(c);
      assert Camel(tail, false) == rest by {
        KebabCamel(rest, false);
      }
      assert s == [c] + rest;
      if !first && IsUpper(c) {
        assert Kebab(s, first) == "-" + ([lc] + tail);
        assert Camel("-" + ([lc] + tail), false) == [c] + Camel(tail, false) by {
          CamelCons('-', [lc] + tail, false);
          assert ("-" + ([lc] + tail))[1..] == [lc] + tail;
          CamelCons(lc, tail, true);
          UpperLowerInverse(c);
        }
      } else {
        assert Kebab(s, first) == [lc] + tail;
        assert Camel([lc] + tail, first) == [c] + Camel(tail, false) by {
          CamelCons(lc, tail, first);
          if IsUpper(c) {
            UpperLowerInverse(c);
          }
        }
      }
    }
  }

  /** Camel on a word starting with `c`. */
  lemma CamelCons(c: char, tail: string, capNext: bool)
    ensures c == '-' ==> Camel([c] + tail, capNext) == Camel(tail, true)
    ensures c != '-' ==> Camel([c] + tail, capNext) == [if capNext then UpperChar(c) else c] + Camel(tail, false)
  {
    assert ([c] + tail)[1..] == tail;
  }

  /** Switch names round-trip: an exported field name is recovered from its
      switch, so distinct fields never share a switch. */
  lemma FlagNameRoundTrip(name: string)
    requires IsExportedName(name)
    ensures FieldNameOfFlag(ParseFlagName(name)) == name
  {
    var flag := ParseFlagName(name);
    if |name| == 1 && name[0] as int < 128 {
      assert flag == "-" + Kebab(name, true);
    }
    assert flag[1..] == Kebab(name, true);
    KebabCamel(name, true);
  }

  lemma FlagNameInjective(a: string, b: string)
    requires IsExportedName(a) && IsExportedName(b) && a != b
    ensures ParseFlagName(a) != ParseFlagName(b)
  {
    FlagNameRoundTrip(a);
    FlagNameRoundTrip(b);
  }

  /** Characters that are not capitals pass through unchanged. */
  lemma {:induction false} KebabLowerRun(w: string, rest: string)
    requires forall i :: 0 <= i < |w| ==> !IsUpper(w[i])
    ensures Kebab(w + rest, false) == w + Kebab(rest, false)
    decreases |w|
  {
    if |w| == 0 {
      assert w + rest == rest;
    } else {
      var s := w + rest;
      assert s[0] == w[0] && s[1..] == w[1..] + rest;
      assert Kebab(s, false) == [w[0]] + Kebab(w[1..] + rest, false);
      KebabLowerRun(w[1..], rest);
      assert w == [w[0]] + w[1..];
    }
  }

  /** A capital followed by lower-case letters becomes one hyphenated word
      (no hyphen at the start of the name). */
  lemma KebabWord(c: char, w: string, rest: string, first: bool)
    requires IsUpper(c)
    requires forall i :: 0 <= i < |w| ==> !IsUpper(w[i])
    ensures Kebab([c] + w + rest, first) == (if first then "" else "-") + [LowerChar(c)] + w + Kebab(rest, false)
  {
    var s := [c] + w + rest;
    assert s[0] == c && s[1..] == w + rest;
    KebabLowerRun(w, rest);
  }

  /** A two-word name becomes two hyphen-joined lower-case words. */
  lemma TwoWordFlag(c1: char, w1: string, c2: char, w2: string)
    requires IsUpper(c1) && IsUpper(c2)
    requires forall i :: 0 <= i < |w1| ==> !IsUpper(w1[i])
    requires forall i :: 0 <= i < |w2| ==> !IsUpper(w2[i])
    ensures ParseFlagName([c1] + w1 + [c2] + w2) == "-" + [LowerChar(c1)] + w1 + "-" + [LowerChar(c2)] + w2
  {
    var second := [c2] + w2;
    var name := [c1] + w1 + second;
    assert name == [c1] + w1 + [c2] + w2;
    var k2 := "-" + [LowerChar(c2)] + w2;
    assert Kebab(second, false) == k2 by {
      KebabWord(c2, w2, [], false);
      assert [c2] + w2 + [] == second;
      assert "-" + [LowerChar(c2)] + w2 + [] == k2;
    }
    assert Kebab(name, true) == [LowerChar(c1)] + w1 + k2 by {
      KebabWord(c1, w1, second, true);
      assert "" + [LowerChar(c1)] == [LowerChar(c1)];
    }
    assert ParseFlagName(name) == "-" + Kebab(name, true) by {
      assert |name| >= 2;
    }
  }

  lemma FlagNameExamples()
    ensures ParseFlagName("X") == "-x"
    ensures ParseFlagName("InputFile") == "-input-file"
  {
    assert Lower("X") == "x";
    TwoWordFlag('I', "nput", 'F', "ile");
    assert ['I'] + "nput" + ['F'] + "ile" == "InputFile";
    assert "-" + [LowerChar('I')] + "nput" + "-" + [LowerChar('F')] + "ile" == "-input-file";
  }
}

=== FILE: tsv_completer.dfy ===
/** The stand-alone completer of completion/tsv.go: it offers the header
    names of a table file named on the command line when the word under the
    cursor looks like a field name, keeping a per-file cache of headers. It
    never reports an error; failing lookups offer nothing. */
module TsvCompleter {
  import opened Results
  import opened Strings
  import opened Patterns
  import opened Tables
  import Completion

  /** TSVCompleter: the header cache (NewTSVCompleter starts it empty). */
  datatype TSVCompleter = TSVCompleter(cache: FieldCache)

  function NewTSVCompleter(): (c: TSVCompleter)
    ensures c.cache == map[]
    ensures forall fs: FileSystem :: FieldCacheFaithful(c.cache, fs)
  {
    TSVCompleter(map[])
  }

  // =====================================================================
  // The table file of a command line (findTSVFile)
  // =====================================================================

  /** The two cases of findTSVFile as written: a `.tsv` word not starting
      with `-` that follows a file switch, comes first, or follows a word
      not starting with `-`; or a `.tsv` word right after a file switch. */
  predicate TsvCandidate(args: seq<string>, i: nat)
    requires i < |args|
  {
    var arg := args[i];
    || (HasSuffix(arg, ".tsv") && !HasPrefix(arg, "-")
        && ((i > 0 && Completion.FileFlag(args[i - 1])) || i == 0 || !HasPrefix(args[i - 1], "-")))
    || (i > 0 && Completion.FileFlag(args[i - 1]) && HasSuffix(arg, ".tsv"))
  }

  /** A word is taken exactly when it ends in `.tsv` and either follows a
      file switch, or does not start with `-` and is first or follows a
      word not starting with `-`. */
  lemma TsvCandidateMeaning(args: seq<string>, i: nat)
    requires i < |args|
    ensures TsvCandidate(args, i) <==>
              HasSuffix(args[i], ".tsv")
              && ((i > 0 && Completion.FileFlag(args[i - 1]))
                  || (!HasPrefix(args[i], "-") && (i == 0 || !HasPrefix(args[i - 1], "-"))))
  {
  }

  /** Every word this completer takes as the table file is one the
      command's own analyzer would take too (which also accepts `.csv`
      words and words after a separator). */
  lemma TsvCandidateIsTableCandidate(args: seq<string>, i: nat)
    requires i < |args| && TsvCandidate(args, i)
    ensures Completion.TableCandidate(args, i)
  {
  }

  /** The position of the first candidate at or after `i`; `|args|` when
      there is none. */
  function FirstTsv(args: seq<string>, i: nat): (k: nat)
    requires i <= |args|
    ensures i <= k <= |args|
    ensures forall m :: i <= m < k ==> !TsvCandidate(args, m)
    ensures k < |args| ==> TsvCandidate(args, k)
    decreases |args| - i
  {
    if i == |args| then |args|
    else if TsvCandidate(args, i) then i
    else FirstTsv(args, i + 1)
  }

  /** findTSVFile: the first candidate, "" when there is none. */
  function FindTSVFile(args: seq<string>): (r: string)
    ensures r != "" ==> r in args && HasSuffix(r, ".tsv")
  {
    var k := FirstTsv(args, 0);
    if k == |args| then "" else args[k]
  }

  /** The table file is the first candidate word, and there is none
      exactly when no word is a candidate. */
  lemma FindTSVFileMeaning(args: seq<string>)
    ensures FindTSVFile(args) == "" <==> forall j :: 0 <= j < |args| ==> !TsvCandidate(args, j)
    ensures FindTSVFile(args) != "" ==>
              exists j :: 0 <= j < |args| && TsvCandidate(args, j) && args[j] == FindTSVFile(args)
                          && forall m :: 0 <= m < j ==> !TsvCandidate(args, m)
  {
    var k := FirstTsv(args, 0);
    if k < |args| {
      assert |args[k]| >= 4;
    }
  }

  // =====================================================================
  // Complete
  // =====================================================================

  /** The word before the cursor: past the end it is the last word. */
  function PreviousWord(args: seq<string>, pos: nat): string {
    if pos == 0 then ""
    else if pos - 1 < |args| then args[pos - 1]
    else if |args| > 0 then args[|args| - 1]
    else ""
  }

  /** A switch that takes a field name: `-x`, `-y`, or any word containing
      `field`. */
  predicate FieldSwitch(w: string) {
    w == "-x" || w == "-y" || ContainsSub(w, "field")
  }

  /** Whether Complete looks for field names at all. */
  predicate WantsFields(args: seq<string>, pos: nat) {
    var current := Completion.CurrentWord(args, pos);
    FieldSwitch(PreviousWord(args, pos)) || (!HasPrefix(current, "-") && current != "")
  }

  /** The second attempt: a word under the cursor that names a `.tsv` file
      offers all of that file's header names. */
  function FromCurrentFile(cache: FieldCache, fs: FileSystem, current: string): (r: (seq<string>, FieldCache))
  {
    if HasSuffix(current, ".tsv") then
      var (names, c) := CompleteField(cache, fs, current, "");
      (if names.Ok? then names.value else [], c)
    else ([], cache)
  }

  /** Complete: names of the command line's table file matching the word
      under the cursor, when there are any; otherwise, for a `.tsv` word,
      that file's names; otherwise nothing. */
  function Complete(tc: TSVCompleter, fs: FileSystem, args: seq<string>, pos: nat): (r: (seq<string>, TSVCompleter))
  {
    var current := Completion.CurrentWord(args, pos);
    if WantsFields(args, pos) then
      var tsv := FindTSVFile(args);
      if tsv != "" then
        var (names, c) := CompleteField(tc.cache, fs, tsv, current);
        if names.Ok? && |names.value| > 0 then (names.value, TSVCompleter(c))
        else
          var (more, c') := FromCurrentFile(c, fs, current);
          (more, TSVCompleter(c'))
      else
        var (more, c') := FromCurrentFile(tc.cache, fs, current);
        (more, TSVCompleter(c'))
    else ([], tc)
  }

  /** A word starting with `-` that does not follow a field switch gets
      nothing, and the cache is not touched; so does the position past the
      end unless the last word is a field switch. */
  lemma CompleteSkipsSwitches(tc: TSVCompleter, fs: FileSystem, args: seq<string>, pos: nat)
    requires !FieldSwitch(PreviousWord(args, pos))
    requires HasPrefix(Completion.CurrentWord(args, pos), "-") || pos >= |args|
    ensures Complete(tc, fs, args, pos) == ([], tc)
  {
  }

  /** With a faithful cache, every offer is a header name: of the command
      line's table file, matching the word under the cursor, or of the
      `.tsv` file under the cursor. */
  lemma CompleteOffersHeaderNames(tc: TSVCompleter, fs: FileSystem, args: seq<string>, pos: nat)
    requires FieldCacheFaithful(tc.cache, fs)
    ensures var current := Completion.CurrentWord(args, pos);
            var tsv := FindTSVFile(args);
            forall x :: x in Complete(tc, fs, args, pos).0 ==>
              || (tsv != "" && ReadHeader(fs, tsv).Ok? && x in ReadHeader(fs, tsv).value && MatchesPartial(x, current))
              || (HasSuffix(current, ".tsv") && ReadHeader(fs, current).Ok? && x in ReadHeader(fs, current).value)
  {
    var current := Completion.CurrentWord(args, pos);
    var tsv := FindTSVFile(args);
    var c := tc.cache;
    if tsv != "" {
      GetFieldsTransparent(tc.cache, fs, tsv);
      c := CompleteField(tc.cache, fs, tsv, current).1;
    }
    forall x | x in Complete(tc, fs, args, pos).0
      ensures || (tsv != "" && ReadHeader(fs, tsv).Ok? && x in ReadHeader(fs, tsv).value && MatchesPartial(x, current))
              || (HasSuffix(current, ".tsv") && ReadHeader(fs, current).Ok? && x in ReadHeader(fs, current).value)
    {
      if tsv != "" {
        CompleteFieldSpec(tc.cache, fs, tsv, current, x);
      }
      if HasSuffix(current, ".tsv") {
        CompleteFieldSpec(c, fs, current, "", x);
      }
    }
  }

  /** Whether the command line's table file gives no name for `current`:
      there is no table file, it cannot be read, or none of its header
      names matches. */
  predicate NoTableMatch(fs: FileSystem, tsv: string, current: string) {
    || tsv == ""
    || ReadHeader(fs, tsv).Err?
    || forall x :: x in ReadHeader(fs, tsv).value ==> !MatchesPartial(x, current)
  }

  /** The main path: when the command line's table file has header names
      matching the word under the cursor, exactly those names are offered,
      in header order. */
  lemma CompleteTableMatches(tc: TSVCompleter, fs: FileSystem, args: seq<string>, pos: nat)
    requires FieldCacheFaithful(tc.cache, fs)
    requires WantsFields(args, pos)
    requires FindTSVFile(args) != "" && fs(FindTSVFile(args)).Lines? && |fs(FindTSVFile(args)).lines| > 0
    ensures var header, current := ReadHeader(fs, FindTSVFile(args)).value, Completion.CurrentWord(args, pos);
            |FilterPartial(header, current)| > 0 ==>
              && Complete(tc, fs, args, pos).0 == FilterPartial(header, current)
              && (forall x :: x in Complete(tc, fs, args, pos).0 <==> x in header && MatchesPartial(x, current))
              && Subsequence(Complete(tc, fs, args, pos).0, header)
  {
    var tsv, current := FindTSVFile(args), Completion.CurrentWord(args, pos);
    var header := ReadHeader(fs, tsv).value;
    GetFieldsTransparent(tc.cache, fs, tsv);
    forall y
      ensures y in FilterPartial(header, current) <==> y in header && MatchesPartial(y, current)
    {
      FilterMembers(header, current, y);
    }
    FilterSubsequence(header, current);
  }

  /** The fallback: when the command line's table file gives no matching
      name, a readable `.tsv` word under the cursor offers all of its header
      names, and any other word gets nothing. */
  lemma CompleteFallsBack(tc: TSVCompleter, fs: FileSystem, args: seq<string>, pos: nat)
    requires FieldCacheFaithful(tc.cache, fs)
    requires WantsFields(args, pos)
    requires NoTableMatch(fs, FindTSVFile(args), Completion.CurrentWord(args, pos))
    ensures var current := Completion.CurrentWord(args, pos);
            Complete(tc, fs, args, pos).0
            == if HasSuffix(current, ".tsv") && ReadHeader(fs, current).Ok? then ReadHeader(fs, current).value else []
  {
    var tsv, current := FindTSVFile(args), Completion.CurrentWord(args, pos);
    var c := tc.cache;
    if tsv != "" {
      GetFieldsTransparent(tc.cache, fs, tsv);
      c := CompleteField(tc.cache, fs, tsv, current).1;
      if ReadHeader(fs, tsv).Ok? {
        var header := ReadHeader(fs, tsv).value;
        if |FilterPartial(header, current)| > 0 {
          FilterMembers(header, current, FilterPartial(header, current)[0]);
          assert false;
        }
      }
    }
    CompleteFieldSpec(c, fs, current, "", "");
  }

  /** When the command line names no table file, a readable `.tsv` word
      under the cursor offers every one of its header names. */
  lemma CompleteCurrentFile(tc: TSVCompleter, fs: FileSystem, args: seq<string>, pos: nat)
    requires FieldCacheFaithful(tc.cache, fs)
    requires FindTSVFile(args) == ""
    requires pos < |args| && HasSuffix(args[pos], ".tsv") && !HasPrefix(args[pos], "-")
    requires ReadHeader(fs, args[pos]).Ok?
    ensures Complete(tc, fs, args, pos).0 == ReadHeader(fs, args[pos]).value
  {
    CompleteFieldSpec(tc.cache, fs, args[pos], "", "");
  }

  /** Completion keeps the cache faithful to unchanged files. */
  lemma CompleteKeepsCacheFaithful(tc: TSVCompleter, fs: FileSystem, args: seq<string>, pos: nat)
    requires FieldCacheFaithful(tc.cache, fs)
    ensures FieldCacheFaithful(Complete(tc, fs, args, pos).1.cache, fs)
  {
    var current := Completion.CurrentWord(args, pos);
    var tsv := FindTSVFile(args);
    var c := tc.cache;
    if tsv != "" {
      GetFieldsTransparent(tc.cache, fs, tsv);
      c := CompleteField(tc.cache, fs, tsv, current).1;
    }
    GetFieldsTransparent(c, fs, current);
  }
}

=== FILE: types.dfy ===
/** The shared data model of the grammar (gs/types.go): field descriptors,
    argument specifications, parsed values, clauses and the two error kinds. */
module Types {
  import opened Results
  import opened Strings

  /** The kind of a field: free text, a TSV field name, a file path, a number,
      a boolean flag, or a switch taking several arguments. */
  datatype Kind = StringKind | FieldKind | FileKind | NumberKind | FlagKind | MultiKind

  /** The kind of one argument of a multi-argument switch. */
  datatype ArgType = StringArg | FieldArg | ContentArg | FileArg | NumberArg

  datatype ArgumentSpec = ArgumentSpec(name: string, argType: ArgType)

  /** Whether a value applies to the whole command or to its clause only. */
  datatype Scope = Global | Local

  /** Whether repeated occurrences keep the last value or collect a list. */
  datatype Mode = LastMode | ListMode

  /** A parsed value. `Strs` is Go's `[]string` (the positional `_args`
      list), `List` is `[]interface{}` (list-mode values), `Obj` is
      `map[string]interface{}` (multi-argument values and negation wrappers). */
  datatype Value =
    | Str(s: string)
    | Num(x: real)
    | Bool(b: bool)
    | Strs(items: seq<string>)
    | List(elems: seq<Value>)
    | Obj(entries: map<string, Value>)

  /** The descriptor of one field, as parsed from its tag. */
  datatype FieldMeta = FieldMeta(
    name: string,
    kind: Kind,
    scope: Scope,
    mode: Mode,
    args: seq<ArgumentSpec>,
    defaultValue: Option<Value>,
    help: string,
    required: bool,
    complete: string,
    suffix: string,
    enum: seq<string>)

  /** One clause of a command line: the values given in it, keyed by field
      name, and whether it was opened by `+`. */
  datatype ClauseSet = ClauseSet(fields: map<string, Value>, negated: bool)

  /** `strconv.ParseFloat(s, 64)`: the decimal-literal grammar is outside the
      model, so the parser is a parameter; `None` is a parse failure. */
  type FloatParser = string -> Option<real>

  /** `strconv.ParseBool`: the exact literal table. */
  function ParseBool(s: string): Option<bool> {
    if s == "1" || s == "t" || s == "T" || s == "TRUE" || s == "true" || s == "True" then Some(true)
    else if s == "0" || s == "f" || s == "F" || s == "FALSE" || s == "false" || s == "False" then Some(false)
    else None
  }

  /** A grammar error; `field` may be empty. */
  datatype ParseError = ParseError(field: string, value: string, message: string)

  /** The text of a `ParseError`: prefixed with the field when there is one. */
  function ParseErrorText(e: ParseError): (r: string)
    ensures HasSuffix(r, e.message)
    ensures e.field == [] ==> r == e.message
    ensures e.field != [] ==> HasPrefix(r, "field " + e.field + ": ")
    ensures e.field != [] ==> |r| == |e.field| + |e.message| + 8
  {
    if e.field != [] then "field " + e.field + ": " + e.message else e.message
  }

  /** An error raised by the execution layer after parsing succeeded. */
  datatype ValidationError = ValidationError(field: string, message: string)

  function ValidationErrorText(e: ValidationError): (r: string)
    ensures HasPrefix(r, "validation error for field " + e.field + ": ")
    ensures HasSuffix(r, e.message)
    ensures |r| == 29 + |e.field| + |e.message|
  {
    "validation error for field " + e.field + ": " + e.message
  }
}
